=== FILE: README.md ===
# WebCursos: a Dafny model of the course platform's core

WebCursos is a single-page course platform. It runs on React with a Firestore
store. Learners register, wait for an administrator to grant them access, then
watch the YouTube lessons of a course module by module. They mark lessons
completed, see their percentage, and download a certificate once a course is
complete. Without access they get the first lesson of the first module as a
free preview. Administrators edit courses, modules, lessons and their
resources, and grant or revoke access per user.

This project models that core as pure functions over immutable data:

- **Types**: the shared records and the totals over a course tree.
- **Seqs**, **Text**, **Ordering**: JavaScript's `find`/`findIndex`/`filter`,
  `trim`, the `\s` whitespace class, `toLowerCase`, decimal rendering and
  `includes`, and the stable sort by `order` the editor applies.
- **VideoHelpers**: the YouTube address parsing the lesson editor and the player rely on.
- **CourseContext**: the progress store. It covers creating, fetching and marking
  progress, the course percentage and the certificate write.
- **CourseManager**: the administrator's editor. It covers saving, numbering,
  ordering and deleting courses, modules, lessons and resources.
- **ModuleAccordion**, **VideoPlayer**, **CourseDetail**: the course page. It
  covers the lesson menu, the player's locking and completion reporting, and
  the page's panels.
- **PrivateRoute**, **App**, **CourseDetailPage**: the route guards and the route table.
- **CourseCard**, **CoursePreview**, **ProfilePage**: the catalogue card, the
  sales page for learners without access, and the profile summary.
- **RegisterForm**: field validation, the admin code and navigation after registering.
- **UserList**: the administrator's access toggle.

The store, authentication and the clock are not called. Each write is returned
as data and the store's reply comes in as a parameter (`StoreReply`: `Ack` or
`Failed`). Fresh ids (`crypto.randomUUID`, `uuidv4`) and `new Date()` are
parameters too.

A bare 11-character video id is not a valid lesson address.
`extractYouTubeVideoId`'s second pattern, `^[a-zA-Z0-9_-]{11}$`, has no
capture group, so `match[1]` is undefined and a bare id is rejected
(`VideoHelpers.BareIdIsRejected`).

## Model

| member | source | states |
|---|---|---|
| Types.AllLessons | src/context/CourseContext.tsx:124-127 | a lesson is in the flattened list exactly when it belongs to one of the course's modules |
| Types.HasAccess | src/components/Courses/CourseDetail.tsx:23 | `userData?.hasAccess || false`: no access without a profile, otherwise the profile's flag |
| Types.IsAdmin | src/utils/PrivateRoute.tsx:28 | `userData?.isAdmin`: no administrator without a profile, otherwise the profile's flag |
| Types.TotalLessonsCountsAll | src/context/CourseContext.tsx:124-127 | the module-by-module lesson count equals the length of the flattened lesson list |
| Types.TotalDurationSumsAll | src/components/Courses/CourseCard.tsx:26-33 | the nested duration reduce equals the sum over the flattened lessons |
| Types.CountCompleted | src/context/CourseContext.tsx:133-135 | the completed count of a module is at most its size, and equals it exactly when every lesson id is in the completed list |
| Types.CompletedInCourseIsFlatCount | src/context/CourseContext.tsx:132-136 | counting completed lessons module by module equals counting them over the flattened course |
| Types.CompletedInCourseBounds | src/context/CourseContext.tsx:124-136 | the completed count never exceeds the lesson count, and equals it exactly when every lesson of the course is completed |
| Types.CompletedInCourseMonotone | src/context/CourseContext.tsx:132-136 | growing the completed list never lowers a course's completed count |
| Types.CompletedInCourseIgnoresForeign | src/context/CourseContext.tsx:132-136 | ids of lessons outside the course do not change its completed count |
| Types.CountCompletedOfOwnIds | src/context/CourseContext.tsx:133-135 | for lessons with distinct ids and a completed list of their own ids without repeats, the completed count is the length of that list |
| Seqs.FirstIndex | src/context/CourseContext.tsx:120 | the index `findIndex` returns: the first element satisfying the test, or -1 when none does |
| Seqs.Filter | src/components/Admin/UserList.tsx:19 | `filter` keeps the elements that pass the test, every one of them, and nothing else |
| Seqs.FilterIsSubsequence | src/components/Admin/UserList.tsx:19 | `filter` keeps its survivors in their original order |
| Seqs.FilterCount | src/components/Admin/UserList.tsx:19 | an element that passes occurs in the result as often as in the input; one that fails, never |
| Seqs.FilterSameTest | src/pages/ProfilePage.tsx:27-38 | two tests that agree on every element filter a list alike |
| Seqs.ReplaceFirst | src/components/Admin/CourseManager.tsx:150-157 | replacing at `findIndex` changes the first match only, and nothing when there is none |
| Text.TrimStart | src/components/Admin/CourseManager.tsx:91 | leading whitespace is removed and nothing else |
| Text.Trim | src/components/Admin/CourseManager.tsx:91 | `.trim()` never lengthens a string, and neither end of its result is whitespace |
| Text.TrimIsMiddle | src/components/Admin/CourseManager.tsx:124 | `.trim()` keeps a middle slice of the string, and only whitespace is cut off either side |
| Text.ToLower | src/components/Courses/CourseDetail.tsx:177 | `toLowerCase` leaves no capital, keeps every other character, moves each capital 32 code points up, and keeps whitespace in place |
| Text.ReplaceWhitespaceRuns | src/components/Courses/CourseDetail.tsx:177 | `replace(/\s+/g, rep)` builds its output from the input and the replacement only, and a non-empty input with a non-empty replacement gives a non-empty output |
| Text.TrimEnd | src/components/Admin/CourseManager.tsx:91 | trailing whitespace is removed and nothing else |
| Text.BlankIffAllWhitespace | src/components/Admin/CourseManager.tsx:91 | `!s.trim()` holds exactly when every character is whitespace |
| Text.ReplaceRunsRemovesWhitespace | src/components/Courses/CourseDetail.tsx:177 | `replace(/\s+/g, '_')` leaves no whitespace behind |
| Text.ReplaceRunsIdentity | src/components/Courses/CourseDetail.tsx:177 | a text without whitespace is left unchanged by the replacement |
| Text.NatToStringRoundTrip | src/components/Admin/CourseManager.tsx:144 | the decimal digits rendered into a title read back as the same number |
| Text.Contains | src/components/Courses/VideoPlayer.tsx:29 | `includes` holds exactly when the pattern occurs at some position |
| Ordering.NextOrder | src/components/Admin/CourseManager.tsx:138-140 | a new item's order is above every sibling's, and 0 when there are none |
| Ordering.MaxOrder | src/components/Admin/CourseManager.tsx:138 | `Math.max(...orders, -1)`: at least -1, at least every order, and either -1 or one of the orders |
| Ordering.SortByKey | src/components/Admin/CourseManager.tsx:160 | sorting by `order` permutes the list into ascending order and keeps orders distinct |
| Ordering.InsertKeepsSorted | src/components/Admin/CourseManager.tsx:160 | inserting one item into a sorted list keeps it sorted |
| Ordering.ConsSorted | src/components/Admin/CourseManager.tsx:160 | a head no larger than any element of a sorted list keeps it sorted |
| Ordering.InsertKeepsDistinct | src/components/Admin/CourseManager.tsx:160 | inserting an item with a fresh order keeps orders distinct |
| Ordering.SortIsStable | src/components/Admin/CourseManager.tsx:160 | the sort is stable: for every order value, the items carrying it keep their relative order |
| Ordering.WithKeyInsert | src/components/Admin/CourseManager.tsx:160 | inserting into a sorted list places the new item after every item with the same order |
| Ordering.WithKeySnoc | src/components/Admin/CourseManager.tsx:160 | appending an item adds it last among the items with its order, and changes no other order's items |
| Ordering.SortSortedIsIdentity | src/components/Admin/CourseManager.tsx:160 | sorting an already sorted list changes nothing, because the sort is stable |
| Ordering.FilterKeepsSorted | src/components/Admin/CourseManager.tsx:324 | deleting by filter keeps a list sorted |
| Ordering.FilterKeepsDistinct | src/components/Admin/CourseManager.tsx:324 | deleting by filter keeps orders distinct |
| VideoHelpers.IdRun | src/utils/videoHelpers.ts:13 | the captured id is the longest run of characters other than `&`, `?` and `/` after the marker |
| VideoHelpers.ExtractFrom | src/utils/videoHelpers.ts:13 | the search finds a match at some position from `i` on exactly when one exists, and returns what that match captures |
| VideoHelpers.ExtractYouTubeVideoId | src/utils/videoHelpers.ts:11-25 | an id is returned exactly when a watch, short or embed marker is followed by a non-empty id; it is the capture of such a match |
| VideoHelpers.ExtractAtLeftmost | src/utils/videoHelpers.ts:13 | the id returned is the one captured at the leftmost match |
| VideoHelpers.ValidateYouTubeUrl | src/utils/videoHelpers.ts:27-29 | an address is valid exactly when an id can be extracted from it |
| VideoHelpers.GetYouTubeEmbedUrl | src/utils/videoHelpers.ts:1-9 | the empty string exactly for an invalid address, otherwise a text starting with the embed base |
| VideoHelpers.NoDotNoId | src/utils/videoHelpers.ts:13 | an address without a dot never yields an id |
| VideoHelpers.BareIdIsRejected | src/utils/videoHelpers.ts:14 | a bare 11-character id is not accepted, since the second pattern captures nothing |
| VideoHelpers.ExtractFromEmbedAddress | src/utils/videoHelpers.ts:1-13 | the id is read back from the embed address built from it |
| VideoHelpers.EmbedRoundTrip | src/utils/videoHelpers.ts:1-13 | converting to the embed form keeps the id, and converting twice is the same as converting once |
| VideoHelpers.ExtractFromWatchAddress | src/utils/videoHelpers.ts:13 | the id of a standard watch address is the text up to the first `&`, `?` or `/` |
| VideoHelpers.RunOfId | src/utils/videoHelpers.ts:13 | the greedy `([^&?/]+)` at a position is exactly the run of id characters sitting there |
| CourseContext.FindCourse | src/context/CourseContext.tsx:120 | none exactly when no course has the id, otherwise a listed course with that id |
| CourseContext.FetchUserProgress | src/context/CourseContext.tsx:60-85 | signed out gives no progress; a stored record is used as is; a missing one is replaced by the initial record, which is created and kept only if the write succeeds; a failed read writes nothing and keeps the previous local copy |
| CourseContext.InitialProgress | src/context/CourseContext.tsx:74-79 | the new record belongs to the user, has no completed lessons and no certificate |
| CourseContext.MarkLessonAsCompleted | src/context/CourseContext.tsx:91-115 | a write happens exactly when signed in, the record is loaded and the lesson is not yet completed; on success the local record gains the lesson; otherwise it is unchanged |
| CourseContext.MarkKeepsLocalInSync | src/context/CourseContext.tsx:98-110 | after a successful mark, applying the write to the old record gives the new local record |
| CourseContext.MarkIsIdempotent | src/context/CourseContext.tsx:98 | marking the same lesson a second time writes nothing and changes nothing |
| CourseContext.MarkKeepsIdsDistinct | src/context/CourseContext.tsx:98-101 | a completed list without duplicates stays without duplicates |
| CourseContext.RoundPercent | src/context/CourseContext.tsx:138 | `Math.round(c / t * 100)` on exact ratios: at most 100 |
| CourseContext.RoundPercentIsNearest | src/context/CourseContext.tsx:138 | the result is the nearest integer to 100c/t, halves rounded up |
| CourseContext.RoundPercentExtremes | src/context/CourseContext.tsx:138 | the percentage is 100 exactly when at most t/200 lessons are open, and 0 exactly when fewer than t/200 are done |
| CourseContext.RoundPercentMonotone | src/context/CourseContext.tsx:138 | more completed lessons never give a lower percentage |
| CourseContext.GetCourseProgress | src/context/CourseContext.tsx:117-139 | as written: 0 without a record, an id or a course with lessons; otherwise the rounded percentage |
| CourseContext.RoundingReportsFullEarly | src/context/CourseContext.tsx:138 | as written, a course of 200 or more lessons with one open reports 100 while incomplete |
| CourseContext.CourseProgress | src/context/CourseContext.tsx:117-139 | corrected: at most 100, and 100 only when every lesson is done |
| CourseContext.CourseProgressCapsWritten | src/context/CourseContext.tsx:138 | the corrected value differs from the written one only where the written one reports 100 too early |
| CourseContext.CourseProgressFullIffCompleted | src/context/CourseContext.tsx:117-139 | for a tracked course, the percentage is 100 exactly when every lesson is completed |
| CourseContext.UntrackedIsZero | src/context/CourseContext.tsx:118-129 | without a record, an id, a course or any lessons, both versions report 0 |
| CourseContext.ProgressAgreesBelow200 | src/context/CourseContext.tsx:138 | below 200 lessons the written and corrected percentages coincide |
| CourseContext.CourseProgressMonotone | src/context/CourseContext.tsx:132-138 | `getCourseProgress`, and the corrected percentage too, never reports less for a record whose completed list includes another's |
| CourseContext.CourseProgressIgnoresForeign | src/context/CourseContext.tsx:132-136 | completed ids of other courses change neither `getCourseProgress` nor the corrected percentage of a course |
| CourseContext.InitialProgressIsZero | src/context/CourseContext.tsx:74-79 | on a freshly created record `getCourseProgress` and the corrected percentage are 0 for every course |
| CourseContext.MarkNeverLowersProgress | src/context/CourseContext.tsx:91-115 | marking a lesson never lowers `getCourseProgress`, nor the corrected percentage, of any course |
| CourseContext.CertificateFileName | src/context/CourseContext.tsx:157 | the file name is `certificate_`, the course id, `_`, the user id and `.pdf` |
| CourseContext.CertificateFileNameInjective | src/context/CourseContext.tsx:157 | for a course id without `_`, different course or user ids give different file names |
| CourseContext.GenerateCertificate | src/context/CourseContext.tsx:141-162 | refused when signed out; otherwise the flag is written; the name is issued only on success, when the local record gains the flag |
| CourseContext.CertificateKeepsProgress | src/context/CourseContext.tsx:150-155 | issuing the certificate leaves every course's percentage as it was, both the displayed `getCourseProgress` and the corrected one |
| CourseManager.Place | src/components/Admin/CourseManager.tsx:150-160 | a create adds the item; an edit replaces the first sibling with its id, or nothing; the result is sorted by order |
| CourseManager.PlaceCreateKeepsDistinct | src/components/Admin/CourseManager.tsx:138-160 | a created item above every order keeps orders distinct |
| CourseManager.PlaceEditKeepsDistinct | src/components/Admin/CourseManager.tsx:133-160 | an edit keeping the replaced sibling's order keeps orders distinct |
| CourseManager.PlaceCreateAppends | src/components/Admin/CourseManager.tsx:138-160 | on a sorted list a created item lands at the end |
| CourseManager.PlaceEditInPlace | src/components/Admin/CourseManager.tsx:133-160 | on a sorted list an edit replaces the item where it stands |
| CourseManager.LeadingDigits | src/components/Admin/CourseManager.tsx:144 | the longest run of digits at the front of a title |
| CourseManager.StripCounterOf | src/components/Admin/CourseManager.tsx:144 | the counter a numbered title carries is read back off its front |
| CourseManager.NumberedTitle | src/components/Admin/CourseManager.tsx:144 | `${word}${order + 1}: ${title}`: the word in front, `: ` and the typed title at the end, longer than both together |
| CourseManager.StripNumberedTitle | src/components/Admin/CourseManager.tsx:144 | stripping the `Módulo n: ` or `Lección n: ` prefix gives back the typed title |
| CourseManager.NumberedTitleIsLonger | src/components/Admin/CourseManager.tsx:144 | a numbered title is strictly longer than the typed one |
| CourseManager.ModuleRecord | src/components/Admin/CourseManager.tsx:124-146 | an edit keeps order, id and lessons; a create takes a fresh id and the next order; the title is numbered by the order |
| CourseManager.SaveModuleList | src/components/Admin/CourseManager.tsx:148-160 | the written list is sorted; a create adds the record; an edit keeps the count |
| CourseManager.SaveModuleKeepsOrdersDistinct | src/components/Admin/CourseManager.tsx:133-160 | saving a module keeps sibling orders distinct whenever the first module carrying the edited id, if any, still has the edited order; a stale edited module whose id is gone is included |
| CourseManager.EditedIsFound | src/components/Admin/CourseManager.tsx:150 | with unique ids, `findIndex` finds the edited member itself |
| CourseManager.SaveModuleOnSortedList | src/components/Admin/CourseManager.tsx:148-160 | on a sorted list a new module is appended; an edit replaces the first module with its id in place, or changes nothing when none is left; a listed edited module keeps its own index |
| CourseManager.SaveMissingModuleChangesNothing | src/components/Admin/CourseManager.tsx:150-157 | editing a module that is no longer listed writes the list back unchanged |
| CourseManager.LessonRecord | src/components/Admin/CourseManager.tsx:240-259 | the lesson built by a save: the order and id rules of modules, a numbered title, and the form's fields and resources |
| CourseManager.SaveLessonList | src/components/Admin/CourseManager.tsx:259-271 | the written lesson list is sorted; a create adds the lesson; an edit keeps the count |
| CourseManager.SaveLessonKeepsOrdersDistinct | src/components/Admin/CourseManager.tsx:240-271 | saving a lesson keeps the lesson orders distinct whenever the first lesson carrying the edited id, if any, still has the edited order; an edited lesson missing from the selected module is included |
| CourseManager.SaveLessonOnSortedList | src/components/Admin/CourseManager.tsx:240-271 | on a sorted list a new lesson is appended; an edit replaces the first lesson with its id in place, or changes nothing when the selected module has none |
| CourseManager.Settle | src/components/Admin/CourseManager.tsx:162-183 | a handler's outcome follows the store's reply to its one write |
| CourseManager.HandleSaveModule | src/components/Admin/CourseManager.tsx:120-185 | nothing without a selected course; an alert for a blank title; otherwise the module list is written, and only a success updates the selection |
| CourseManager.LessonRejection | src/components/Admin/CourseManager.tsx:211-238 | the refusals of a lesson save, checked in the code's order |
| CourseManager.HandleSaveLesson | src/components/Admin/CourseManager.tsx:210-302 | a write exactly when no refusal applies; it replaces the target module's lessons; a write reports success exactly on the store's acknowledgement; only a success updates the selection |
| CourseManager.SaveLessonTouchesOneModule | src/components/Admin/CourseManager.tsx:284-292 | a lesson save keeps the module count, and every module other than the target is unchanged |
| CourseManager.TargetIsFound | src/components/Admin/CourseManager.tsx:232-237 | a lesson save that is not refused has found the selected module in the course |
| CourseManager.InvalidVideoIsRejected | src/components/Admin/CourseManager.tsx:222-230 | an address that fails validation is refused and nothing is written |
| CourseManager.NullIfEmpty | src/components/Admin/CourseManager.tsx:96-104 | an empty input is stored as null, any other as typed |
| CourseManager.CourseDraftOf | src/components/Admin/CourseManager.tsx:96-104 | the course document: typed fields, the kept modules and creation date for an edit, and the new update time |
| CourseManager.HandleSaveCourse | src/components/Admin/CourseManager.tsx:89-118 | an alert for a blank title; otherwise an update of the selected course or the creation of a new one |
| CourseManager.EditCourseForm | src/components/Admin/CourseManager.tsx:361-366 | title, description and image are loaded from the course; the Telegram field keeps whatever it held |
| CourseManager.ResaveCourseKeepsFields | src/components/Admin/CourseManager.tsx:93-104 | re-saving an untouched course edit form writes the same title, description, image, modules and creation time, and the Telegram field's leftover value as the link |
| CourseManager.ResaveCourseLosesTelegram | src/components/Admin/CourseManager.tsx:361-366 | as written, re-saving a course with a link replaces the link unless the field already holds it; from a fresh page the link is erased |
| CourseManager.EditCourseFormFixed | src/components/Admin/CourseManager.tsx:361-366 | corrected: the Telegram field is loaded from the course like the other fields |
| CourseManager.ResaveCourseKeepsTelegram | src/components/Admin/CourseManager.tsx:93-104 | with the corrected form, re-saving a course untouched writes exactly its own fields back, link included, with a new modification time |
| CourseManager.DeleteModule | src/components/Admin/CourseManager.tsx:324 | exactly the modules with other ids stay, in their order and as often as they occurred |
| CourseManager.DeleteModuleKeepsOrders | src/components/Admin/CourseManager.tsx:324 | deleting a module keeps the list sorted and its orders distinct |
| CourseManager.DropLesson | src/components/Admin/CourseManager.tsx:343-347 | the module loses exactly the lessons with that id; the rest stay in their order and multiplicity, and nothing else changes |
| CourseManager.DeleteLesson | src/components/Admin/CourseManager.tsx:341-349 | only modules carrying the module id lose the lesson; the others are unchanged |
| CourseManager.DeleteLessonKeepsOrders | src/components/Admin/CourseManager.tsx:341-349 | deleting a lesson keeps each module's lessons sorted and their orders distinct |
| CourseManager.HandleDeleteModule | src/components/Admin/CourseManager.tsx:318-333 | nothing without a selection or a confirmation, otherwise the filtered modules are written |
| CourseManager.HandleDeleteLesson | src/components/Admin/CourseManager.tsx:335-359 | nothing without a selection or a confirmation, otherwise the filtered lessons are written |
| CourseManager.HandleDeleteCourse | src/components/Admin/CourseManager.tsx:304-316 | only the confirmation gates the removal of the course |
| CourseManager.ReplaceCourse | src/components/Admin/CourseManager.tsx:175 | exactly the courses with the saved id are replaced |
| CourseManager.SavedCourseReplacesSelected | src/components/Admin/CourseManager.tsx:167-175 | after a successful save the course list holds the saved course where the selected one stood |
| CourseManager.AddResource | src/components/Admin/CourseManager.tsx:187-204 | an alert exactly when the title or address is blank; otherwise the resource is appended |
| CourseManager.RemoveResource | src/components/Admin/CourseManager.tsx:206-208 | exactly the resources with other ids stay, in their order and as often as they occurred |
| CourseManager.AddThenRemoveResource | src/components/Admin/CourseManager.tsx:187-208 | removing a just-added resource by its fresh id restores the list |
| CourseManager.VideoUrlError | src/components/Admin/CourseManager.tsx:80-87 | an error shows exactly for a non-empty invalid address |
| CourseManager.NoErrorMeansAddressAccepted | src/components/Admin/CourseManager.tsx:80-87 | when the field shows no error and is not blank, the save does not refuse the address |
| CourseManager.EditModuleForm | src/components/Admin/CourseManager.tsx:368-374 | as written: the module form is pre-filled with the stored, numbered title |
| CourseManager.EditLessonForm | src/components/Admin/CourseManager.tsx:375-382 | as written: the lesson form is pre-filled with the stored, numbered title |
| CourseManager.ResaveModuleRepeatsPrefix | src/components/Admin/CourseManager.tsx:144 | as written, re-saving an untouched module edit numbers the title a second time |
| CourseManager.ResaveLessonRepeatsPrefix | src/components/Admin/CourseManager.tsx:253 | as written, re-saving an untouched lesson edit numbers the title a second time |
| CourseManager.EditModuleFormFixed | src/components/Admin/CourseManager.tsx:368-374 | corrected: the pre-filled title has its number prefix stripped |
| CourseManager.EditLessonFormFixed | src/components/Admin/CourseManager.tsx:375-382 | corrected: the pre-filled lesson title has its number prefix stripped |
| CourseManager.ResaveModuleKeepsTitle | src/components/Admin/CourseManager.tsx:144 | with the corrected pre-fill, re-saving an untouched module edit keeps the stored title |
| CourseManager.ResaveLessonKeepsTitle | src/components/Admin/CourseManager.tsx:253 | with the corrected pre-fill, re-saving an untouched lesson edit keeps the stored title |
| CourseManager.LessonEditIntoOtherModuleIsLost | src/components/Admin/CourseManager.tsx:375-382 | as written, a lesson edit saved while another module is selected finds no lesson, writes the course's modules back unchanged and reports success |
| CourseManager.MissingLessonKeepsList | src/components/Admin/CourseManager.tsx:259-264 | editing a lesson whose id is not in a sorted list writes that list back unchanged |
| CourseManager.SameModuleWrittenBack | src/components/Admin/CourseManager.tsx:273-276 | writing a module of the course back with its own lessons leaves the module list as it was |
| CourseManager.EditLessonFixed | src/components/Admin/CourseManager.tsx:375-382 | corrected: the edit button also selects the module holding the lesson |
| CourseManager.LessonEditInItsModuleIsSaved | src/components/Admin/CourseManager.tsx:240-276 | with the module selected, saving an edited lesson replaces that lesson, and only it, at its place in its own module |
| ModuleAccordion.ModuleProgress | src/components/Courses/ModuleAccordion.tsx:25-32 | the module percentage is in [0, 100], 0 for an empty module, exactly 100c/t otherwise, and 100 exactly when every lesson is done |
| ModuleAccordion.Round | src/components/Courses/ModuleAccordion.tsx:46 | `Math.round` gives the integer within half of the value, halves rounded up |
| ModuleAccordion.ProgressBadge | src/components/Courses/ModuleAccordion.tsx:42-46 | the check mark exactly when a non-empty module is all done; otherwise the rounded percentage |
| ModuleAccordion.BadgeIsCourseRounding | src/components/Courses/ModuleAccordion.tsx:30-46 | the badge's percentage is the course page's rounding of the module's own counts |
| ModuleAccordion.RoundOfRatio | src/components/Courses/ModuleAccordion.tsx:44 | `Math.round` of the exact percentage is the course page's rounding |
| ModuleAccordion.RealBetween | src/components/Courses/ModuleAccordion.tsx:46 | the integer rounding of 100c/t lies within half of the exact ratio |
| ModuleAccordion.BadgeShowsFullBeforeCheck | src/components/Courses/ModuleAccordion.tsx:42-46 | a module of 200 or more lessons with one open shows `100%` and no check mark |
| ModuleAccordion.Row | src/components/Courses/ModuleAccordion.tsx:62-96 | a row is enabled exactly with access or for the preview lesson; lock exactly when disabled; check exactly when enabled and done |
| ModuleAccordion.CanAccess | src/components/Courses/ModuleAccordion.tsx:64-65 | every row opens with access; without access exactly the first lesson of the first module opens |
| ModuleAccordion.Click | src/components/Courses/ModuleAccordion.tsx:73-74 | a click selects the lesson exactly when the row is enabled |
| ModuleAccordion.ModuleRows | src/components/Courses/ModuleAccordion.tsx:22 | a closed panel shows no rows; an open one shows one row per lesson |
| ModuleAccordion.EnabledIdsAppend | src/components/Courses/ModuleAccordion.tsx:73 | the selectable ids of stacked panels are those of each panel in order |
| ModuleAccordion.WithoutAccessOnlyPreview | src/components/Courses/ModuleAccordion.tsx:64-65 | without access the only selectable lesson in the whole menu is the first of the first module |
| ModuleAccordion.LaterPanelsOfferNothing | src/components/Courses/ModuleAccordion.tsx:64-65 | without access no panel after the first offers any lesson |
| ModuleAccordion.PanelWithoutAccess | src/components/Courses/ModuleAccordion.tsx:64-65 | without access a panel offers its first lesson if it is the first module's, and nothing otherwise |
| ModuleAccordion.WithAccessAllSelectable | src/components/Courses/ModuleAccordion.tsx:65 | with access every lesson of the course is selectable, in course order |
| VideoPlayer.ShowsLockedView | src/components/Courses/VideoPlayer.tsx:29 | locked exactly without access and without `preview` in the address |
| VideoPlayer.Render | src/components/Courses/VideoPlayer.tsx:29-123 | a button only with access, labelled completed exactly when the flag is set; resources when listed; the sample notice without access |
| VideoPlayer.LockDependsOnlyOnAddress | src/components/Courses/VideoPlayer.tsx:29 | with access the player always shows; without, only for an address mentioning `preview` |
| VideoPlayer.NoRMeansLocked | src/components/Courses/VideoPlayer.tsx:29 | without access, any address without the letter `r` is locked |
| VideoPlayer.Handle | src/components/Courses/VideoPlayer.tsx:22-27 | the end event reports and sets the flag once; a click reports while the flag is unset and never sets it |
| VideoPlayer.Run | src/components/Courses/VideoPlayer.tsx:22-27 | over a run of events the flag, once set, stays set; the report counts never fall; each event adds at most one click report |
| VideoPlayer.EndReportsAtMostOnce | src/components/Courses/VideoPlayer.tsx:22-27 | the end of the video reports completion at most once per player |
| VideoPlayer.NothingWithoutAccess | src/components/Courses/VideoPlayer.tsx:23 | without access no event reports anything or changes the flag |
| VideoPlayer.CompletedAfterRun | src/components/Courses/VideoPlayer.tsx:20-27 | the flag ends set exactly when it was set or the video ended with access and a callback |
| VideoPlayer.EveryClickReports | src/components/Courses/VideoPlayer.tsx:73 | every click reports again until the video ends |
| CourseDetail.FindInLessons | src/components/Courses/CourseDetail.tsx:31 | the first lesson with the id, none exactly when no lesson has it |
| CourseDetail.FindInLessonsAppend | src/components/Courses/CourseDetail.tsx:30-35 | searching two lists one after the other is searching their concatenation |
| CourseDetail.FindLessonIn | src/components/Courses/CourseDetail.tsx:29-36 | the module-by-module loop finds the first lesson with the id in course order |
| CourseDetail.FirstLesson | src/components/Courses/CourseDetail.tsx:39 | the first lesson of the first module, or none when there is no such lesson |
| CourseDetail.CurrentLesson | src/components/Courses/CourseDetail.tsx:27-40 | a selected id is looked up; with none selected, the preview lesson without access and nothing with access |
| CourseDetail.WithoutAccessPlayerShowsPreview | src/components/Courses/CourseDetail.tsx:27-40 | without access, whatever the menu lets the learner pick, the player shows the preview lesson |
| CourseDetail.OnLessonComplete | src/components/Courses/CourseDetail.tsx:42-45 | nothing without access, otherwise the store's mark operation |
| CourseDetail.CanGenerateCertificate | src/components/Courses/CourseDetail.tsx:47-48 | the certificate button acts only for a profile with a display name and a course the page calls completed, and then always |
| CourseDetail.Slug | src/components/Courses/CourseDetail.tsx:177 | the lower-cased title with whitespace runs replaced contains no whitespace |
| CourseDetail.DownloadFileName | src/components/Courses/CourseDetail.tsx:177 | the download name starts with `certificado_`, ends with `.pdf` and has no whitespace |
| CourseDetail.DownloadFileNameOfPlainTitle | src/components/Courses/CourseDetail.tsx:177 | a lower-case title without whitespace appears in the name as it is |
| CourseDetail.ViewWith | src/components/Courses/CourseDetail.tsx:23-40 | for a shown percentage: completion exactly at 100; the panels follow access and completion; the mark button and congratulations never show together |
| CourseDetail.RenderPage | src/components/Courses/CourseDetail.tsx:18-25 | as written: redirect exactly without an id or a course; otherwise the view for `getCourseProgress` |
| CourseDetail.RenderPageFixed | src/components/Courses/CourseDetail.tsx:18-25 | corrected: the same page for the corrected percentage |
| CourseDetail.CompletedAsWrittenMeans | src/components/Courses/CourseDetail.tsx:24-25 | as written, the page calls a course completed exactly when it has lessons and at most a two-hundredth of them are missing |
| CourseDetail.EveryLessonDoneCompletesPage | src/components/Courses/CourseDetail.tsx:24-25 | both pages call a course completed once every lesson is done |
| CourseDetail.PagesAgreeBelow200 | src/components/Courses/CourseDetail.tsx:24-25 | for a course of fewer than 200 lessons the written and corrected pages are identical |
| CourseDetail.CertificateUnlocksEarly | src/components/Courses/CourseDetail.tsx:47-48 | as written, a named learner one lesson short of a course of 200 or more lessons can generate the certificate |
| CourseDetail.CompletedMeansEveryLessonDone | src/components/Courses/CourseDetail.tsx:24-25 | corrected page: the course is called completed exactly when it has lessons and all are done |
| CourseDetail.CertificateNeedsEveryLesson | src/components/Courses/CourseDetail.tsx:47-48 | corrected page: a certificate is generated only for a named profile and a course with every lesson done |
| PrivateRoute.Decide | src/utils/PrivateRoute.tsx:16-36 | spinner while loading, login when signed out, home for a required admin, payment for required access, otherwise the page |
| PrivateRoute.PlainGuardAdmitsEverySignedInUser | src/utils/PrivateRoute.tsx:16-36 | the guard without requirements admits every signed-in user |
| PrivateRoute.StricterGuardAdmitsLess | src/utils/PrivateRoute.tsx:28-34 | adding requirements to a guard never admits more users |
| CourseDetailPage.Render | src/pages/CourseDetailPage.tsx:14-27 | back to the list exactly without an id or a course; the full page exactly with access; otherwise the preview |
| App.GuardOf | src/App.tsx:24-43 | public routes have no guard; only the course route requires access; only the admin route requires an admin |
| App.Visit | src/App.tsx:24-43 | a route renders its guard's decision |
| App.WhoSeesWhat | src/App.tsx:24-43 | which signed-in users see each route, and that signed-out users are sent to login from every guarded route |
| App.AdminWithoutAccessIsTurnedAway | src/App.tsx:36-43 | an administrator without access is sent to payment from a course but admitted to the admin page |
| App.RedirectsLandOnOpenScreens | src/App.tsx:24-43 | following a guard's redirect lands on a route that renders |
| App.PreviewUnreachableThroughRouter | src/App.tsx:36-38 | as written, the course page admitted by the router never shows the preview |
| App.CoursePageThroughRouterHasAccess | src/App.tsx:36-38 | as written, the course detail page admitted by the router always has access |
| App.FreeIntroLinkLeadsToPayment | src/components/Courses/CourseCard.tsx:99-101 | as written, the free introduction link sends every learner who sees it to payment |
| App.GuardOfFixed | src/App.tsx:36-38 | corrected: the course route requires sign-in only; every other guard is as written |
| App.VisitFixed | src/App.tsx:24-43 | corrected: a route renders the corrected guard's decision |
| App.FreeIntroReachesPreview | src/components/Courses/CourseCard.tsx:99-101 | with the corrected table, the free introduction link reaches the course preview |
| App.FixedTableOnlyWidensCourseRoute | src/App.tsx:36-38 | the correction admits everyone admitted before, and changes only the course route |
| CourseCard.RenderCard | src/components/Courses/CourseCard.tsx:16-105 | counts and minutes over the course tree; the limited badge, label and free link follow access; the bar shows a positive `getCourseProgress` |
| CourseCard.SomeCountedLesson | src/components/Courses/CourseCard.tsx:92-93 | a positive completed count means some lesson is in the completed list |
| CourseCard.ContinueMeansSomeLessonDone | src/components/Courses/CourseCard.tsx:92-93 | `Continuar Curso` shows only when some lesson of the course is completed |
| CourseCard.OneLessonOfManyStillStarts | src/components/Courses/CourseCard.tsx:92-93 | one completed lesson of more than 200 rounds to 0 and the card still says `Comenzar Curso` |
| CourseCard.CardShowsPagePercent | src/components/Courses/CourseCard.tsx:16 | the card's bar shows the percentage the course page shows |
| CoursePreview.SyllabusOf | src/components/Courses/CoursePreview.tsx:112-118 | the syllabus numbers lessons from 1, and locks every lesson but the first without access |
| CoursePreview.RenderPreview | src/components/Courses/CoursePreview.tsx:13-192 | the image, counts, optional lists, syllabus and sidebar as the course and access determine |
| CoursePreview.LockedCountOfFlags | src/components/Courses/CoursePreview.tsx:118 | a module's locked label count is its size minus one without access |
| CoursePreview.LockedLabelsWithoutAccess | src/components/Courses/CoursePreview.tsx:104-118 | without access, locked labels number the lessons less one per non-empty module |
| CoursePreview.NoLockedLabelsWithAccess | src/components/Courses/CoursePreview.tsx:118 | with access no lesson carries the locked label |
| CoursePreview.SyllabusAndMenuDisagree | src/components/Courses/CoursePreview.tsx:118 | the first lesson of a later module is unlabelled in the syllabus though locked in the course menu |
| ProfilePage.CompletedFixedMeansAllDone | src/pages/ProfilePage.tsx:27-38 | corrected: a course counts as completed exactly when it has lessons and all are done |
| ProfilePage.CompletedFixedAgreesWithCoursePage | src/pages/ProfilePage.tsx:27-38 | corrected: a course counts as completed exactly when the course page reports 100 |
| ProfilePage.ForeignLessonCompletesCourse | src/pages/ProfilePage.tsx:37 | as written, one completed lesson of another course counts a one-lesson course as completed |
| ProfilePage.EmptyCourseCompletedAsWritten | src/pages/ProfilePage.tsx:37 | as written, a course without lessons counts as completed on a fresh record |
| ProfilePage.AsWrittenAgreesOnCleanRecords | src/pages/ProfilePage.tsx:37 | for a record naming only the course's own lessons, each once, the length test and the corrected test agree on a course with lessons |
| ProfilePage.CompletedCourses | src/pages/ProfilePage.tsx:27-38 | as written: exactly the courses passing the length test, in their order and as often as listed, so the count the page shows is fixed; none without a record |
| ProfilePage.CompletedCoursesFixed | src/pages/ProfilePage.tsx:27-38 | corrected: exactly the courses whose every lesson is done, in their order and as often as listed; none without a record |
| ProfilePage.CompletedCoursesSeeOnlyLength | src/pages/ProfilePage.tsx:37 | as written, the completed courses depend on the record only through the length of its completed list |
| ProfilePage.Screen | src/pages/ProfilePage.tsx:40-160 | spinner, login, or the name, access label, given completed count, certificate count and an overall bar at 100 exactly when all courses are done |
| ProfilePage.Render | src/pages/ProfilePage.tsx:12-160 | as written: the profile screen counting the courses that pass the length test |
| ProfilePage.RenderFixed | src/pages/ProfilePage.tsx:12-160 | corrected: the profile screen counting the courses whose every lesson is done |
| ProfilePage.ProfileCountsForeignLesson | src/pages/ProfilePage.tsx:37 | as written, the page shows one completed course for a learner whose only lesson belongs to another course; the corrected page shows none |
| ProfilePage.Ratio | src/pages/ProfilePage.tsx:160 | the overall percentage lies in [0, 100] and is 100 exactly when every course is done |
| RegisterForm.MatchesEmail | src/components/Auth/RegisterForm.tsx:91 | the email pattern matches exactly when the text splits into a local part, `@`, a domain, a dot and two or more letters |
| RegisterForm.SplitIsUnique | src/components/Auth/RegisterForm.tsx:91 | the split an email pattern match uses is unique |
| RegisterForm.NameError | src/components/Auth/RegisterForm.tsx:65-71 | no error exactly for a name of two or more characters |
| RegisterForm.EmailError | src/components/Auth/RegisterForm.tsx:88-94 | no error exactly when the pattern matches |
| RegisterForm.PasswordError | src/components/Auth/RegisterForm.tsx:111-117 | no error exactly for a password of six or more characters |
| RegisterForm.ConfirmError | src/components/Auth/RegisterForm.tsx:134-137 | no error exactly for a non-empty confirmation equal to the password |
| RegisterForm.ValidMeans | src/components/Auth/RegisterForm.tsx:65-137 | the form submits exactly when every field rule holds |
| RegisterForm.Submit | src/components/Auth/RegisterForm.tsx:27-41 | an invalid form is not submitted; otherwise the call carries the fields, success navigates and failure shows the message or the default |
| RegisterForm.AdminOnlyWithExactCode | src/components/Auth/RegisterForm.tsx:32 | an administrator account exactly for the exact code, with no case folding or trimming |
| UserList.ListedUsers | src/components/Admin/UserList.tsx:17-19 | exactly the users that are not administrators are listed, in their order and as often as they occur |
| UserList.ToggleAccess | src/components/Admin/UserList.tsx:32-51 | the negated flag is written; on success exactly the user's flag flips; on failure nothing changes; the updating marker is cleared |
| UserList.ClickToggle | src/components/Admin/UserList.tsx:32-51 | with unique ids, a successful click flips exactly the clicked user's access |
| UserList.ToggleTwiceRestores | src/components/Admin/UserList.tsx:32-51 | two successful clicks on the same user restore the list |
| UserList.ToggleKeepsOutAdministrators | src/components/Admin/UserList.tsx:19-45 | toggling never brings an administrator into the list |
| UserList.RenderRow | src/components/Admin/UserList.tsx:126-155 | the status follows access; the button is disabled and says updating exactly while that user is written |
| UserList.ButtonDisabledOnlyWhileWriting | src/components/Admin/UserList.tsx:34-49 | the button of a user is disabled only while that user's write is pending |

## Left out

- Firestore and Firebase Authentication calls are not performed. Each write is returned as data. Each write's reply is a `StoreReply` parameter. The reply to reading the progress record is a `DocRead` parameter: found, missing or failed.
- Fresh ids (`crypto.randomUUID`, `uuidv4`) and `new Date()` are parameters. Their uniqueness is not modelled.
- The refetches after a write (`fetchCourses`, the `getDocs` loops) are not modelled. Neither are the load spinners of the editor and the user list.
- Concurrency is not modelled. Each handler runs to completion on the state it was given. So `UserList` writing into a stale `users` closure during overlapping toggles is out of scope.
- React rendering, hooks, styles and widths are not modelled. The views are records of what a screen shows.
- Floating point is not modelled. Percentages are exact rationals. `Math.round` rounds exact values. A binary rounding error at a half is out of scope.
- Types.Lesson: durations are exact reals. The editor stores `Number(...)` of the field as typed, so fractional and negative minutes pass through, as they do in the code. Binary rounding in the sums that the card and the preview show is not modelled.
- CourseContext.RoundPercent: models `Math.round(c / t * 100)` on the exact ratio. The double-precision product can differ at an exact half.
- Text.ToLower: covers ASCII and Latin-1 capitals only. Other scripts are kept as they are.
- String lengths count code points, not UTF-16 units. `minLength` differs from the model only for characters outside the Basic Multilingual Plane.
- The PDF drawing (`src/utils/certificate.ts`, jsPDF) is not modelled. `CourseDetail.DownloadFileName` models only the download name.
- `src/components/Admin/AdminDashboard.tsx` and `src/pages/AdminPage.tsx` are not modelled. They are tabs and layout only.
- The presentation pages are not modelled: home, login, register, payment instructions, the course list, the layout, `VideoPreview`.
- VideoPlayer.Handle: models the iframe's `onEnded` as an event. A YouTube iframe never fires it, so in practice only the button reports.
- VideoPlayer.Run: models one mounted player. The completed flag survives a change of lesson in the code, because the component is not re-keyed. That persistence is not modelled.
- CourseManager.EditLessonForm: the resource field is a parameter. The code does not load the edited lesson's resources into the editor.
- CourseManager.EditLessonFixed: corrects only the module selection. The title pre-fill stays the written one; its correction is `EditLessonFormFixed`.
- CourseManager.ResaveCourseKeepsTelegram: assumes the stored image and link are not empty strings. The save never writes one, since it stores null instead.
- CourseManager.EditCourseForm: the Telegram field's leftover content is a parameter. Which earlier edit left it there is not modelled.
- CourseManager.HandleDeleteCourse: the selected course is returned unchanged, as the code leaves it. The stale selection after a delete is not modelled further.
- RegisterForm.MatchesEmail: the pattern's `i` flag makes `[A-Z]` accept ASCII letters of either case. Letters outside ASCII are not accepted, as in JavaScript.
- ProfilePage.Render: the overall bar is the exact ratio. Its width style is not modelled.

## Findings

| source | as written | input that shows it | evidently intended | confidence | as-written member | corrected member |
|---|---|---|---|---|---|---|
| src/context/CourseContext.tsx:138 | the percentage is `Math.round(c / t * 100)`, and the page treats 100 as complete | 200 lessons, 199 completed: 99.5 rounds to 100 and the certificate unlocks | 100 only when every lesson is done | not executed | CourseDetail.CertificateUnlocksEarly | CourseDetail.CertificateNeedsEveryLesson |
| src/pages/ProfilePage.tsx:37 | a course is completed when the length of the whole completed list equals its lesson count | a one-lesson course and a completed list holding one lesson of another course | completed when every lesson of the course is in the list | not executed | ProfilePage.ForeignLessonCompletesCourse | ProfilePage.CompletedFixedAgreesWithCoursePage |
| src/components/Admin/CourseManager.tsx:370 | the edit form is pre-filled with the stored title, which the save numbers again | module of order 0 titled `Módulo 1: Intro`, edited and saved untouched | saving an untouched edit keeps the title | not executed | CourseManager.ResaveModuleRepeatsPrefix | CourseManager.ResaveModuleKeepsTitle |
| src/components/Admin/CourseManager.tsx:377 | the same for lessons | lesson of order 0 titled `Lección 1: Intro`, edited and saved untouched | saving an untouched edit keeps the title | not executed | CourseManager.ResaveLessonRepeatsPrefix | CourseManager.ResaveLessonKeepsTitle |
| src/components/Courses/CourseCard.tsx:99-101 | the free introduction link points to the course route, which requires access | a signed-in learner without access clicks `Ver Introducción Gratuita` and is sent to payment | the link reaches the course preview | not executed | App.FreeIntroLinkLeadsToPayment | App.FreeIntroReachesPreview |
| src/components/Admin/CourseManager.tsx:361-366 | editing a course loads title, description and image but not the Telegram link, and the save writes the field | a course with a link, opened for editing on a fresh page and saved untouched: the link is erased | re-saving an untouched course keeps its link | not executed | CourseManager.ResaveCourseLosesTelegram | CourseManager.ResaveCourseKeepsTelegram |
| src/components/Admin/CourseManager.tsx:375-382 | editing a lesson does not select its module, and the save rebuilds the lessons of the selected module | "Agregar Lección" on module A, then editing a lesson of module B: the save finds no such lesson in A and writes the modules back unchanged, reporting success | the edit lands in the module holding the lesson | not executed | CourseManager.LessonEditIntoOtherModuleIsLost | CourseManager.LessonEditInItsModuleIsSaved |

=== FILE: app.dfy ===
/** The route table: which guard stands in front of each screen, and what a
    visitor to a route ends up seeing. */
module App {

  import opened Types
  import PrivateRoute
  import CourseDetailPage
  import CourseDetail
  import VideoPlayer
  import CourseCard

  datatype Route =
    | HomeRoute
    | LoginRoute
    | RegisterRoute
    | ProfileRoute
    | PaymentInstructionsRoute
    | CoursesRoute
    | CourseDetailRoute(courseId: string)
    | AdminRoute

  /** The guard wrapping each route; the first three are public. */
  function GuardOf(r: Route): (g: Option<PrivateRoute.Guard>)
    ensures g.None? <==> r in {HomeRoute, LoginRoute, RegisterRoute}
    ensures g.Some? ==> (g.value.requireAccess <==> r.CourseDetailRoute?)
    ensures g.Some? ==> (g.value.requireAdmin <==> r == AdminRoute)
  {
    match r
    case HomeRoute => None
    case LoginRoute => None
    case RegisterRoute => None
    case ProfileRoute => Some(PrivateRoute.Guard(false, false))
    case PaymentInstructionsRoute => Some(PrivateRoute.Guard(false, false))
    case CoursesRoute => Some(PrivateRoute.Guard(false, false))
    case CourseDetailRoute(_) => Some(PrivateRoute.Guard(false, true))
    case AdminRoute => Some(PrivateRoute.Guard(true, false))
  }

  function Visit(r: Route, loading: bool, signedIn: bool, profile: Option<User>): (o: PrivateRoute.Outcome)
    ensures GuardOf(r).None? ==> o == PrivateRoute.RenderChild
    ensures GuardOf(r).Some? ==> o == PrivateRoute.Decide(GuardOf(r).value, loading, signedIn, profile)
  {
    match GuardOf(r)
    case None => PrivateRoute.RenderChild
    case Some(g) => PrivateRoute.Decide(g, loading, signedIn, profile)
  }

  function RouteOf(t: PrivateRoute.Target): Route
  {
    match t
    case LoginScreen => LoginRoute
    case HomeScreen => HomeRoute
    case PaymentInstructionsScreen => PaymentInstructionsRoute
  }

  /** Which screens an authenticated session sees: every route but the course
      page needs only a signed-in user, the course page needs access, the
      administration page needs the administrator flag. */
  lemma WhoSeesWhat(r: Route, profile: Option<User>)
    ensures Visit(r, false, true, profile) == PrivateRoute.RenderChild <==>
              match r
              case CourseDetailRoute(_) => HasAccess(profile)
              case AdminRoute => IsAdmin(profile)
              case _ => true
    ensures r !in {HomeRoute, LoginRoute, RegisterRoute} ==> Visit(r, false, false, profile) == PrivateRoute.Redirect(PrivateRoute.LoginScreen)
  {
  }

  /** Being an administrator does not grant access: an administrator whose profile
      lacks access is sent to the payment instructions from any course page, yet
      opens the administration page. */
  lemma AdminWithoutAccessIsTurnedAway(courseId: string, profile: Option<User>)
    requires IsAdmin(profile) && !HasAccess(profile)
    ensures Visit(CourseDetailRoute(courseId), false, true, profile) == PrivateRoute.Redirect(PrivateRoute.PaymentInstructionsScreen)
    ensures Visit(AdminRoute, false, true, profile) == PrivateRoute.RenderChild
  {
  }

  /** Every redirect lands on a screen the same session can open, so the guards
      never send a visitor round in circles. */
  lemma RedirectsLandOnOpenScreens(r: Route, loading: bool, signedIn: bool, profile: Option<User>)
    requires Visit(r, loading, signedIn, profile).Redirect?
    ensures Visit(RouteOf(Visit(r, loading, signedIn, profile).to), loading, signedIn, profile) == PrivateRoute.RenderChild
  {
  }

  /** Because the course route already demands access, the screen behind it is
      never the sales preview: a learner without access is redirected before the
      screen is reached. */
  lemma PreviewUnreachableThroughRouter(courseId: string, courses: seq<Course>, loading: bool, signedIn: bool, profile: Option<User>)
    requires Visit(CourseDetailRoute(courseId), loading, signedIn, profile) == PrivateRoute.RenderChild
    ensures !CourseDetailPage.Render(Some(courseId), courses, profile).Preview?
  {
  }

  /** Likewise the course page behind the route always runs with access: no intro
      banner, no payment panel, and the player never shows its locked view. */
  lemma CoursePageThroughRouterHasAccess(courseId: string, courses: seq<Course>, loading: bool, signedIn: bool,
                                         profile: Option<User>, progress: Option<Progress>, selected: Option<string>)
    requires Visit(CourseDetailRoute(courseId), loading, signedIn, profile) == PrivateRoute.RenderChild
    requires CourseDetail.RenderPage(Some(courseId), courses, profile, progress, selected).Detail?
    ensures var v := CourseDetail.RenderPage(Some(courseId), courses, profile, progress, selected).view;
            v.hasAccess && !v.showsIntroBanner && !v.showsPaymentPanel
            && (v.current.Some? ==> !VideoPlayer.ShowsLockedView(v.current.value, v.hasAccess))
  {
  }

  // ---------------------------------------------------------------------------
  // The free introduction.

  /** The catalogue card offers a learner without access a free introduction
      that links to the course route, but the route's guard sends that learner to
      the payment instructions: the introduction can never be reached. */
  lemma FreeIntroLinkLeadsToPayment(course: Course, courses: seq<Course>, profile: Option<User>, progress: Option<Progress>)
    requires CourseCard.RenderCard(course, courses, profile, progress).freeIntroLink
    ensures Visit(CourseDetailRoute(course.id), false, true, profile) == PrivateRoute.Redirect(PrivateRoute.PaymentInstructionsScreen)
  {
  }

  /** The route table with the course route guarded by sign-in only, leaving the
      choice between the full course and the preview to the course screen. */
  function GuardOfFixed(r: Route): (g: Option<PrivateRoute.Guard>)
    ensures g.None? <==> r in {HomeRoute, LoginRoute, RegisterRoute}
    ensures g.Some? ==> !g.value.requireAccess
    ensures g.Some? ==> (g.value.requireAdmin <==> r == AdminRoute)
    ensures !r.CourseDetailRoute? ==> g == GuardOf(r)
  {
    match r
    case CourseDetailRoute(_) => Some(PrivateRoute.Guard(false, false))
    case _ => GuardOf(r)
  }

  function VisitFixed(r: Route, loading: bool, signedIn: bool, profile: Option<User>): (o: PrivateRoute.Outcome)
    ensures GuardOfFixed(r).None? ==> o == PrivateRoute.RenderChild
    ensures GuardOfFixed(r).Some? ==> o == PrivateRoute.Decide(GuardOfFixed(r).value, loading, signedIn, profile)
  {
    match GuardOfFixed(r)
    case None => PrivateRoute.RenderChild
    case Some(g) => PrivateRoute.Decide(g, loading, signedIn, profile)
  }

  /** With the corrected table the free-introduction link opens the preview for a
      signed-in learner without access, while a learner with access still gets
      the full course and every other route is guarded as before. */
  lemma FreeIntroReachesPreview(course: Course, courses: seq<Course>, profile: Option<User>, progress: Option<Progress>)
    requires course in courses && course.id != ""
    requires CourseCard.RenderCard(course, courses, profile, progress).freeIntroLink
    ensures VisitFixed(CourseDetailRoute(course.id), false, true, profile) == PrivateRoute.RenderChild
    ensures CourseDetailPage.Render(Some(course.id), courses, profile).Preview?
  {
    var k :| 0 <= k < |courses| && courses[k] == course;
    assert courses[k].id == course.id;
  }

  /** The correction only widens the course route, and only to signed-in users:
      whatever the old table let through, the new one does too. */
  lemma FixedTableOnlyWidensCourseRoute(r: Route, loading: bool, signedIn: bool, profile: Option<User>)
    ensures Visit(r, loading, signedIn, profile) == PrivateRoute.RenderChild ==> VisitFixed(r, loading, signedIn, profile) == PrivateRoute.RenderChild
    ensures !r.CourseDetailRoute? ==> VisitFixed(r, loading, signedIn, profile) == Visit(r, loading, signedIn, profile)
    ensures r.CourseDetailRoute? ==> (VisitFixed(r, loading, signedIn, profile) == PrivateRoute.RenderChild <==> !loading && signedIn)
  {
  }
}

=== FILE: course_card.dfy ===
/** A course's card in the catalogue: totals, the access badge, the progress bar,
    the label of the main button and the link to the free introduction. */
module CourseCard {

  import opened Types
  import CourseContext
  import CourseDetail

  datatype MainLabel = ContinueCourse | StartCourse | SeeDetails

  datatype Card = Card(
    limitedBadge: bool,
    moduleCount: nat,
    lessonCount: nat,
    minutes: real,
    progressBar: Option<nat>,
    mainLabel: MainLabel,
    freeIntroLink: bool)

  /** The card for `course`, one of `courses`, for the signed-in profile and
      progress record. The percentage is `getCourseProgress`. */
  function RenderCard(course: Course, courses: seq<Course>, profile: Option<User>, progress: Option<Progress>): (c: Card)
    ensures c.lessonCount == |AllLessons(course.modules)|
    ensures c.minutes == SumDurations(AllLessons(course.modules))
    ensures c.limitedBadge <==> !HasAccess(profile)
    ensures c.progressBar.Some? <==> HasAccess(profile) && CourseContext.GetCourseProgress(progress, courses, course.id) > 0
    ensures c.progressBar.Some? ==> c.progressBar.value <= 100
    ensures c.mainLabel == SeeDetails <==> !HasAccess(profile)
    ensures c.mainLabel == ContinueCourse <==> c.progressBar.Some?
    ensures c.freeIntroLink <==> !HasAccess(profile) && CourseDetail.FirstLesson(course.modules).Some?
  {
    var pct := CourseContext.GetCourseProgress(progress, courses, course.id);
    var hasAccess := HasAccess(profile);
    TotalLessonsCountsAll(course.modules);
    TotalDurationSumsAll(course.modules);
    Card(
      !hasAccess,
      |course.modules|,
      TotalLessons(course.modules),
      TotalDuration(course.modules),
      if hasAccess && pct > 0 then Some(pct) else None,
      if hasAccess then (if pct > 0 then ContinueCourse else StartCourse) else SeeDetails,
      !hasAccess && CourseDetail.FirstLesson(course.modules).Some?)
  }

  lemma {:induction false} SomeCountedLesson(ls: seq<Lesson>, done: seq<string>)
    requires CountCompleted(ls, done) > 0
    ensures exists i :: 0 <= i < |ls| && ls[i].id in done
  {
    if ls[0].id !in done {
      SomeCountedLesson(ls[1..], done);
      var i :| 0 <= i < |ls[1..]| && ls[1..][i].id in done;
      assert ls[i + 1] == ls[1..][i];
    }
  }

  /** "Continue" is offered only once some lesson of this very course is in the
      progress record. */
  lemma ContinueMeansSomeLessonDone(course: Course, courses: seq<Course>, profile: Option<User>, progress: Option<Progress>)
    requires course in courses && forall i, j :: 0 <= i < j < |courses| ==> courses[i].id != courses[j].id
    requires RenderCard(course, courses, profile, progress).mainLabel == ContinueCourse
    ensures progress.Some? && exists l :: l in AllLessons(course.modules) && l.id in progress.value.completedLessons
  {
    var counts := CourseContext.Counts(progress, courses, course.id);
    assert counts.Some?;
    var c, t := counts.value.0, counts.value.1;
    CourseContext.RoundPercentExtremes(c, t);
    assert c > 0;
    var found := CourseContext.FindCourse(courses, course.id).value;
    var k :| 0 <= k < |courses| && courses[k] == found && forall j :: 0 <= j < k ==> courses[j].id != course.id;
    var k' :| 0 <= k' < |courses| && courses[k'] == course;
    assert k' == k;
    CompletedInCourseIsFlatCount(course.modules, progress.value.completedLessons);
    SomeCountedLesson(AllLessons(course.modules), progress.value.completedLessons);
  }

  /** One completed lesson in a course of more than 200 lessons rounds to 0, so
      the card still offers to start the course. */
  lemma OneLessonOfManyStillStarts(course: Course, courses: seq<Course>, profile: Option<User>, progress: Option<Progress>)
    requires HasAccess(profile)
    requires CourseContext.Counts(progress, courses, course.id).Some?
    requires CourseContext.Counts(progress, courses, course.id).value.0 == 1
    requires CourseContext.Counts(progress, courses, course.id).value.1 > 200
    ensures RenderCard(course, courses, profile, progress).mainLabel == StartCourse
  {
    var counts := CourseContext.Counts(progress, courses, course.id);
    var c, t := counts.value.0, counts.value.1;
    CourseContext.RoundPercentExtremes(c, t);
    assert CourseContext.GetCourseProgress(progress, courses, course.id) == 0;
  }

  /** The card's bar shows the percentage of the course page. */
  lemma CardShowsPagePercent(course: Course, courses: seq<Course>, profile: Option<User>, progress: Option<Progress>,
                             selected: Option<string>)
    requires course in courses && course.id != ""
    requires RenderCard(course, courses, profile, progress).progressBar.Some?
    ensures CourseDetail.RenderPage(Some(course.id), courses, profile, progress, selected).Detail?
    ensures RenderCard(course, courses, profile, progress).progressBar.value
              == CourseDetail.RenderPage(Some(course.id), courses, profile, progress, selected).view.progress
  {
    var k :| 0 <= k < |courses| && courses[k] == course;
    assert courses[k].id == course.id;
  }
}

=== FILE: course_context.dfy ===
/** The learner-progress context: loading the progress record, marking a lesson
    completed, the per-course completion percentage, and issuing a certificate.
    The document store is represented by the writes each operation issues and by
    the store's reply to them, a parameter. */
module CourseContext {

  import opened Types
  import Seqs

  /** `courses.find(c => c.id === id)`. */
  function FindCourse(courses: seq<Course>, id: string): (r: Option<Course>)
    ensures r.None? <==> forall i :: 0 <= i < |courses| ==> courses[i].id != id
    ensures r.Some? ==> r.value.id == id
    ensures r.Some? ==> exists i :: 0 <= i < |courses| && courses[i] == r.value
                          && forall j :: 0 <= j < i ==> courses[j].id != id
  {
    var k := Seqs.FirstIndex(courses, (c: Course) => c.id == id);
    if k < 0 then None else Some(courses[k])
  }

  // ---------------------------------------------------------------------------
  // Writes to the progress document and how the store applies them.

  datatype ProgressWrite =
    | CreateRecord(record: Progress)                    // setDoc of a fresh record
    | AppendCompleted(lessonId: string, at: int)        // arrayUnion(lessonId), lastAccessedAt
    | SetCertificate                                    // certificateGenerated: true

  /** The stored document after the store accepts a write: `arrayUnion` adds the
      id only when it is absent. */
  function ApplyWrite(doc: Progress, w: ProgressWrite): (r: Progress)
    ensures w.AppendCompleted? ==> w.lessonId in r.completedLessons
    ensures w.SetCertificate? ==> r.certificateGenerated
  {
    match w
    case CreateRecord(record) => record
    case AppendCompleted(id, at) =>
      doc.(completedLessons := if id in doc.completedLessons then doc.completedLessons
                               else doc.completedLessons + [id],
           lastAccessedAt := at)
    case SetCertificate => doc.(certificateGenerated := true)
  }

  /** The record written for a user who has none yet. */
  function InitialProgress(uid: string, now: int): (r: Progress)
    ensures r.userId == uid && r.completedLessons == [] && !r.certificateGenerated
    ensures r.lastAccessedAt == now
  {
    Progress(uid, [], now, false)
  }

  /** The local copy and the write issued by one context operation. */
  datatype Step = Step(write: Option<ProgressWrite>, state: Option<Progress>)

  /** The answer of the store to reading the user's record: the stored
      document, no document, or a failed read. */
  datatype DocRead = Found(doc: Progress) | Missing | ReadFailed

  /** Loading the record when the signed-in user changes: none without a user,
      the stored one when it exists, otherwise a fresh record that is written and,
      once the store accepts it, becomes the local copy. A failed read or a failed
      write is caught and leaves the previous local copy. */
  function FetchUserProgress(uid: Option<string>, read: DocRead, prev: Option<Progress>,
                             now: int, reply: StoreReply): (r: Step)
    ensures uid.None? ==> r == Step(None, None)
    ensures uid.Some? && read.Found? ==> r == Step(None, Some(read.doc))
    ensures uid.Some? && read == ReadFailed ==> r == Step(None, prev)
    ensures r.write.Some? <==> uid.Some? && read == Missing
    ensures r.write.Some? ==> r.write.value == CreateRecord(InitialProgress(uid.value, now))
    ensures r.write.Some? ==> r.state == (if reply == Ack then Some(InitialProgress(uid.value, now)) else prev)
  {
    if uid.None? then Step(None, None)
    else match read
      case Found(doc) => Step(None, Some(doc))
      case ReadFailed => Step(None, prev)
      case Missing =>
        var init := InitialProgress(uid.value, now);
        Step(Some(CreateRecord(init)), if reply == Ack then Some(init) else prev)
  }

  /** `markLessonAsCompleted`: without a user or a loaded record nothing happens;
      an id already completed is not written again; otherwise the id is appended
      in the store and, once the store accepts, in the local copy, with the access
      time. The course id the caller passes plays no part. */
  function MarkLessonAsCompleted(uid: Option<string>, local: Option<Progress>, lessonId: string,
                                 now: int, reply: StoreReply): (r: Step)
    ensures r.write.Some? <==> uid.Some? && local.Some? && lessonId !in local.value.completedLessons
    ensures r.write.Some? ==> r.write.value == AppendCompleted(lessonId, now)
    ensures r.write.None? || reply == Failed ==> r.state == local
    ensures r.write.Some? && reply == Ack ==>
              r.state == Some(local.value.(completedLessons := local.value.completedLessons + [lessonId],
                                           lastAccessedAt := now))
  {
    if uid.None? || local.None? then Step(None, local)
    else if lessonId in local.value.completedLessons then Step(None, local)
    else
      var w := AppendCompleted(lessonId, now);
      var updated := local.value.(completedLessons := local.value.completedLessons + [lessonId],
                                  lastAccessedAt := now);
      Step(Some(w), if reply == Ack then Some(updated) else local)
  }

  /** After a mark the local copy agrees with the stored document, provided it
      agreed before: the local append and the store's `arrayUnion` coincide. */
  lemma MarkKeepsLocalInSync(uid: string, doc: Progress, lessonId: string, now: int)
    ensures var r := MarkLessonAsCompleted(Some(uid), Some(doc), lessonId, now, Ack);
            r.state == Some(if r.write.Some? then ApplyWrite(doc, r.write.value) else doc)
  {
  }

  /** Marking the same lesson again writes nothing and changes nothing. */
  lemma MarkIsIdempotent(uid: Option<string>, local: Option<Progress>, lessonId: string,
                         now: int, later: int, reply: StoreReply, reply2: StoreReply)
    ensures var once := MarkLessonAsCompleted(uid, local, lessonId, now, reply);
            var twice := MarkLessonAsCompleted(uid, once.state, lessonId, later, reply2);
            (reply == Ack || once.write.None?) ==> twice.write.None? && twice.state == once.state
  {
  }

  /** Marking never introduces a duplicate id. */
  lemma MarkKeepsIdsDistinct(uid: Option<string>, local: Option<Progress>, lessonId: string,
                             now: int, reply: StoreReply)
    requires local.Some?
    requires forall i, j :: 0 <= i < j < |local.value.completedLessons| ==>
               local.value.completedLessons[i] != local.value.completedLessons[j]
    ensures var r := MarkLessonAsCompleted(uid, local, lessonId, now, reply);
            r.state.Some? &&
            forall i, j :: 0 <= i < j < |r.state.value.completedLessons| ==>
              r.state.value.completedLessons[i] != r.state.value.completedLessons[j]
  {
    var r := MarkLessonAsCompleted(uid, local, lessonId, now, reply);
    if r.write.Some? && reply == Ack {
      var old_ := local.value.completedLessons;
      var new_ := r.state.value.completedLessons;
      assert new_ == old_ + [lessonId];
      forall i, j | 0 <= i < j < |new_| ensures new_[i] != new_[j] {
        if j == |old_| {
          assert new_[i] == old_[i];
        }
      }
    }
  }

  // ---------------------------------------------------------------------------
  // The completion percentage.

  /** `Math.round(c / t * 100)` on exact rationals: the nearest whole percentage,
      a half rounded up. */
  function RoundPercent(c: nat, t: nat): (r: nat)
    requires 0 < t && c <= t
    ensures r <= 100
  {
    var r := (200 * c + t) / (2 * t);
    RoundPercentIsNearest(c, t);
    assert 2 * t * r <= 200 * c + t <= 201 * t < 2 * t * 101;
    ScaleBound(2 * t, r, 101);
    r
  }

  /** The rounded value is the whole number nearest to `100 * c / t`, halves up. */
  lemma RoundPercentIsNearest(c: nat, t: nat)
    requires 0 < t && c <= t
    ensures var r := (200 * c + t) / (2 * t);
            2 * t * r <= 200 * c + t < 2 * t * (r + 1)
  {
    DivBounds(200 * c + t, 2 * t);
  }

  /** The rounded percentage is 100 exactly when the missing lessons are at most a
      two-hundredth of the total, and 0 exactly when the completed ones are fewer. */
  lemma RoundPercentExtremes(c: nat, t: nat)
    requires 0 < t && c <= t
    ensures RoundPercent(c, t) == 100 <==> 200 * (t - c) <= t
    ensures RoundPercent(c, t) == 0 <==> 200 * c < t
  {
    var r := RoundPercent(c, t);
    RoundPercentIsNearest(c, t);
    ScaleBound(2 * t, r, 100);
    ScaleBound(2 * t, 99, r);
    ScaleBound(2 * t, r, 1);
    ScaleBound(2 * t, 0, r);
  }

  lemma DivBounds(a: nat, d: nat)
    requires 0 < d
    ensures d * (a / d) <= a < d * (a / d + 1)
  {
  }

  /** Scaling by a positive factor preserves strict order and its converse. */
  lemma ScaleBound(d: nat, x: int, y: int)
    requires 0 < d
    ensures d * x < d * y <==> x < y
    ensures d * x <= d * y <==> x <= y
  {
    if x < y {
      assert d * y - d * x == d * (y - x);
    } else {
      assert d * x - d * y == d * (x - y);
    }
  }

  /** Rounding never moves a larger count below a smaller one. */
  lemma RoundPercentMonotone(c1: nat, c2: nat, t: nat)
    requires 0 < t && c1 <= c2 <= t
    ensures RoundPercent(c1, t) <= RoundPercent(c2, t)
  {
    var r1, r2 := RoundPercent(c1, t), RoundPercent(c2, t);
    RoundPercentIsNearest(c1, t);
    RoundPercentIsNearest(c2, t);
    ScaleBound(2 * t, r1, r2 + 1);
  }

  /** The completed and total lesson counts `getCourseProgress` divides, or None
      at each of its early returns: no record, an empty id, an unknown course,
      a course without lessons. */
  function Counts(progress: Option<Progress>, courses: seq<Course>, courseId: string): (r: Option<(nat, nat)>)
    ensures r.Some? ==> 0 < r.value.1 && r.value.0 <= r.value.1
  {
    if progress.None? || courseId == "" then None
    else match FindCourse(courses, courseId)
      case None => None
      case Some(course) =>
        var t := TotalLessons(course.modules);
        CompletedInCourseBounds(course.modules, progress.value.completedLessons);
        if t == 0 then None
        else Some((CompletedInCourse(course.modules, progress.value.completedLessons), t))
  }

  /** `getCourseProgress` as written: 0 at every early return, otherwise the
      rounded percentage of the course's lessons whose ids are in the record. */
  function GetCourseProgress(progress: Option<Progress>, courses: seq<Course>, courseId: string): (r: nat)
    ensures r <= 100
    ensures progress.None? || courseId == "" || FindCourse(courses, courseId).None? ==> r == 0
    ensures FindCourse(courses, courseId).Some? && TotalLessons(FindCourse(courses, courseId).value.modules) == 0 ==> r == 0
    ensures Counts(progress, courses, courseId).Some? ==>
              r == RoundPercent(Counts(progress, courses, courseId).value.0, Counts(progress, courses, courseId).value.1)
  {
    match Counts(progress, courses, courseId)
    case None => 0
    case Some((c, t)) => RoundPercent(c, t)
  }

  /** The percentage with the rounding kept below 100 until every lesson is
      completed; elsewhere the same as `GetCourseProgress`. */
  function CourseProgress(progress: Option<Progress>, courses: seq<Course>, courseId: string): (r: nat)
    ensures r <= 100
  {
    match Counts(progress, courses, courseId)
    case None => 0
    case Some((c, t)) => if c == t then 100 else Min(RoundPercent(c, t), 99)
  }

  function Min(a: int, b: int): int { if a <= b then a else b }

  /** The corrected percentage differs from the written one only where the written
      one shows 100 and the corrected one 99. */
  lemma CourseProgressCapsWritten(progress: Option<Progress>, courses: seq<Course>, courseId: string)
    ensures var fixed := CourseProgress(progress, courses, courseId);
            var written := GetCourseProgress(progress, courses, courseId);
            fixed == written || (fixed == 99 && written == 100)
  {
    var counts := Counts(progress, courses, courseId);
    if counts.Some? {
      var c, t := counts.value.0, counts.value.1;
      assert CourseProgress(progress, courses, courseId) == if c == t then 100 else Min(RoundPercent(c, t), 99);
      assert GetCourseProgress(progress, courses, courseId) == RoundPercent(c, t);
      if c == t {
        RoundPercentExtremes(c, t);
      }
    }
  }

  /** The course the percentage is about, when it is defined. */
  ghost predicate Tracked(progress: Option<Progress>, courses: seq<Course>, courseId: string)
  {
    progress.Some? && courseId != "" && FindCourse(courses, courseId).Some?
    && TotalLessons(FindCourse(courses, courseId).value.modules) > 0
  }

  ghost predicate CourseCompleted(progress: Option<Progress>, courses: seq<Course>, courseId: string)
    requires Tracked(progress, courses, courseId)
  {
    AllCompleted(FindCourse(courses, courseId).value.modules, progress.value.completedLessons)
  }

  lemma CountsOfTracked(progress: Option<Progress>, courses: seq<Course>, courseId: string)
    requires Tracked(progress, courses, courseId)
    ensures Counts(progress, courses, courseId).Some?
    ensures var (c, t) := Counts(progress, courses, courseId).value;
            (c == t <==> CourseCompleted(progress, courses, courseId))
  {
    var ms := FindCourse(courses, courseId).value.modules;
    CompletedInCourseBounds(ms, progress.value.completedLessons);
  }

  /** The corrected percentage reports 100 exactly when every lesson of the course
      is completed, whatever the number of lessons. */
  lemma CourseProgressFullIffCompleted(progress: Option<Progress>, courses: seq<Course>, courseId: string)
    requires Tracked(progress, courses, courseId)
    ensures CourseProgress(progress, courses, courseId) == 100 <==> CourseCompleted(progress, courses, courseId)
  {
    CountsOfTracked(progress, courses, courseId);
  }

  /** An untracked course (no record, no id, unknown, or without lessons) is at 0. */
  lemma UntrackedIsZero(progress: Option<Progress>, courses: seq<Course>, courseId: string)
    requires !Tracked(progress, courses, courseId)
    ensures CourseProgress(progress, courses, courseId) == 0
    ensures GetCourseProgress(progress, courses, courseId) == 0
  {
  }

  /** Below 200 lessons the rounding cannot reach 100 early, so the corrected and
      the written percentage agree, and the written one is 100 exactly when the
      course is completed. */
  lemma ProgressAgreesBelow200(progress: Option<Progress>, courses: seq<Course>, courseId: string)
    requires Tracked(progress, courses, courseId)
    requires TotalLessons(FindCourse(courses, courseId).value.modules) < 200
    ensures GetCourseProgress(progress, courses, courseId) == CourseProgress(progress, courses, courseId)
    ensures GetCourseProgress(progress, courses, courseId) == 100 <==> CourseCompleted(progress, courses, courseId)
  {
    CountsOfTracked(progress, courses, courseId);
    var c, t := Counts(progress, courses, courseId).value.0, Counts(progress, courses, courseId).value.1;
    assert t == TotalLessons(FindCourse(courses, courseId).value.modules);
    assert GetCourseProgress(progress, courses, courseId) == RoundPercent(c, t);
    assert CourseProgress(progress, courses, courseId) == if c == t then 100 else Min(RoundPercent(c, t), 99);
    RoundPercentExtremes(c, t);
  }

  /** As written, a course of 200 or more lessons with one lesson left shows 100:
      with 400 lessons and 399 completed, 99.75 rounds to 100. */
  lemma RoundingReportsFullEarly(progress: Option<Progress>, courses: seq<Course>, courseId: string)
    requires Tracked(progress, courses, courseId)
    requires var ms := FindCourse(courses, courseId).value.modules;
             TotalLessons(ms) >= 200
             && CompletedInCourse(ms, progress.value.completedLessons) == TotalLessons(ms) - 1
    ensures GetCourseProgress(progress, courses, courseId) == 100
    ensures !CourseCompleted(progress, courses, courseId)
    ensures CourseProgress(progress, courses, courseId) == 99
  {
    CountsOfTracked(progress, courses, courseId);
    var (c, t) := Counts(progress, courses, courseId).value;
    RoundPercentExtremes(c, t);
  }

  /** More completed ids never lower the percentage of any course, as written
      and corrected. */
  lemma CourseProgressMonotone(p1: Progress, p2: Progress, courses: seq<Course>, courseId: string)
    requires forall x :: x in p1.completedLessons ==> x in p2.completedLessons
    ensures GetCourseProgress(Some(p1), courses, courseId) <= GetCourseProgress(Some(p2), courses, courseId)
    ensures CourseProgress(Some(p1), courses, courseId) <= CourseProgress(Some(p2), courses, courseId)
  {
    if courseId != "" && FindCourse(courses, courseId).Some? {
      var ms := FindCourse(courses, courseId).value.modules;
      var t := TotalLessons(ms);
      if t > 0 {
        CompletedInCourseMonotone(ms, p1.completedLessons, p2.completedLessons);
        CompletedInCourseBounds(ms, p1.completedLessons);
        CompletedInCourseBounds(ms, p2.completedLessons);
        RoundPercentMonotone(CompletedInCourse(ms, p1.completedLessons), CompletedInCourse(ms, p2.completedLessons), t);
      }
    }
  }

  /** Ids of lessons outside the course leave its percentage unchanged, as
      written and corrected. */
  lemma CourseProgressIgnoresForeign(p1: Progress, p2: Progress, courses: seq<Course>, courseId: string)
    requires FindCourse(courses, courseId).Some?
    requires forall l :: l in AllLessons(FindCourse(courses, courseId).value.modules) ==>
               (l.id in p1.completedLessons <==> l.id in p2.completedLessons)
    ensures GetCourseProgress(Some(p1), courses, courseId) == GetCourseProgress(Some(p2), courses, courseId)
    ensures CourseProgress(Some(p1), courses, courseId) == CourseProgress(Some(p2), courses, courseId)
  {
    var ms := FindCourse(courses, courseId).value.modules;
    CompletedInCourseIgnoresForeign(ms, p1.completedLessons, p2.completedLessons);
    assert Counts(Some(p1), courses, courseId) == Counts(Some(p2), courses, courseId);
  }

  /** A fresh record is at 0 for every course, as written and corrected. */
  lemma InitialProgressIsZero(uid: string, now: int, courses: seq<Course>, courseId: string)
    ensures GetCourseProgress(Some(InitialProgress(uid, now)), courses, courseId) == 0
    ensures CourseProgress(Some(InitialProgress(uid, now)), courses, courseId) == 0
  {
    var p := Some(InitialProgress(uid, now));
    var counts := Counts(p, courses, courseId);
    if counts.Some? {
      var ms := FindCourse(courses, courseId).value.modules;
      ZeroWhenNothingDone(ms);
      var c, t := counts.value.0, counts.value.1;
      assert c == 0 && t > 0;
      assert CourseProgress(p, courses, courseId) == Min(RoundPercent(c, t), 99);
      assert GetCourseProgress(p, courses, courseId) == RoundPercent(c, t);
      RoundPercentExtremes(c, t);
    }
  }

  lemma {:induction false} ZeroWhenNothingDone(ms: seq<Module>)
    ensures CompletedInCourse(ms, []) == 0
  {
    if |ms| > 0 {
      NothingDoneInModule(ms[0].lessons);
      ZeroWhenNothingDone(ms[1..]);
    }
  }

  lemma {:induction false} NothingDoneInModule(ls: seq<Lesson>)
    ensures CountCompleted(ls, []) == 0
  {
    if |ls| > 0 {
      NothingDoneInModule(ls[1..]);
    }
  }

  /** Marking a lesson never lowers the percentage of any course, as written
      and corrected. */
  lemma MarkNeverLowersProgress(uid: Option<string>, local: Option<Progress>, lessonId: string,
                                now: int, reply: StoreReply, courses: seq<Course>, courseId: string)
    requires local.Some?
    ensures var r := MarkLessonAsCompleted(uid, local, lessonId, now, reply);
            r.state.Some? && GetCourseProgress(local, courses, courseId) <= GetCourseProgress(r.state, courses, courseId)
            && CourseProgress(local, courses, courseId) <= CourseProgress(r.state, courses, courseId)
  {
    var r := MarkLessonAsCompleted(uid, local, lessonId, now, reply);
    CourseProgressMonotone(local.value, r.state.value, courses, courseId);
  }

  // ---------------------------------------------------------------------------
  // Certificates.

  datatype CertError = NotAuthenticated | StoreError

  datatype CertResult = Issued(fileName: string) | Refused(error: CertError)

  datatype Certificate = Certificate(write: Option<ProgressWrite>, state: Option<Progress>, result: CertResult)

  /** `certificate_${courseId}_${uid}.pdf`. */
  function CertificateFileName(courseId: string, uid: string): (r: string)
    ensures |r| == 17 + |courseId| + |uid|
    ensures r[..12] == "certificate_" && r[|r| - 4..] == ".pdf"
    ensures r[12..12 + |courseId|] == courseId && r[12 + |courseId|] == '_'
    ensures r[13 + |courseId|..|r| - 4] == uid
  {
    "certificate_" + courseId + "_" + uid + ".pdf"
  }

  /** Ids without `_` can be read back from the file name: different course or
      user ids never share a certificate name. */
  lemma CertificateFileNameInjective(c1: string, u1: string, c2: string, u2: string)
    requires forall k :: 0 <= k < |c1| ==> c1[k] != '_'
    requires forall k :: 0 <= k < |c2| ==> c2[k] != '_'
    requires CertificateFileName(c1, u1) == CertificateFileName(c2, u2)
    ensures c1 == c2 && u1 == u2
  {
    var n := CertificateFileName(c1, u1);
    assert forall k :: 12 <= k < 12 + |c1| ==> n[k] == n[12..12 + |c1|][k - 12];
    assert forall k :: 12 <= k < 12 + |c2| ==> n[k] == n[12..12 + |c2|][k - 12];
    assert |c1| == |c2|;
  }

  /** `generateCertificate`: refused without a user; otherwise the flag is written,
      and once the store accepts, the local copy (when loaded) carries it and the
      file name is returned. A store failure is passed on to the caller. The
      learner's name the caller passes plays no part. */
  function GenerateCertificate(uid: Option<string>, local: Option<Progress>, courseId: string,
                               reply: StoreReply): (r: Certificate)
    ensures uid.None? <==> r.result == Refused(NotAuthenticated)
    ensures uid.None? ==> r.write.None?
    ensures uid.Some? ==> r.write == Some(SetCertificate)
    ensures r.result.Issued? <==> uid.Some? && reply == Ack
    ensures r.result.Issued? ==> r.result.fileName == CertificateFileName(courseId, uid.value)
    ensures r.result.Issued? && local.Some? ==> r.state == Some(local.value.(certificateGenerated := true))
    ensures !r.result.Issued? || local.None? ==> r.state == local
  {
    if uid.None? then Certificate(None, local, Refused(NotAuthenticated))
    else if reply == Ack then
      var state := if local.Some? then Some(local.value.(certificateGenerated := true)) else None;
      Certificate(Some(SetCertificate), state, Issued(CertificateFileName(courseId, uid.value)))
    else Certificate(Some(SetCertificate), local, Refused(StoreError))
  }

  /** Issuing a certificate changes no course's percentage, and the local copy
      agrees with the stored document afterwards. */
  lemma CertificateKeepsProgress(uid: string, doc: Progress, courseId: string, reply: StoreReply,
                                 courses: seq<Course>, otherId: string)
    ensures var r := GenerateCertificate(Some(uid), Some(doc), courseId, reply);
            r.state.Some? && CourseProgress(r.state, courses, otherId) == CourseProgress(Some(doc), courses, otherId)
            && GetCourseProgress(r.state, courses, otherId) == GetCourseProgress(Some(doc), courses, otherId)
            && (reply == Ack ==> r.state == Some(ApplyWrite(doc, SetCertificate)))
  {
    var r := GenerateCertificate(Some(uid), Some(doc), courseId, reply);
    assert r.state.value.completedLessons == doc.completedLessons;
  }
}

=== FILE: course_detail.dfy ===
/** The course page for a learner: which lesson is playing, the completion
    percentage and the panels shown around the player, and the name of the
    downloaded certificate. */
module CourseDetail {

  import opened Types
  import Seqs
  import Text
  import CourseContext
  import ModuleAccordion

  /** `lessons.find(l => l.id === id)`. */
  function FindInLessons(ls: seq<Lesson>, id: string): (r: Option<Lesson>)
    ensures r.None? <==> forall i :: 0 <= i < |ls| ==> ls[i].id != id
    ensures r.Some? ==> exists i :: 0 <= i < |ls| && ls[i] == r.value && r.value.id == id
                          && forall j :: 0 <= j < i ==> ls[j].id != id
  {
    var k := Seqs.FirstIndex(ls, (l: Lesson) => l.id == id);
    if k < 0 then None else Some(ls[k])
  }

  /** Searching two lists one after the other is searching their concatenation. */
  lemma FindInLessonsAppend(a: seq<Lesson>, b: seq<Lesson>, id: string)
    ensures FindInLessons(a + b, id) == if FindInLessons(a, id).Some? then FindInLessons(a, id) else FindInLessons(b, id)
  {
    var r := FindInLessons(a + b, id);
    if FindInLessons(a, id).Some? {
      var i :| 0 <= i < |a| && a[i] == FindInLessons(a, id).value && a[i].id == id && forall j :: 0 <= j < i ==> a[j].id != id;
      assert (a + b)[i] == a[i];
      var i' :| 0 <= i' < |a + b| && (a + b)[i'] == r.value && r.value.id == id && forall j :: 0 <= j < i' ==> (a + b)[j].id != id;
      assert i' == i;
    } else if FindInLessons(b, id).Some? {
      var i :| 0 <= i < |b| && b[i] == FindInLessons(b, id).value && b[i].id == id && forall j :: 0 <= j < i ==> b[j].id != id;
      assert (a + b)[|a| + i] == b[i];
      var i' :| 0 <= i' < |a + b| && (a + b)[i'] == r.value && r.value.id == id && forall j :: 0 <= j < i' ==> (a + b)[j].id != id;
      assert i' == |a| + i;
    } else {
      assert forall i :: 0 <= i < |a + b| ==> (a + b)[i].id != id by {
        assert forall i :: 0 <= i < |a| ==> (a + b)[i] == a[i];
        assert forall i :: |a| <= i < |a + b| ==> (a + b)[i] == b[i - |a|];
      }
    }
  }

  /** The loop over the modules: the first module holding a lesson with the id,
      and that module's first such lesson, which is the first lesson with the
      id in course order. */
  function FindLessonIn(ms: seq<Module>, id: string): (r: Option<Lesson>)
    ensures r == FindInLessons(AllLessons(ms), id)
  {
    if |ms| == 0 then None
    else
      FindInLessonsAppend(ms[0].lessons, AllLessons(ms[1..]), id);
      match FindInLessons(ms[0].lessons, id)
      case Some(l) => Some(l)
      case None => FindLessonIn(ms[1..], id)
  }

  /** `course.modules[0]?.lessons[0] || null`. */
  function FirstLesson(ms: seq<Module>): (r: Option<Lesson>)
    ensures r.Some? ==> |AllLessons(ms)| > 0 && r.value == AllLessons(ms)[0]
    ensures r.None? ==> |ms| == 0 || |ms[0].lessons| == 0
  {
    if |ms| > 0 && |ms[0].lessons| > 0 then Some(ms[0].lessons[0]) else None
  }

  /** The lesson in the player: the selected one when an id is selected (none when
      no lesson carries it), else the first lesson of the course for a learner
      without access, else none. */
  function CurrentLesson(ms: seq<Module>, selected: Option<string>, hasAccess: bool): (r: Option<Lesson>)
    ensures Truthy(selected) ==> r == FindInLessons(AllLessons(ms), selected.value)
    ensures !Truthy(selected) && !hasAccess ==> r == FirstLesson(ms)
    ensures !Truthy(selected) && hasAccess ==> r.None?
  {
    if Truthy(selected) then FindLessonIn(ms, selected.value)
    else if !hasAccess then FirstLesson(ms)
    else None
  }

  /** Without access, whatever the lesson menu lets the learner select, the player
      shows the preview lesson: the first lesson of the first module. */
  lemma WithoutAccessPlayerShowsPreview(ms: seq<Module>, done: seq<string>, menuSelection: Option<string>, picked: string)
    requires picked in ModuleAccordion.EnabledIds(ModuleAccordion.MenuRows(ms, done, menuSelection, false, 0))
    ensures CurrentLesson(ms, Some(picked), false) == FirstLesson(ms)
    ensures FirstLesson(ms).Some?
  {
    ModuleAccordion.WithoutAccessOnlyPreview(ms, done, menuSelection, 0);
    var first := ms[0].lessons[0];
    assert picked == first.id;
    assert AllLessons(ms)[0] == first;
    var r := FindInLessons(AllLessons(ms), picked);
    var i :| 0 <= i < |AllLessons(ms)| && AllLessons(ms)[i] == r.value && r.value.id == picked
             && forall j :: 0 <= j < i ==> AllLessons(ms)[j].id != picked;
    assert i == 0;
  }

  // ---------------------------------------------------------------------------

  /** Completing a lesson from the page: nothing without access, otherwise the
      progress store's mark operation. */
  function OnLessonComplete(hasAccess: bool, uid: Option<string>, local: Option<Progress>, lessonId: string,
                            now: int, reply: StoreReply): (r: CourseContext.Step)
    ensures !hasAccess ==> r.write.None? && r.state == local
    ensures hasAccess ==> r == CourseContext.MarkLessonAsCompleted(uid, local, lessonId, now, reply)
  {
    if !hasAccess then CourseContext.Step(None, local)
    else CourseContext.MarkLessonAsCompleted(uid, local, lessonId, now, reply)
  }

  /** The certificate button does something only for a profile with a display
      name, once the course is complete. */
  function CanGenerateCertificate(profile: Option<User>, isCompleted: bool): (r: bool)
    ensures r ==> isCompleted
    ensures r ==> profile.Some? && |profile.value.displayName| > 0
    ensures isCompleted && profile.Some? && |profile.value.displayName| > 0 ==> r
  {
    profile.Some? && profile.value.displayName != "" && isCompleted
  }

  const DownloadPrefix: string := "certificado_"
  const DownloadSuffix: string := ".pdf"

  /** The title lower-cased, each whitespace run replaced by `_`. */
  function Slug(title: string): (r: string)
    ensures forall i :: 0 <= i < |r| ==> !Text.IsWhitespace(r[i])
  {
    Text.ReplaceRunsRemovesWhitespace(Text.ToLower(title), "_");
    Text.ReplaceWhitespaceRuns(Text.ToLower(title), "_")
  }

  /** The name of the downloaded certificate. */
  function DownloadFileName(title: string): (r: string)
    ensures |r| >= |DownloadPrefix| + |DownloadSuffix|
    ensures r[..|DownloadPrefix|] == DownloadPrefix && r[|r| - |DownloadSuffix|..] == DownloadSuffix
    ensures forall i :: 0 <= i < |r| ==> !Text.IsWhitespace(r[i])
  {
    var middle := Slug(title);
    FramedName(middle);
    DownloadPrefix + middle + DownloadSuffix
  }

  /** Framing a whitespace-free middle keeps the name whitespace-free. */
  lemma FramedName(middle: string)
    requires forall i :: 0 <= i < |middle| ==> !Text.IsWhitespace(middle[i])
    ensures var r := DownloadPrefix + middle + DownloadSuffix;
            |r| >= |DownloadPrefix| + |DownloadSuffix|
            && r[..|DownloadPrefix|] == DownloadPrefix && r[|r| - |DownloadSuffix|..] == DownloadSuffix
            && forall i :: 0 <= i < |r| ==> !Text.IsWhitespace(r[i])
  {
    var r := DownloadPrefix + middle + DownloadSuffix;
    assert forall i :: 0 <= i < |r| ==> r[i] == (if i < 12 then DownloadPrefix[i] else if i < 12 + |middle| then middle[i - 12] else DownloadSuffix[i - 12 - |middle|]);
  }

  /** A title already in lower case and without whitespace is used as it is. */
  lemma DownloadFileNameOfPlainTitle(title: string)
    requires forall i :: 0 <= i < |title| ==> !Text.IsWhitespace(title[i]) && Text.LowerChar(title[i]) == title[i]
    ensures DownloadFileName(title) == DownloadPrefix + title + DownloadSuffix
  {
    assert Text.ToLower(title) == title;
    Text.ReplaceRunsIdentity(title, "_");
    assert Slug(title) == title;
  }

  // ---------------------------------------------------------------------------

  /** The panels and flags of the page around the player. */
  datatype DetailView = DetailView(
    hasAccess: bool,
    progress: nat,
    isCompleted: bool,
    current: Option<Lesson>,
    showsProgressPanel: bool,
    showsTelegramLink: bool,
    showsIntroBanner: bool,
    showsMarkButton: bool,
    showsCongratulations: bool,
    showsPaymentPanel: bool)

  datatype Page = RedirectToCourses | Detail(view: DetailView)

  /** The page around the player for a found course, given the percentage it
      shows. */
  function ViewWith(course: Course, profile: Option<User>, selected: Option<string>, pct: nat): (v: DetailView)
    requires pct <= 100
    ensures v.hasAccess == HasAccess(profile) && v.progress == pct
    ensures v.isCompleted <==> pct == 100
    ensures v.current == CurrentLesson(course.modules, selected, v.hasAccess)
    ensures v.showsProgressPanel <==> v.hasAccess
    ensures v.showsTelegramLink <==> v.hasAccess && Truthy(course.telegramUrl)
    ensures (v.showsIntroBanner <==> !v.hasAccess) && (v.showsPaymentPanel <==> !v.hasAccess)
    ensures v.showsMarkButton <==> v.current.Some? && v.hasAccess && !v.isCompleted
    ensures v.showsCongratulations <==> v.isCompleted && v.hasAccess
    ensures !(v.showsMarkButton && v.showsCongratulations)
  {
    var hasAccess := HasAccess(profile);
    var isCompleted := pct == 100;
    var current := CurrentLesson(course.modules, selected, hasAccess);
    DetailView(
      hasAccess, pct, isCompleted, current,
      hasAccess, hasAccess && Truthy(course.telegramUrl), !hasAccess,
      current.Some? && hasAccess && !isCompleted,
      isCompleted && hasAccess, !hasAccess)
  }

  /** The course page as written, for the route parameter, the signed-in
      profile, the progress record and the selected lesson id: the shown
      percentage is `getCourseProgress`, and the course counts as completed
      when it is 100. */
  function RenderPage(courseId: Option<string>, courses: seq<Course>, profile: Option<User>,
                      progress: Option<Progress>, selected: Option<string>): (p: Page)
    ensures p == RedirectToCourses <==> !Truthy(courseId) || CourseContext.FindCourse(courses, courseId.value).None?
    ensures p.Detail? ==> p.view == ViewWith(CourseContext.FindCourse(courses, courseId.value).value, profile, selected,
                                            CourseContext.GetCourseProgress(progress, courses, courseId.value))
    ensures p.Detail? ==> p.view.hasAccess == HasAccess(profile)
    ensures p.Detail? ==> p.view.progress <= 100
    ensures p.Detail? ==> (p.view.isCompleted <==> p.view.progress == 100)
  {
    if !Truthy(courseId) then RedirectToCourses
    else match CourseContext.FindCourse(courses, courseId.value)
      case None => RedirectToCourses
      case Some(course) => Detail(ViewWith(course, profile, selected, CourseContext.GetCourseProgress(progress, courses, courseId.value)))
  }

  /** The course page with the corrected percentage, which reaches 100 only once
      every lesson is done. */
  function RenderPageFixed(courseId: Option<string>, courses: seq<Course>, profile: Option<User>,
                           progress: Option<Progress>, selected: Option<string>): (p: Page)
    ensures p == RedirectToCourses <==> !Truthy(courseId) || CourseContext.FindCourse(courses, courseId.value).None?
    ensures p.Detail? ==> p.view == ViewWith(CourseContext.FindCourse(courses, courseId.value).value, profile, selected,
                                            CourseContext.CourseProgress(progress, courses, courseId.value))
  {
    if !Truthy(courseId) then RedirectToCourses
    else match CourseContext.FindCourse(courses, courseId.value)
      case None => RedirectToCourses
      case Some(course) => Detail(ViewWith(course, profile, selected, CourseContext.CourseProgress(progress, courses, courseId.value)))
  }

  /** As written, the page calls the course completed exactly when the course
      has lessons and at most one two-hundredth of them is missing from the
      record. */
  lemma CompletedAsWrittenMeans(courseId: string, courses: seq<Course>, profile: Option<User>,
                                progress: Option<Progress>, selected: Option<string>)
    requires RenderPage(Some(courseId), courses, profile, progress, selected).Detail?
    ensures var ms := CourseContext.FindCourse(courses, courseId).value.modules;
            RenderPage(Some(courseId), courses, profile, progress, selected).view.isCompleted <==>
              CourseContext.Tracked(progress, courses, courseId)
              && 200 * (TotalLessons(ms) - CompletedInCourse(ms, progress.value.completedLessons)) <= TotalLessons(ms)
  {
    if CourseContext.Tracked(progress, courses, courseId) {
      CourseContext.CountsOfTracked(progress, courses, courseId);
      var (c, t) := CourseContext.Counts(progress, courses, courseId).value;
      CourseContext.RoundPercentExtremes(c, t);
    } else {
      CourseContext.UntrackedIsZero(progress, courses, courseId);
    }
  }

  /** Either page calls a course completed once every one of its lessons is done. */
  lemma EveryLessonDoneCompletesPage(courseId: string, courses: seq<Course>, profile: Option<User>,
                                     progress: Option<Progress>, selected: Option<string>)
    requires CourseContext.Tracked(progress, courses, courseId) && CourseContext.CourseCompleted(progress, courses, courseId)
    ensures RenderPage(Some(courseId), courses, profile, progress, selected).view.isCompleted
    ensures RenderPageFixed(Some(courseId), courses, profile, progress, selected).view.isCompleted
  {
    CourseContext.CourseProgressFullIffCompleted(progress, courses, courseId);
    CourseContext.CourseProgressCapsWritten(progress, courses, courseId);
  }

  /** For a course of fewer than 200 lessons the page as written and the
      corrected page are the same. */
  lemma PagesAgreeBelow200(courseId: string, courses: seq<Course>, profile: Option<User>,
                           progress: Option<Progress>, selected: Option<string>)
    requires CourseContext.FindCourse(courses, courseId).Some?
    requires TotalLessons(CourseContext.FindCourse(courses, courseId).value.modules) < 200
    ensures RenderPage(Some(courseId), courses, profile, progress, selected) == RenderPageFixed(Some(courseId), courses, profile, progress, selected)
  {
    if CourseContext.Tracked(progress, courses, courseId) {
      CourseContext.ProgressAgreesBelow200(progress, courses, courseId);
    } else {
      CourseContext.UntrackedIsZero(progress, courses, courseId);
    }
  }

  /** As written, a named learner one lesson short of the end of a course of 200
      or more lessons sees the course completed and can generate its
      certificate; the corrected page still shows the lesson to finish. */
  lemma CertificateUnlocksEarly(courseId: string, courses: seq<Course>, profile: Option<User>,
                                progress: Option<Progress>, selected: Option<string>)
    requires CourseContext.Tracked(progress, courses, courseId)
    requires var ms := CourseContext.FindCourse(courses, courseId).value.modules;
             TotalLessons(ms) >= 200
             && CompletedInCourse(ms, progress.value.completedLessons) == TotalLessons(ms) - 1
    requires profile.Some? && profile.value.displayName != ""
    ensures RenderPage(Some(courseId), courses, profile, progress, selected).Detail?
    ensures CanGenerateCertificate(profile, RenderPage(Some(courseId), courses, profile, progress, selected).view.isCompleted)
    ensures !CourseContext.CourseCompleted(progress, courses, courseId)
    ensures !RenderPageFixed(Some(courseId), courses, profile, progress, selected).view.isCompleted
  {
    CourseContext.RoundingReportsFullEarly(progress, courses, courseId);
  }

  /** The corrected page calls the course completed exactly when the course has
      lessons and every one of them is in the progress record. */
  lemma CompletedMeansEveryLessonDone(courseId: string, courses: seq<Course>, profile: Option<User>,
                                      progress: Option<Progress>, selected: Option<string>)
    requires RenderPageFixed(Some(courseId), courses, profile, progress, selected).Detail?
    ensures RenderPageFixed(Some(courseId), courses, profile, progress, selected).view.isCompleted <==>
              CourseContext.Tracked(progress, courses, courseId) && CourseContext.CourseCompleted(progress, courses, courseId)
  {
    if CourseContext.Tracked(progress, courses, courseId) {
      CourseContext.CourseProgressFullIffCompleted(progress, courses, courseId);
    } else {
      CourseContext.UntrackedIsZero(progress, courses, courseId);
    }
  }

  /** On the corrected page a certificate can only be generated for a course
      whose every lesson is in the progress record. */
  lemma CertificateNeedsEveryLesson(courseId: string, courses: seq<Course>, profile: Option<User>,
                                    progress: Option<Progress>, selected: Option<string>)
    requires RenderPageFixed(Some(courseId), courses, profile, progress, selected).Detail?
    requires CanGenerateCertificate(profile, RenderPageFixed(Some(courseId), courses, profile, progress, selected).view.isCompleted)
    ensures profile.Some? && profile.value.displayName != ""
    ensures CourseContext.Tracked(progress, courses, courseId) && CourseContext.CourseCompleted(progress, courses, courseId)
  {
    CompletedMeansEveryLessonDone(courseId, courses, profile, progress, selected);
  }
}

=== FILE: course_detail_page.dfy ===
/** The screen behind `/courses/:courseId`: back to the catalogue for an unknown
    course, the full course page with access, the sales preview without. */
module CourseDetailPage {

  import opened Types
  import CourseContext

  datatype Screen =
    | BackToCourses
    | FullCourse(course: Course)
    | Preview(course: Course, hasAccess: bool)

  function Render(courseId: Option<string>, courses: seq<Course>, profile: Option<User>): (r: Screen)
    ensures r == BackToCourses <==> !Truthy(courseId) || CourseContext.FindCourse(courses, courseId.value).None?
    ensures r.FullCourse? <==> Truthy(courseId) && CourseContext.FindCourse(courses, courseId.value).Some? && HasAccess(profile)
    ensures r.FullCourse? ==> r.course.id == courseId.value && r.course in courses
    ensures r.Preview? ==> !r.hasAccess && !HasAccess(profile)
    ensures r.Preview? ==> r.course.id == courseId.value && r.course in courses
  {
    if !Truthy(courseId) then BackToCourses
    else match CourseContext.FindCourse(courses, courseId.value)
      case None => BackToCourses
      case Some(course) =>
        var hasAccess := HasAccess(profile);
        if hasAccess then FullCourse(course) else Preview(course, hasAccess)
  }
}

=== FILE: course_manager.dfy ===
/** The administrator's content editor: saving a course, its modules and their
    lessons, deleting them, and the resource list of the lesson form. Each save
    allocates or keeps a sibling order, numbers the title from that order,
    replaces or appends the item and sorts the siblings by order; the whole
    module list of the course is then written back. Fresh ids and the current
    time are parameters, and the store's reply to the write is a parameter. */
module CourseManager {

  import opened Types
  import Seqs
  import Text
  import Ordering
  import VideoHelpers

  function ModuleId(m: Module): string { m.id }
  function ModuleOrder(m: Module): int { m.order }
  function LessonId(l: Lesson): string { l.id }
  function LessonOrder(l: Lesson): int { l.order }
  function ResourceId(r: Resource): string { r.id }

  /** The element test of `findIndex(x => x.id === target)` and of the filters. */
  function IdIs<T>(id: T -> string, target: string): T -> bool
  {
    (x: T) => id(x) == target
  }

  lemma IdIsMeans<T>(id: T -> string, target: string, x: T)
    ensures IdIs(id, target)(x) <==> id(x) == target
  {
  }

  function IdIsNot<T>(id: T -> string, target: string): T -> bool
  {
    (x: T) => id(x) != target
  }

  lemma IdIsNotMeans<T>(id: T -> string, target: string, x: T)
    ensures IdIsNot(id, target)(x) <==> id(x) != target
  {
  }

  /** Filtering out an id keeps exactly the elements carrying another id, in
      their order and as often as they occur. */
  lemma FilterOutMeans<T>(xs: seq<T>, id: T -> string, target: string)
    ensures var r := Seqs.Filter(xs, IdIsNot(id, target));
            (forall j :: 0 <= j < |r| ==> id(r[j]) != target && r[j] in xs)
            && (forall j :: 0 <= j < |xs| && id(xs[j]) != target ==> xs[j] in r)
            && Seqs.SubsequenceOf(r, xs)
            && (forall x :: multiset(r)[x] == if id(x) != target then multiset(xs)[x] else 0)
  {
    var r := Seqs.Filter(xs, IdIsNot(id, target));
    forall j | 0 <= j < |r| ensures id(r[j]) != target {
      IdIsNotMeans(id, target, r[j]);
    }
    forall j | 0 <= j < |xs| && id(xs[j]) != target ensures xs[j] in r {
      IdIsNotMeans(id, target, xs[j]);
    }
    Seqs.FilterIsSubsequence(xs, IdIsNot(id, target));
    forall x ensures multiset(r)[x] == if id(x) != target then multiset(xs)[x] else 0 {
      Seqs.FilterCount(xs, IdIsNot(id, target), x);
      IdIsNotMeans(id, target, x);
    }
  }

  ghost predicate UniqueIds<T>(xs: seq<T>, id: T -> string)
  {
    forall i, j :: 0 <= i < j < |xs| ==> id(xs[i]) != id(xs[j])
  }

  // ---------------------------------------------------------------------------
  // Placing a saved item among its siblings.

  /** Replace the first sibling carrying the edited id (nothing when there is
      none) or append the new item, then sort by order. */
  function Place<T>(xs: seq<T>, target: Option<string>, item: T, id: T -> string, key: T -> int): (r: seq<T>)
    ensures Ordering.SortedBy(r, key)
    ensures target.None? ==> |r| == |xs| + 1 && multiset(r) == multiset(xs) + multiset{item}
    ensures target.Some? ==> |r| == |xs|
    ensures target.Some? && Seqs.FirstIndex(xs, IdIs(id, target.value)) < 0 ==> multiset(r) == multiset(xs)
    ensures target.Some? && 0 <= Seqs.FirstIndex(xs, IdIs(id, target.value)) ==>
              multiset(r) == multiset(xs[Seqs.FirstIndex(xs, IdIs(id, target.value)) := item])
  {
    var list := if target.None? then xs + [item] else Seqs.ReplaceFirst(xs, IdIs(id, target.value), item);
    Ordering.SortByKey(list, key)
  }

  /** A created item whose order exceeds every sibling's keeps the orders distinct. */
  lemma PlaceCreateKeepsDistinct<T>(xs: seq<T>, item: T, id: T -> string, key: T -> int)
    requires Ordering.DistinctKeys(xs, key)
    requires forall i :: 0 <= i < |xs| ==> key(xs[i]) < key(item)
    ensures Ordering.DistinctKeys(Place(xs, None, item, id, key), key)
  {
    Ordering.FreshKeyAppendKeepsDistinct(xs, item, key);
  }

  /** An edited item keeping the order of the sibling it replaces keeps the orders distinct. */
  lemma PlaceEditKeepsDistinct<T>(xs: seq<T>, target: string, item: T, id: T -> string, key: T -> int)
    requires Ordering.DistinctKeys(xs, key)
    requires var k := Seqs.FirstIndex(xs, IdIs(id, target)); 0 <= k ==> key(xs[k]) == key(item)
    ensures Ordering.DistinctKeys(Place(xs, Some(target), item, id, key), key)
  {
    var k := Seqs.FirstIndex(xs, IdIs(id, target));
    if 0 <= k {
      Ordering.SameKeyUpdateKeepsDistinct(xs, k, item, key);
    }
  }

  /** On a sorted list a created item with the largest order lands at the end. */
  lemma PlaceCreateAppends<T>(xs: seq<T>, item: T, id: T -> string, key: T -> int)
    requires Ordering.SortedBy(xs, key)
    requires forall i :: 0 <= i < |xs| ==> key(xs[i]) < key(item)
    ensures Place(xs, None, item, id, key) == xs + [item]
  {
    var ys := xs + [item];
    assert Ordering.SortedBy(ys, key) by {
      forall i, j | 0 <= i < j < |ys| ensures key(ys[i]) <= key(ys[j]) {
        if j == |xs| {
          assert ys[i] == xs[i];
        } else {
          assert ys[i] == xs[i] && ys[j] == xs[j];
        }
      }
    }
    Ordering.SortSortedIsIdentity(ys, key);
  }

  /** On a sorted list an edit that keeps the order replaces the item in place,
      and an edit of a missing id changes nothing. */
  lemma PlaceEditInPlace<T>(xs: seq<T>, target: string, item: T, id: T -> string, key: T -> int)
    requires Ordering.SortedBy(xs, key)
    requires var k := Seqs.FirstIndex(xs, IdIs(id, target)); 0 <= k ==> key(xs[k]) == key(item)
    ensures var k := Seqs.FirstIndex(xs, IdIs(id, target));
            Place(xs, Some(target), item, id, key) == if k < 0 then xs else xs[k := item]
  {
    var k := Seqs.FirstIndex(xs, IdIs(id, target));
    if 0 <= k {
      Ordering.SameKeyUpdateKeepsSorted(xs, k, item, key);
      Ordering.SortSortedIsIdentity(xs[k := item], key);
    } else {
      Ordering.SortSortedIsIdentity(xs, key);
    }
  }

  // ---------------------------------------------------------------------------
  // Numbered titles.

  const ModuleWord: string := "Módulo "
  const LessonWord: string := "Lección "

  /** `${word}${order + 1}: ${input}`: the word in front, the typed title at the
      end, and `: ` just before it. */
  function NumberedTitle(word: string, order: int, input: string): (r: string)
    ensures |r| > |word| + |input| + 2
    ensures r[..|word|] == word
    ensures r[|r| - |input|..] == input
    ensures r[|r| - |input| - 2..|r| - |input|] == ": "
  {
    word + Text.IntToString(order + 1) + ": " + input
  }

  /** The length of the run of decimal digits at the front of `s`. */
  function LeadingDigits(s: string): (n: nat)
    ensures n <= |s|
    ensures forall i :: 0 <= i < n ==> Text.IsDigit(s[i])
    ensures n == |s| || !Text.IsDigit(s[n])
  {
    if |s| > 0 && Text.IsDigit(s[0]) then 1 + LeadingDigits(s[1..]) else 0
  }

  /** Removes a leading `${word}${number}: `, leaving any other title as it is. */
  function StripNumber(word: string, t: string): (r: string)
    ensures |r| <= |t|
  {
    if |t| >= |word| && t[..|word|] == word then
      match StripCounter(t[|word|..])
      case Some(rest) => rest
      case None => t
    else t
  }

  /** The text after a leading `${number}: `, when there is one. */
  function StripCounter(a: string): (r: Option<string>)
    ensures r.Some? ==> |r.value| < |a|
  {
    var b := if |a| > 0 && a[0] == '-' then a[1..] else a;
    var n := LeadingDigits(b);
    if 0 < n && n + 2 <= |b| && b[n..n + 2] == ": " then Some(b[n + 2..]) else None
  }

  lemma LeadingDigitsOf(digits: string, rest: string)
    requires forall i :: 0 <= i < |digits| ==> Text.IsDigit(digits[i])
    requires |rest| > 0 && !Text.IsDigit(rest[0])
    ensures LeadingDigits(digits + rest) == |digits|
  {
    var s := digits + rest;
    assert s[|digits|] == rest[0];
    assert forall i :: 0 <= i < |digits| ==> s[i] == digits[i];
  }

  /** A run of digits followed by `: ` is read back off the front, with or
      without a leading minus sign. */
  lemma StripCounterOfDigits(num: string, tail: string, input: string)
    requires |num| > 0 && forall i :: 0 <= i < |num| ==> Text.IsDigit(num[i])
    requires tail == ": " + input
    ensures StripCounter(num + tail) == Some(input)
    ensures StripCounter("-" + num + tail) == Some(input)
  {
    var b := num + tail;
    assert b[0] == num[0];
    LeadingDigitsOf(num, tail);
    assert b[|num|..|num| + 2] == ": ";
    assert b[|num| + 2..] == input;
    var a := "-" + num + tail;
    assert a[0] == '-' && a[1..] == b;
  }

  /** The counter a numbered title carries is read back off its front. */
  lemma StripCounterOf(order: int, input: string)
    ensures StripCounter(Text.IntToString(order + 1) + ": " + input) == Some(input)
  {
    var tail := ": " + input;
    var shown := Text.IntToString(order + 1);
    assert shown + ": " + input == shown + tail;
    if order + 1 < 0 {
      var num := Text.NatToString(-(order + 1));
      assert shown == "-" + num;
      StripCounterOfDigits(num, tail, input);
    } else {
      var num := Text.NatToString(order + 1);
      assert shown == num;
      StripCounterOfDigits(num, tail, input);
    }
  }

  /** Stripping undoes the numbering: the input comes back whatever the order. */
  lemma StripNumberedTitle(word: string, order: int, input: string)
    ensures StripNumber(word, NumberedTitle(word, order, input)) == input
  {
    var a := Text.IntToString(order + 1) + ": " + input;
    var t := NumberedTitle(word, order, input);
    assert t == word + a;
    assert t[..|word|] == word && t[|word|..] == a;
    StripCounterOf(order, input);
  }

  /** A numbered title is strictly longer than the text it numbers. */
  lemma NumberedTitleIsLonger(word: string, order: int, input: string)
    ensures |NumberedTitle(word, order, input)| > |input|
  {
  }

  // ---------------------------------------------------------------------------
  // Saving a module.

  /** The module form: title and description as typed, and the module being
      edited when the form was opened from a module's edit button. */
  datatype ModuleForm = ModuleForm(title: string, description: string, editing: Option<Module>)

  /** The module record a save builds: the edited module's order, id and lessons,
      or the next free order, a fresh id and no lessons; an edited module without
      an id takes the fresh one. */
  function ModuleRecord(ms: seq<Module>, form: ModuleForm, freshId: string): (r: Module)
    ensures form.editing.Some? ==> r.order == form.editing.value.order && r.lessons == form.editing.value.lessons
    ensures form.editing.Some? && form.editing.value.id != "" ==> r.id == form.editing.value.id
    ensures form.editing.None? ==> r.id == freshId && r.lessons == []
    ensures form.editing.None? ==> 0 <= r.order && forall i :: 0 <= i < |ms| ==> ms[i].order < r.order
    ensures form.editing.None? && |ms| == 0 ==> r.order == 0
    ensures r.title == NumberedTitle(ModuleWord, r.order, form.title) && r.description == form.description
  {
    var order := if form.editing.Some? then form.editing.value.order else Ordering.NextOrder(ms, ModuleOrder);
    var id := if form.editing.Some? && form.editing.value.id != "" then form.editing.value.id else freshId;
    var lessons := if form.editing.Some? then form.editing.value.lessons else [];
    Module(id, NumberedTitle(ModuleWord, order, form.title), form.description, order, lessons)
  }

  function EditTarget<T>(editing: Option<T>, id: T -> string): Option<string>
  {
    if editing.Some? then Some(id(editing.value)) else None
  }

  /** The module list a save writes back. */
  function SaveModuleList(ms: seq<Module>, form: ModuleForm, freshId: string): (r: seq<Module>)
    ensures Ordering.SortedBy(r, ModuleOrder)
    ensures form.editing.None? ==> |r| == |ms| + 1 && multiset(r) == multiset(ms) + multiset{ModuleRecord(ms, form, freshId)}
    ensures form.editing.Some? ==> |r| == |ms|
  {
    Place(ms, EditTarget(form.editing, ModuleId), ModuleRecord(ms, form, freshId), ModuleId, ModuleOrder)
  }

  /** Saving a module keeps sibling orders distinct, provided the first module
      carrying the edited id, if any, still has the edited module's order. */
  lemma SaveModuleKeepsOrdersDistinct(ms: seq<Module>, form: ModuleForm, freshId: string)
    requires Ordering.DistinctKeys(ms, ModuleOrder)
    requires form.editing.Some? ==>
               var k := Seqs.FirstIndex(ms, IdIs(ModuleId, form.editing.value.id));
               0 <= k ==> ms[k].order == form.editing.value.order
    ensures Ordering.DistinctKeys(SaveModuleList(ms, form, freshId), ModuleOrder)
  {
    var m := ModuleRecord(ms, form, freshId);
    if form.editing.None? {
      PlaceCreateKeepsDistinct(ms, m, ModuleId, ModuleOrder);
    } else {
      PlaceEditKeepsDistinct(ms, form.editing.value.id, m, ModuleId, ModuleOrder);
    }
  }

  /** With unique ids, the first element carrying a member's id is that member. */
  lemma EditedIsFound<T>(xs: seq<T>, x: T, id: T -> string)
    requires x in xs && UniqueIds(xs, id)
    ensures var k := Seqs.FirstIndex(xs, IdIs(id, id(x))); 0 <= k && xs[k] == x
  {
    var j :| 0 <= j < |xs| && xs[j] == x;
    var k := Seqs.FirstIndex(xs, IdIs(id, id(x)));
    assert IdIs(id, id(x))(xs[j]);
    assert 0 <= k <= j;
    assert id(xs[k]) == id(xs[j]);
  }

  /** On a sorted list, a new module lands at the end and an edited one replaces
      the first module with its id, if any, at its index; when the edited module
      itself is in a list of unique ids, that is its own index. */
  lemma SaveModuleOnSortedList(ms: seq<Module>, form: ModuleForm, freshId: string)
    requires Ordering.SortedBy(ms, ModuleOrder)
    requires form.editing.Some? ==>
               var k := Seqs.FirstIndex(ms, IdIs(ModuleId, form.editing.value.id));
               0 <= k ==> ms[k].order == form.editing.value.order
    ensures var m := ModuleRecord(ms, form, freshId);
            form.editing.None? ==> SaveModuleList(ms, form, freshId) == ms + [m]
    ensures form.editing.Some? ==>
              var k := Seqs.FirstIndex(ms, IdIs(ModuleId, form.editing.value.id));
              SaveModuleList(ms, form, freshId) == if k < 0 then ms else ms[k := ModuleRecord(ms, form, freshId)]
    ensures form.editing.Some? && form.editing.value in ms && UniqueIds(ms, ModuleId) ==>
              exists k :: 0 <= k < |ms| && ms[k] == form.editing.value
                && SaveModuleList(ms, form, freshId) == ms[k := ModuleRecord(ms, form, freshId)]
  {
    var m := ModuleRecord(ms, form, freshId);
    if form.editing.None? {
      PlaceCreateAppends(ms, m, ModuleId, ModuleOrder);
    } else {
      var target := form.editing.value.id;
      assert EditTarget(form.editing, ModuleId) == Some(target);
      assert SaveModuleList(ms, form, freshId) == Place(ms, Some(target), m, ModuleId, ModuleOrder);
      PlaceEditInPlace(ms, target, m, ModuleId, ModuleOrder);
      if form.editing.value in ms && UniqueIds(ms, ModuleId) {
        EditedIsFound(ms, form.editing.value, ModuleId);
      }
    }
  }

  /** Editing a module whose id is no longer in a sorted list writes the list back unchanged. */
  lemma SaveMissingModuleChangesNothing(ms: seq<Module>, form: ModuleForm, freshId: string)
    requires Ordering.SortedBy(ms, ModuleOrder)
    requires form.editing.Some? && forall i :: 0 <= i < |ms| ==> ms[i].id != form.editing.value.id
    ensures SaveModuleList(ms, form, freshId) == ms
  {
    var p := IdIs(ModuleId, form.editing.value.id);
    assert forall i :: 0 <= i < |ms| ==> !p(ms[i]);
    assert Seqs.FirstIndex(ms, p) < 0;
    PlaceEditInPlace(ms, form.editing.value.id, ModuleRecord(ms, form, freshId), ModuleId, ModuleOrder);
  }

  // ---------------------------------------------------------------------------
  // Saving a lesson.

  /** The lesson form, including the resource list currently held by the editor. */
  datatype LessonForm = LessonForm(
    title: string,
    description: string,
    videoUrl: string,
    duration: real,
    resources: seq<Resource>,
    editing: Option<Lesson>)

  /** The lesson record a save builds, on the pattern of `ModuleRecord`; its
      resources are the editor's list. */
  function LessonRecord(ls: seq<Lesson>, form: LessonForm, freshId: string): (r: Lesson)
    ensures form.editing.Some? ==> r.order == form.editing.value.order
    ensures form.editing.Some? && form.editing.value.id != "" ==> r.id == form.editing.value.id
    ensures form.editing.None? ==> r.id == freshId
    ensures form.editing.None? ==> 0 <= r.order && forall i :: 0 <= i < |ls| ==> ls[i].order < r.order
    ensures form.editing.None? && |ls| == 0 ==> r.order == 0
    ensures r.title == NumberedTitle(LessonWord, r.order, form.title)
    ensures r.description == form.description && r.videoUrl == form.videoUrl && r.duration == form.duration
    ensures r.resources == Some(form.resources)
  {
    var order := if form.editing.Some? then form.editing.value.order else Ordering.NextOrder(ls, LessonOrder);
    var id := if form.editing.Some? && form.editing.value.id != "" then form.editing.value.id else freshId;
    Lesson(id, NumberedTitle(LessonWord, order, form.title), form.description, form.videoUrl, order,
           form.duration, Some(form.resources))
  }

  function SaveLessonList(ls: seq<Lesson>, form: LessonForm, freshId: string): (r: seq<Lesson>)
    ensures Ordering.SortedBy(r, LessonOrder)
    ensures form.editing.None? ==> |r| == |ls| + 1 && multiset(r) == multiset(ls) + multiset{LessonRecord(ls, form, freshId)}
    ensures form.editing.Some? ==> |r| == |ls|
  {
    Place(ls, EditTarget(form.editing, LessonId), LessonRecord(ls, form, freshId), LessonId, LessonOrder)
  }

  lemma SaveLessonKeepsOrdersDistinct(ls: seq<Lesson>, form: LessonForm, freshId: string)
    requires Ordering.DistinctKeys(ls, LessonOrder)
    requires form.editing.Some? ==>
               var k := Seqs.FirstIndex(ls, IdIs(LessonId, form.editing.value.id));
               0 <= k ==> ls[k].order == form.editing.value.order
    ensures Ordering.DistinctKeys(SaveLessonList(ls, form, freshId), LessonOrder)
  {
    var l := LessonRecord(ls, form, freshId);
    if form.editing.None? {
      PlaceCreateKeepsDistinct(ls, l, LessonId, LessonOrder);
    } else {
      PlaceEditKeepsDistinct(ls, form.editing.value.id, l, LessonId, LessonOrder);
    }
  }

  lemma SaveLessonOnSortedList(ls: seq<Lesson>, form: LessonForm, freshId: string)
    requires Ordering.SortedBy(ls, LessonOrder)
    requires form.editing.Some? ==>
               var k := Seqs.FirstIndex(ls, IdIs(LessonId, form.editing.value.id));
               0 <= k ==> ls[k].order == form.editing.value.order
    ensures var l := LessonRecord(ls, form, freshId);
            form.editing.None? ==> SaveLessonList(ls, form, freshId) == ls + [l]
    ensures form.editing.Some? ==>
              var k := Seqs.FirstIndex(ls, IdIs(LessonId, form.editing.value.id));
              SaveLessonList(ls, form, freshId) == if k < 0 then ls else ls[k := LessonRecord(ls, form, freshId)]
    ensures form.editing.Some? && form.editing.value in ls && UniqueIds(ls, LessonId) ==>
              exists k :: 0 <= k < |ls| && ls[k] == form.editing.value
                && SaveLessonList(ls, form, freshId) == ls[k := LessonRecord(ls, form, freshId)]
  {
    var l := LessonRecord(ls, form, freshId);
    if form.editing.None? {
      PlaceCreateAppends(ls, l, LessonId, LessonOrder);
    } else {
      var target := form.editing.value.id;
      assert EditTarget(form.editing, LessonId) == Some(target);
      assert SaveLessonList(ls, form, freshId) == Place(ls, Some(target), l, LessonId, LessonOrder);
      PlaceEditInPlace(ls, target, l, LessonId, LessonOrder);
      if form.editing.value in ls && UniqueIds(ls, LessonId) {
        EditedIsFound(ls, form.editing.value, LessonId);
      }
    }
  }

  // ---------------------------------------------------------------------------
  // The handlers and the writes they issue.

  datatype Rejection = NoTitle | NoVideoUrl | InvalidVideoUrl | NoModuleSelected | ModuleNotFound

  datatype CourseDraft = CourseDraft(
    title: string,
    description: string,
    previewImageUrl: Option<string>,
    telegramUrl: Option<string>,
    modules: seq<Module>,
    createdAt: int,
    updatedAt: int)

  datatype CourseWrite =
    | UpdateModules(courseId: string, modules: seq<Module>)
    | UpdateCourse(courseId: string, draft: CourseDraft)
    | AddCourse(draft: CourseDraft)
    | RemoveCourse(courseId: string)

  /** Ignored: the handler returned without a word; Rejected: it showed an alert
      before any write; WriteFailed: the write was refused and an alert shown. */
  datatype Outcome = Ignored | Rejected(why: Rejection) | WriteFailed | Written

  /** The write a handler issues, its outcome, and the editor's selected course afterwards. */
  datatype Effect = Effect(write: Option<CourseWrite>, outcome: Outcome, selected: Option<Course>)

  function Settle(w: CourseWrite, reply: StoreReply, onAck: Option<Course>, before: Option<Course>): (r: Effect)
    ensures r.write == Some(w)
    ensures r.outcome == (if reply == Ack then Written else WriteFailed)
  {
    if reply == Ack then Effect(Some(w), Written, onAck) else Effect(Some(w), WriteFailed, before)
  }

  /** `handleSaveModule`: nothing without a selected course, an alert for a blank
      title, otherwise the course's sorted module list is written and, once the
      store accepts, becomes the selected course's. */
  function HandleSaveModule(selected: Option<Course>, form: ModuleForm, freshId: string, reply: StoreReply): (r: Effect)
    ensures selected.None? ==> r == Effect(None, Ignored, selected)
    ensures selected.Some? && Text.IsBlank(form.title) ==> r == Effect(None, Rejected(NoTitle), selected)
    ensures r.write.Some? <==> selected.Some? && !Text.IsBlank(form.title)
    ensures r.write.Some? ==> r.write.value == UpdateModules(selected.value.id, SaveModuleList(selected.value.modules, form, freshId))
    ensures r.outcome == Written ==> r.selected == Some(selected.value.(modules := r.write.value.modules))
    ensures r.outcome != Written ==> r.selected == selected
  {
    if selected.None? then Effect(None, Ignored, selected)
    else if Text.IsBlank(form.title) then Effect(None, Rejected(NoTitle), selected)
    else
      var c := selected.value;
      var ms := SaveModuleList(c.modules, form, freshId);
      Settle(UpdateModules(c.id, ms), reply, Some(c.(modules := ms)), selected)
  }

  /** The reasons `handleSaveLesson` refuses, checked in its order. */
  function LessonRejection(selected: Option<Course>, target: Option<Module>, form: LessonForm): (r: Option<Rejection>)
    ensures r.None? ==> selected.Some? && target.Some? && !Text.IsBlank(form.title)
                        && VideoHelpers.ValidateYouTubeUrl(form.videoUrl)
                        && 0 <= Seqs.FirstIndex(selected.value.modules, IdIs(ModuleId, target.value.id))
    ensures selected.None? || target.None? ==> r == Some(NoModuleSelected)
    ensures r == Some(NoVideoUrl) ==> Text.IsBlank(form.videoUrl)
    ensures r == Some(InvalidVideoUrl) ==> !VideoHelpers.ValidateYouTubeUrl(form.videoUrl)
  {
    if selected.None? || target.None? then Some(NoModuleSelected)
    else if Text.IsBlank(form.title) then Some(NoTitle)
    else if Text.IsBlank(form.videoUrl) then Some(NoVideoUrl)
    else if !VideoHelpers.ValidateYouTubeUrl(form.videoUrl) then Some(InvalidVideoUrl)
    else if Seqs.FirstIndex(selected.value.modules, IdIs(ModuleId, target.value.id)) < 0 then Some(ModuleNotFound)
    else None
  }

  /** `handleSaveLesson`: the lesson is placed among the lessons of the module as
      it was when selected, and that module, with its new lessons, replaces the
      first module of the course carrying its id. */
  function HandleSaveLesson(selected: Option<Course>, target: Option<Module>, form: LessonForm,
                            freshId: string, reply: StoreReply): (r: Effect)
    ensures LessonRejection(selected, target, form).Some? ==>
              r == Effect(None, Rejected(LessonRejection(selected, target, form).value), selected)
    ensures r.write.Some? <==> LessonRejection(selected, target, form).None?
    ensures r.write.Some? ==>
              var ms := selected.value.modules;
              var k := Seqs.FirstIndex(ms, IdIs(ModuleId, target.value.id));
              r.write.value == UpdateModules(selected.value.id,
                ms[k := target.value.(lessons := SaveLessonList(target.value.lessons, form, freshId))])
    ensures r.write.Some? ==> r.outcome == if reply == Ack then Written else WriteFailed
    ensures r.outcome == Written ==> r.selected == Some(selected.value.(modules := r.write.value.modules))
    ensures r.outcome != Written ==> r.selected == selected
  {
    match LessonRejection(selected, target, form)
    case Some(why) => Effect(None, Rejected(why), selected)
    case None =>
      var c, m := selected.value, target.value;
      var k := Seqs.FirstIndex(c.modules, IdIs(ModuleId, m.id));
      var ms := c.modules[k := m.(lessons := SaveLessonList(m.lessons, form, freshId))];
      Settle(UpdateModules(c.id, ms), reply, Some(c.(modules := ms)), selected)
  }

  /** Saving a lesson leaves the module count as it was and every module with
      another id as it was. */
  lemma SaveLessonTouchesOneModule(selected: Option<Course>, target: Option<Module>, form: LessonForm,
                                   freshId: string, reply: StoreReply)
    requires HandleSaveLesson(selected, target, form, freshId, reply).write.Some?
    ensures var ms := selected.value.modules;
            var out := HandleSaveLesson(selected, target, form, freshId, reply).write.value.modules;
            |out| == |ms| && forall i :: 0 <= i < |ms| && ms[i].id != target.value.id ==> out[i] == ms[i]
  {
    var r := HandleSaveLesson(selected, target, form, freshId, reply);
    var ms := selected.value.modules;
    var k := Seqs.FirstIndex(ms, IdIs(ModuleId, target.value.id));
    var edited := target.value.(lessons := SaveLessonList(target.value.lessons, form, freshId));
    assert LessonRejection(selected, target, form).None?;
    TargetIsFound(selected, target, form);
    OneSlotChanged(ms, k, edited, target.value.id, r.write.value.modules);
  }

  /** Assigning one slot keeps every module with another id in its place. */
  lemma OneSlotChanged(ms: seq<Module>, k: int, edited: Module, id: string, out: seq<Module>)
    requires 0 <= k < |ms| && ms[k].id == id && out == ms[k := edited]
    ensures |out| == |ms| && forall i :: 0 <= i < |ms| && ms[i].id != id ==> out[i] == ms[i]
  {
  }

  /** A lesson save that is not refused has found the target module in the course. */
  lemma TargetIsFound(selected: Option<Course>, target: Option<Module>, form: LessonForm)
    requires LessonRejection(selected, target, form).None?
    ensures var ms := selected.value.modules;
            var k := Seqs.FirstIndex(ms, IdIs(ModuleId, target.value.id));
            0 <= k < |ms| && ms[k].id == target.value.id
  {
    var ms := selected.value.modules;
    var k := Seqs.FirstIndex(ms, IdIs(ModuleId, target.value.id));
    assert 0 <= k < |ms|;
    assert IdIs(ModuleId, target.value.id)(ms[k]);
    IdIsMeans(ModuleId, target.value.id, ms[k]);
  }

  /** A rejected save writes nothing; a blank or invalid video address is always rejected. */
  lemma InvalidVideoIsRejected(selected: Option<Course>, target: Option<Module>, form: LessonForm,
                               freshId: string, reply: StoreReply)
    requires !VideoHelpers.ValidateYouTubeUrl(form.videoUrl)
    ensures HandleSaveLesson(selected, target, form, freshId, reply).write.None?
    ensures HandleSaveLesson(selected, target, form, freshId, reply).outcome.Rejected?
  {
  }

  /** The course form: the typed fields, with "" for an empty input. */
  datatype CourseForm = CourseForm(title: string, description: string, previewImageUrl: string, telegramUrl: string)

  function NullIfEmpty(s: string): (r: Option<string>)
    ensures r.None? <==> s == ""
    ensures r.Some? ==> r.value == s
  {
    if s == "" then None else Some(s)
  }

  /** The document `handleSaveCourse` writes: the selected course keeps its modules
      and creation time, a new course starts with no modules at `now`. */
  function CourseDraftOf(selected: Option<Course>, form: CourseForm, now: int): (r: CourseDraft)
    ensures r.title == form.title && r.description == form.description
    ensures r.previewImageUrl == NullIfEmpty(form.previewImageUrl) && r.telegramUrl == NullIfEmpty(form.telegramUrl)
    ensures r.modules == (if selected.Some? then selected.value.modules else [])
    ensures r.createdAt == (if selected.Some? then selected.value.createdAt else now) && r.updatedAt == now
  {
    CourseDraft(form.title, form.description, NullIfEmpty(form.previewImageUrl), NullIfEmpty(form.telegramUrl),
                if selected.Some? then selected.value.modules else [],
                if selected.Some? then selected.value.createdAt else now, now)
  }

  /** `handleSaveCourse`: an alert for a blank title; otherwise an update of the
      selected course or the addition of a new one, after which the form is reset. */
  function HandleSaveCourse(selected: Option<Course>, form: CourseForm, now: int, reply: StoreReply): (r: Effect)
    ensures Text.IsBlank(form.title) ==> r == Effect(None, Rejected(NoTitle), selected)
    ensures r.write.Some? <==> !Text.IsBlank(form.title)
    ensures r.write.Some? && selected.Some? ==> r.write.value == UpdateCourse(selected.value.id, CourseDraftOf(selected, form, now))
    ensures r.write.Some? && selected.None? ==> r.write.value == AddCourse(CourseDraftOf(selected, form, now))
    ensures r.outcome == Written ==> r.selected.None?
    ensures r.outcome != Written ==> r.selected == selected
  {
    if Text.IsBlank(form.title) then Effect(None, Rejected(NoTitle), selected)
    else
      var draft := CourseDraftOf(selected, form, now);
      var w := if selected.Some? then UpdateCourse(selected.value.id, draft) else AddCourse(draft);
      Settle(w, reply, None, selected)
  }

  /** `handleEditCourse`: the course form pre-filled from the course; the Telegram
      field keeps whatever it held. */
  function EditCourseForm(c: Course, telegramField: string): (r: CourseForm)
    ensures r.title == c.title && r.description == c.description && r.telegramUrl == telegramField
    ensures r.previewImageUrl == (if c.previewImageUrl.Some? then c.previewImageUrl.value else "")
  {
    CourseForm(c.title, c.description, if c.previewImageUrl.Some? then c.previewImageUrl.value else "", telegramField)
  }

  /** Re-saving a course from its untouched edit form rewrites the same title,
      description, image, modules and creation time; the Telegram link written
      is whatever the field held before. */
  lemma ResaveCourseKeepsFields(c: Course, telegramField: string, now: int)
    requires c.previewImageUrl != Some("")
    ensures var d := CourseDraftOf(Some(c), EditCourseForm(c, telegramField), now);
            d.title == c.title && d.description == c.description && d.previewImageUrl == c.previewImageUrl
            && d.modules == c.modules && d.createdAt == c.createdAt
            && d.telegramUrl == NullIfEmpty(telegramField)
  {
  }

  /** As written, re-saving a course with a Telegram link from its edit form
      replaces the link unless the field happens to hold it already: from a
      fresh page, where the field is empty, the link is erased. */
  lemma ResaveCourseLosesTelegram(c: Course, telegramField: string, now: int, reply: StoreReply)
    requires !Text.IsBlank(c.title)
    requires c.telegramUrl.Some? && telegramField != c.telegramUrl.value
    ensures var w := HandleSaveCourse(Some(c), EditCourseForm(c, telegramField), now, reply).write;
            w.Some? && w.value.UpdateCourse? && w.value.courseId == c.id
            && w.value.draft.telegramUrl != c.telegramUrl
    ensures HandleSaveCourse(Some(c), EditCourseForm(c, ""), now, reply).write.value.draft.telegramUrl.None?
  {
  }

  /** `handleEditCourse` with the Telegram field loaded from the course as well. */
  function EditCourseFormFixed(c: Course): (r: CourseForm)
    ensures r == EditCourseForm(c, if c.telegramUrl.Some? then c.telegramUrl.value else "")
    ensures NullIfEmpty(r.telegramUrl) == c.telegramUrl || c.telegramUrl == Some("")
  {
    CourseForm(c.title, c.description, if c.previewImageUrl.Some? then c.previewImageUrl.value else "",
               if c.telegramUrl.Some? then c.telegramUrl.value else "")
  }

  /** With the corrected form, re-saving a stored course unchanged updates it
      with exactly its own fields and a new modification time. */
  lemma ResaveCourseKeepsTelegram(c: Course, now: int, reply: StoreReply)
    requires !Text.IsBlank(c.title)
    requires c.previewImageUrl != Some("") && c.telegramUrl != Some("")
    ensures HandleSaveCourse(Some(c), EditCourseFormFixed(c), now, reply).write
              == Some(UpdateCourse(c.id, CourseDraft(c.title, c.description, c.previewImageUrl, c.telegramUrl,
                                                    c.modules, c.createdAt, now)))
  {
  }

  // ---------------------------------------------------------------------------
  // Deleting.

  /** `modules.filter(m => m.id !== moduleId)`. */
  function DeleteModule(ms: seq<Module>, moduleId: string): (r: seq<Module>)
    ensures forall i :: 0 <= i < |r| ==> r[i].id != moduleId && r[i] in ms
    ensures forall i :: 0 <= i < |ms| && ms[i].id != moduleId ==> ms[i] in r
    ensures Seqs.SubsequenceOf(r, ms)
    ensures forall m :: multiset(r)[m] == if m.id != moduleId then multiset(ms)[m] else 0
  {
    FilterOutMeans(ms, ModuleId, moduleId);
    Seqs.Filter(ms, IdIsNot(ModuleId, moduleId))
  }

  /** Deleting keeps the list sorted and its orders distinct; no order or title
      is renumbered. */
  lemma DeleteModuleKeepsOrders(ms: seq<Module>, moduleId: string)
    ensures Ordering.SortedBy(ms, ModuleOrder) ==> Ordering.SortedBy(DeleteModule(ms, moduleId), ModuleOrder)
    ensures Ordering.DistinctKeys(ms, ModuleOrder) ==> Ordering.DistinctKeys(DeleteModule(ms, moduleId), ModuleOrder)
  {
    if Ordering.SortedBy(ms, ModuleOrder) {
      Ordering.FilterKeepsSorted(ms, IdIsNot(ModuleId, moduleId), ModuleOrder);
    }
    if Ordering.DistinctKeys(ms, ModuleOrder) {
      Ordering.FilterKeepsDistinct(ms, IdIsNot(ModuleId, moduleId), ModuleOrder);
    }
  }

  /** The module without the lessons carrying `lessonId`. */
  function DropLesson(m: Module, lessonId: string): (r: Module)
    ensures r == m.(lessons := r.lessons)
    ensures forall j :: 0 <= j < |r.lessons| ==> r.lessons[j].id != lessonId && r.lessons[j] in m.lessons
    ensures forall j :: 0 <= j < |m.lessons| && m.lessons[j].id != lessonId ==> m.lessons[j] in r.lessons
    ensures Seqs.SubsequenceOf(r.lessons, m.lessons)
    ensures forall l :: multiset(r.lessons)[l] == if l.id != lessonId then multiset(m.lessons)[l] else 0
  {
    FilterOutMeans(m.lessons, LessonId, lessonId);
    m.(lessons := Seqs.Filter(m.lessons, IdIsNot(LessonId, lessonId)))
  }

  /** The lessons of every module carrying `moduleId` lose those with `lessonId`;
      every other module is returned as it was. */
  function DeleteLesson(ms: seq<Module>, moduleId: string, lessonId: string): (r: seq<Module>)
    ensures |r| == |ms|
    ensures forall i :: 0 <= i < |ms| ==> r[i] == if ms[i].id == moduleId then DropLesson(ms[i], lessonId) else ms[i]
  {
    seq(|ms|, i requires 0 <= i < |ms| => if ms[i].id == moduleId then DropLesson(ms[i], lessonId) else ms[i])
  }

  /** Deleting a lesson keeps each module's lessons sorted and their orders distinct. */
  lemma DeleteLessonKeepsOrders(ms: seq<Module>, moduleId: string, lessonId: string, i: int)
    requires 0 <= i < |ms|
    ensures var r := DeleteLesson(ms, moduleId, lessonId);
            (Ordering.SortedBy(ms[i].lessons, LessonOrder) ==> Ordering.SortedBy(r[i].lessons, LessonOrder))
            && (Ordering.DistinctKeys(ms[i].lessons, LessonOrder) ==> Ordering.DistinctKeys(r[i].lessons, LessonOrder))
  {
    var ls := ms[i].lessons;
    var p := IdIsNot(LessonId, lessonId);
    if Ordering.SortedBy(ls, LessonOrder) {
      Ordering.FilterKeepsSorted(ls, p, LessonOrder);
    }
    if Ordering.DistinctKeys(ls, LessonOrder) {
      Ordering.FilterKeepsDistinct(ls, p, LessonOrder);
    }
  }

  /** `handleDeleteModule`: nothing without a selected course or a confirmation;
      otherwise the filtered list is written. The course list is then fetched
      again, and the selected course is not refreshed. */
  function HandleDeleteModule(selected: Option<Course>, confirmed: bool, moduleId: string, reply: StoreReply): (r: Effect)
    ensures selected.None? || !confirmed ==> r == Effect(None, Ignored, selected)
    ensures r.write.Some? <==> selected.Some? && confirmed
    ensures r.write.Some? ==> r.write.value == UpdateModules(selected.value.id, DeleteModule(selected.value.modules, moduleId))
    ensures r.selected == selected
  {
    if selected.None? || !confirmed then Effect(None, Ignored, selected)
    else Settle(UpdateModules(selected.value.id, DeleteModule(selected.value.modules, moduleId)), reply, selected, selected)
  }

  /** `handleDeleteLesson`, on the pattern of `HandleDeleteModule`. */
  function HandleDeleteLesson(selected: Option<Course>, confirmed: bool, moduleId: string, lessonId: string,
                              reply: StoreReply): (r: Effect)
    ensures selected.None? || !confirmed ==> r == Effect(None, Ignored, selected)
    ensures r.write.Some? <==> selected.Some? && confirmed
    ensures r.write.Some? ==> r.write.value == UpdateModules(selected.value.id, DeleteLesson(selected.value.modules, moduleId, lessonId))
    ensures r.selected == selected
  {
    if selected.None? || !confirmed then Effect(None, Ignored, selected)
    else Settle(UpdateModules(selected.value.id, DeleteLesson(selected.value.modules, moduleId, lessonId)), reply, selected, selected)
  }

  /** `handleDeleteCourse`: only the confirmation gates the removal. */
  function HandleDeleteCourse(selected: Option<Course>, confirmed: bool, courseId: string, reply: StoreReply): (r: Effect)
    ensures !confirmed ==> r == Effect(None, Ignored, selected)
    ensures confirmed ==> r.write == Some(RemoveCourse(courseId))
    ensures r.selected == selected
  {
    if !confirmed then Effect(None, Ignored, selected)
    else Settle(RemoveCourse(courseId), reply, selected, selected)
  }

  /** `prevCourses.map(c => c.id === updated.id ? updated : c)`. */
  function ReplaceCourse(courses: seq<Course>, updated: Course): (r: seq<Course>)
    ensures |r| == |courses|
    ensures forall i :: 0 <= i < |courses| ==> r[i] == (if courses[i].id == updated.id then updated else courses[i])
  {
    seq(|courses|, i requires 0 <= i < |courses| => if courses[i].id == updated.id then updated else courses[i])
  }

  /** After a successful module or lesson save, the course list holds the saved
      course wherever it held the selected one. */
  lemma SavedCourseReplacesSelected(courses: seq<Course>, selected: Option<Course>, form: ModuleForm,
                                    freshId: string)
    requires HandleSaveModule(selected, form, freshId, Ack).outcome == Written
    ensures var saved := HandleSaveModule(selected, form, freshId, Ack).selected.value;
            saved.id == selected.value.id
            && forall i :: 0 <= i < |courses| ==>
                 ReplaceCourse(courses, saved)[i] == (if courses[i].id == selected.value.id then saved else courses[i])
  {
  }

  // ---------------------------------------------------------------------------
  // The resource list of the lesson form, and the video address check.

  /** `handleAddResource`: None (an alert) when the title or the address is
      blank, otherwise the list with the new resource at the end. */
  function AddResource(rs: seq<Resource>, title: string, url: string, kind: ResourceKind, freshId: string): (r: Option<seq<Resource>>)
    ensures r.None? <==> Text.IsBlank(title) || Text.IsBlank(url)
    ensures r.Some? ==> r.value == rs + [Resource(freshId, title, url, kind, None)]
  {
    if Text.IsBlank(title) || Text.IsBlank(url) then None
    else Some(rs + [Resource(freshId, title, url, kind, None)])
  }

  /** `handleRemoveResource`: every resource with the id goes, the rest keep their order. */
  function RemoveResource(rs: seq<Resource>, id: string): (r: seq<Resource>)
    ensures forall i :: 0 <= i < |r| ==> r[i].id != id && r[i] in rs
    ensures forall i :: 0 <= i < |rs| && rs[i].id != id ==> rs[i] in r
    ensures Seqs.SubsequenceOf(r, rs)
    ensures forall x :: multiset(r)[x] == if x.id != id then multiset(rs)[x] else 0
  {
    FilterOutMeans(rs, ResourceId, id);
    Seqs.Filter(rs, IdIsNot(ResourceId, id))
  }

  /** Removing a just-added resource by its fresh id restores the list. */
  lemma AddThenRemoveResource(rs: seq<Resource>, title: string, url: string, kind: ResourceKind, freshId: string)
    requires AddResource(rs, title, url, kind, freshId).Some?
    requires forall i :: 0 <= i < |rs| ==> rs[i].id != freshId
    ensures RemoveResource(AddResource(rs, title, url, kind, freshId).value, freshId) == rs
  {
    var p := IdIsNot(ResourceId, freshId);
    var added := Resource(freshId, title, url, kind, None);
    var xs := rs + [added];
    forall i | 0 <= i < |rs| ensures p(rs[i]) {
      IdIsNotMeans(ResourceId, freshId, rs[i]);
    }
    IdIsNotMeans(ResourceId, freshId, added);
    Seqs.FilterDropsOnlyLast(rs, added, p);
    assert AddResource(rs, title, url, kind, freshId).value == xs;
  }

  const InvalidVideoMessage: string := "Por favor ingrese una URL válida de YouTube"

  /** `handleVideoUrlChange`: the error shown under the address field. */
  function VideoUrlError(url: string): (r: string)
    ensures r != "" <==> url != "" && !VideoHelpers.ValidateYouTubeUrl(url)
  {
    if url != "" && !VideoHelpers.ValidateYouTubeUrl(url) then InvalidVideoMessage else ""
  }

  /** Whenever the field shows no error and the address is not blank, saving does
      not reject the address. */
  lemma NoErrorMeansAddressAccepted(selected: Option<Course>, target: Option<Module>, form: LessonForm)
    requires VideoUrlError(form.videoUrl) == "" && !Text.IsBlank(form.videoUrl)
    ensures LessonRejection(selected, target, form) != Some(InvalidVideoUrl)
    ensures LessonRejection(selected, target, form) != Some(NoVideoUrl)
  {
    assert form.videoUrl != "" && VideoHelpers.ValidateYouTubeUrl(form.videoUrl) by {
      Text.BlankIffAllWhitespace(form.videoUrl);
    }
  }

  // ---------------------------------------------------------------------------
  // Edit forms and the repeated prefix.

  /** `handleEditModule` as written: the form is pre-filled with the stored,
      already numbered title. */
  function EditModuleForm(m: Module): (r: ModuleForm)
    ensures r.title == m.title && r.description == m.description && r.editing == Some(m)
  {
    ModuleForm(m.title, m.description, Some(m))
  }

  /** `handleEditLesson` as written; the resource field keeps the editor's list. */
  function EditLessonForm(l: Lesson, resourceField: seq<Resource>): (r: LessonForm)
    ensures r.title == l.title && r.description == l.description && r.videoUrl == l.videoUrl
    ensures r.duration == l.duration && r.resources == resourceField && r.editing == Some(l)
  {
    LessonForm(l.title, l.description, l.videoUrl, l.duration, resourceField, Some(l))
  }

  /** As written, saving an untouched edit form numbers the numbered title again:
      "Módulo 1: Intro" is saved as "Módulo 1: Módulo 1: Intro". */
  lemma ResaveModuleRepeatsPrefix(ms: seq<Module>, m: Module, freshId: string, input: string)
    requires m.title == NumberedTitle(ModuleWord, m.order, input)
    ensures var saved := ModuleRecord(ms, EditModuleForm(m), freshId);
            saved.title == NumberedTitle(ModuleWord, m.order, m.title) && saved.title != m.title
  {
    NumberedTitleIsLonger(ModuleWord, m.order, m.title);
  }

  lemma ResaveLessonRepeatsPrefix(ls: seq<Lesson>, l: Lesson, resourceField: seq<Resource>, freshId: string, input: string)
    requires l.title == NumberedTitle(LessonWord, l.order, input)
    ensures var saved := LessonRecord(ls, EditLessonForm(l, resourceField), freshId);
            saved.title == NumberedTitle(LessonWord, l.order, l.title) && saved.title != l.title
  {
    NumberedTitleIsLonger(LessonWord, l.order, l.title);
  }

  /** The edit form pre-filled with the title as the administrator typed it. */
  function EditModuleFormFixed(m: Module): (r: ModuleForm)
    ensures r.description == m.description && r.editing == Some(m)
    ensures |r.title| <= |m.title|
  {
    ModuleForm(StripNumber(ModuleWord, m.title), m.description, Some(m))
  }

  function EditLessonFormFixed(l: Lesson, resourceField: seq<Resource>): (r: LessonForm)
    ensures r.description == l.description && r.videoUrl == l.videoUrl
    ensures r.duration == l.duration && r.resources == resourceField && r.editing == Some(l)
    ensures |r.title| <= |l.title|
  {
    LessonForm(StripNumber(LessonWord, l.title), l.description, l.videoUrl, l.duration, resourceField, Some(l))
  }

  /** With the stripped pre-fill, saving an untouched edit form keeps the title,
      and the form shows exactly the text that was typed. */
  lemma ResaveModuleKeepsTitle(ms: seq<Module>, m: Module, freshId: string, input: string)
    requires m.title == NumberedTitle(ModuleWord, m.order, input)
    ensures EditModuleFormFixed(m).title == input
    ensures ModuleRecord(ms, EditModuleFormFixed(m), freshId).title == m.title
  {
    StripNumberedTitle(ModuleWord, m.order, input);
  }

  lemma ResaveLessonKeepsTitle(ls: seq<Lesson>, l: Lesson, resourceField: seq<Resource>, freshId: string, input: string)
    requires l.title == NumberedTitle(LessonWord, l.order, input)
    ensures EditLessonFormFixed(l, resourceField).title == input
    ensures LessonRecord(ls, EditLessonFormFixed(l, resourceField), freshId).title == l.title
  {
    StripNumberedTitle(LessonWord, l.order, input);
  }

  // ---------------------------------------------------------------------------
  // The module a lesson edit is saved into.

  /** As written, editing a lesson does not select its module: when the selected
      module is another one (the one last opened with "Agregar Lección", say),
      the save finds no lesson with the edited id, writes the course's modules
      back unchanged and reports success. */
  lemma LessonEditIntoOtherModuleIsLost(c: Course, stale: Module, l: Lesson, resourceField: seq<Resource>, freshId: string)
    requires stale in c.modules && UniqueIds(c.modules, ModuleId)
    requires Ordering.SortedBy(stale.lessons, LessonOrder)
    requires forall i :: 0 <= i < |stale.lessons| ==> stale.lessons[i].id != l.id
    requires LessonRejection(Some(c), Some(stale), EditLessonForm(l, resourceField)).None?
    ensures SaveLessonList(stale.lessons, EditLessonForm(l, resourceField), freshId) == stale.lessons
    ensures var r := HandleSaveLesson(Some(c), Some(stale), EditLessonForm(l, resourceField), freshId, Ack);
            r.outcome == Written && r.write == Some(UpdateModules(c.id, c.modules))
  {
    var form := EditLessonForm(l, resourceField);
    MissingLessonKeepsList(stale.lessons, form, freshId);
    SameModuleWrittenBack(c.modules, stale, SaveLessonList(stale.lessons, form, freshId));
  }

  /** Writing a module of the list back with its own lessons leaves the list as it was. */
  lemma SameModuleWrittenBack(ms: seq<Module>, m: Module, lessons: seq<Lesson>)
    requires m in ms && UniqueIds(ms, ModuleId) && lessons == m.lessons
    ensures ms[Seqs.FirstIndex(ms, IdIs(ModuleId, m.id)) := m.(lessons := lessons)] == ms
  {
    EditedIsFound(ms, m, ModuleId);
    assert m.(lessons := lessons) == m;
  }

  /** Editing a lesson whose id is not in a sorted list writes the list back unchanged. */
  lemma MissingLessonKeepsList(ls: seq<Lesson>, form: LessonForm, freshId: string)
    requires Ordering.SortedBy(ls, LessonOrder)
    requires form.editing.Some? && forall i :: 0 <= i < |ls| ==> ls[i].id != form.editing.value.id
    ensures SaveLessonList(ls, form, freshId) == ls
  {
    var p := IdIs(LessonId, form.editing.value.id);
    forall i | 0 <= i < |ls| ensures !p(ls[i]) {
      IdIsMeans(LessonId, form.editing.value.id, ls[i]);
    }
    assert Seqs.FirstIndex(ls, p) < 0;
    PlaceEditInPlace(ls, form.editing.value.id, LessonRecord(ls, form, freshId), LessonId, LessonOrder);
  }

  /** The editor's selected module and lesson form after a lesson's edit button. */
  datatype LessonEdit = LessonEdit(target: Option<Module>, form: LessonForm)

  /** `handleEditLesson` selecting the module that holds the lesson as well. */
  function EditLessonFixed(m: Module, l: Lesson, resourceField: seq<Resource>): (r: LessonEdit)
    ensures r.target == Some(m)
    ensures r.form.editing == Some(l) && r.form == EditLessonForm(l, resourceField)
  {
    LessonEdit(Some(m), EditLessonForm(l, resourceField))
  }

  /** With the module selected, saving an edited lesson of a sorted module
      replaces that lesson, and only it, in its own module. */
  lemma LessonEditInItsModuleIsSaved(c: Course, m: Module, l: Lesson, resourceField: seq<Resource>,
                                     freshId: string, reply: StoreReply)
    requires m in c.modules && UniqueIds(c.modules, ModuleId)
    requires l in m.lessons && UniqueIds(m.lessons, LessonId)
    requires Ordering.SortedBy(m.lessons, LessonOrder)
    requires var e := EditLessonFixed(m, l, resourceField); LessonRejection(Some(c), e.target, e.form).None?
    ensures var e := EditLessonFixed(m, l, resourceField);
            var w := HandleSaveLesson(Some(c), e.target, e.form, freshId, reply).write;
            exists k, j :: 0 <= k < |c.modules| && c.modules[k] == m && 0 <= j < |m.lessons| && m.lessons[j] == l
              && w == Some(UpdateModules(c.id, c.modules[k := m.(lessons := m.lessons[j := LessonRecord(m.lessons, e.form, freshId)])]))
    ensures l.id != "" ==> LessonRecord(m.lessons, EditLessonFixed(m, l, resourceField).form, freshId).id == l.id
  {
    var e := EditLessonFixed(m, l, resourceField);
    EditedIsFound(m.lessons, l, LessonId);
    SaveLessonOnSortedList(m.lessons, e.form, freshId);
    var j :| 0 <= j < |m.lessons| && m.lessons[j] == l
             && SaveLessonList(m.lessons, e.form, freshId) == m.lessons[j := LessonRecord(m.lessons, e.form, freshId)];
    EditedIsFound(c.modules, m, ModuleId);
    var k := Seqs.FirstIndex(c.modules, IdIs(ModuleId, m.id));
    assert c.modules[k] == m;
  }
}

=== FILE: course_preview.dfy ===
/** The sales page of a course for a visitor without access: totals, the optional
    marketing lists, the syllabus with its lock labels, and a sidebar that either
    opens the course or lists what the purchase includes. */
module CoursePreview {

  import opened Types
  import ModuleAccordion

  /** The picture used when the course has none; the course id is appended. */
  const FallbackImageBase: string := "https://source.unsplash.com/random/1200x400?education,"

  /** One syllabus line: its number within the module, the lesson title, and
      whether it is labelled locked. */
  datatype SyllabusLine = SyllabusLine(number: nat, title: string, lockedLabel: bool)

  function SyllabusOf(m: Module, hasAccess: bool): (r: seq<SyllabusLine>)
    ensures |r| == |m.lessons|
    ensures forall i :: 0 <= i < |r| ==> r[i].number == i + 1 && r[i].title == m.lessons[i].title
    ensures forall i :: 0 <= i < |r| ==> (r[i].lockedLabel <==> !hasAccess && i > 0)
  {
    seq(|m.lessons|, i requires 0 <= i < |m.lessons| => SyllabusLine(i + 1, m.lessons[i].title, !hasAccess && i > 0))
  }

  datatype Sidebar =
    | MemberSidebar(telegramButton: bool)
    | SalesSidebar(telegramPerk: bool)

  datatype PreviewView = PreviewView(
    image: string,
    moduleCount: nat,
    lessonCount: nat,
    minutes: real,
    showsHighlights: bool,
    showsRequirements: bool,
    showsAudience: bool,
    syllabus: seq<seq<SyllabusLine>>,
    sidebar: Sidebar)

  function RenderPreview(course: Course, hasAccess: bool): (v: PreviewView)
    ensures Truthy(course.previewImageUrl) ==> v.image == course.previewImageUrl.value
    ensures !Truthy(course.previewImageUrl) ==> v.image == FallbackImageBase + course.id
    ensures v.moduleCount == |course.modules|
    ensures v.lessonCount == |AllLessons(course.modules)|
    ensures v.minutes == SumDurations(AllLessons(course.modules))
    ensures v.showsHighlights <==> NonEmptyList(course.highlights)
    ensures v.showsRequirements <==> NonEmptyList(course.requirements)
    ensures v.showsAudience <==> NonEmptyList(course.targetAudience)
    ensures |v.syllabus| == |course.modules|
    ensures forall k :: 0 <= k < |course.modules| ==> v.syllabus[k] == SyllabusOf(course.modules[k], hasAccess)
    ensures v.sidebar.MemberSidebar? <==> hasAccess
    ensures v.sidebar.MemberSidebar? ==> (v.sidebar.telegramButton <==> Truthy(course.telegramUrl))
    ensures v.sidebar.SalesSidebar? ==> (v.sidebar.telegramPerk <==> Truthy(course.telegramUrl))
  {
    TotalLessonsCountsAll(course.modules);
    TotalDurationSumsAll(course.modules);
    PreviewView(
      if Truthy(course.previewImageUrl) then course.previewImageUrl.value else FallbackImageBase + course.id,
      |course.modules|,
      TotalLessons(course.modules),
      TotalDuration(course.modules),
      NonEmptyList(course.highlights),
      NonEmptyList(course.requirements),
      NonEmptyList(course.targetAudience),
      seq(|course.modules|, k requires 0 <= k < |course.modules| => SyllabusOf(course.modules[k], hasAccess)),
      if hasAccess then MemberSidebar(Truthy(course.telegramUrl)) else SalesSidebar(Truthy(course.telegramUrl)))
  }

  /** The number of locked labels in a syllabus. */
  function LockedCount(lines: seq<SyllabusLine>): nat
  {
    if |lines| == 0 then 0 else (if lines[0].lockedLabel then 1 else 0) + LockedCount(lines[1..])
  }

  function LockedInCourse(syllabus: seq<seq<SyllabusLine>>): nat
  {
    if |syllabus| == 0 then 0 else LockedCount(syllabus[0]) + LockedInCourse(syllabus[1..])
  }

  /** The modules that have at least one lesson. */
  function NonEmptyModules(ms: seq<Module>): nat
  {
    if |ms| == 0 then 0 else (if |ms[0].lessons| > 0 then 1 else 0) + NonEmptyModules(ms[1..])
  }

  lemma {:induction false} LockedCountOfFlags(lines: seq<SyllabusLine>, from: nat)
    requires forall i :: 0 <= i < |lines| ==> (lines[i].lockedLabel <==> from + i > 0)
    ensures LockedCount(lines) == if from == 0 && |lines| > 0 then |lines| - 1 else |lines|
  {
    if |lines| > 0 {
      LockedCountOfFlags(lines[1..], from + 1);
    }
  }

  lemma {:induction false} LockedCountNone(lines: seq<SyllabusLine>)
    requires forall i :: 0 <= i < |lines| ==> !lines[i].lockedLabel
    ensures LockedCount(lines) == 0
  {
    if |lines| > 0 {
      LockedCountNone(lines[1..]);
    }
  }

  /** Without access the syllabus labels every lesson locked except the first of
      each module: one unlabelled lesson per non-empty module. */
  lemma {:induction false} LockedLabelsWithoutAccess(ms: seq<Module>)
    ensures LockedInCourse(seq(|ms|, k requires 0 <= k < |ms| => SyllabusOf(ms[k], false)))
            == TotalLessons(ms) - NonEmptyModules(ms)
    ensures NonEmptyModules(ms) <= TotalLessons(ms)
  {
    var s := seq(|ms|, k requires 0 <= k < |ms| => SyllabusOf(ms[k], false));
    if |ms| > 0 {
      LockedLabelsWithoutAccess(ms[1..]);
      assert s[1..] == seq(|ms[1..]|, k requires 0 <= k < |ms[1..]| => SyllabusOf(ms[1..][k], false));
      LockedCountOfFlags(s[0], 0);
    }
  }

  /** With access no syllabus line carries the locked label. */
  lemma {:induction false} NoLockedLabelsWithAccess(ms: seq<Module>)
    ensures LockedInCourse(seq(|ms|, k requires 0 <= k < |ms| => SyllabusOf(ms[k], true))) == 0
  {
    var s := seq(|ms|, k requires 0 <= k < |ms| => SyllabusOf(ms[k], true));
    if |ms| > 0 {
      NoLockedLabelsWithAccess(ms[1..]);
      assert s[1..] == seq(|ms[1..]|, k requires 0 <= k < |ms[1..]| => SyllabusOf(ms[1..][k], true));
      LockedCountNone(s[0]);
    }
  }

  /** The syllabus and the lesson menu disagree on the first lesson of every module
      after the first: the syllabus leaves it unlabelled, the menu locks it. */
  lemma SyllabusAndMenuDisagree(ms: seq<Module>, k: nat, done: seq<string>, current: Option<string>)
    requires 0 < k < |ms| && |ms[k].lessons| > 0
    ensures !SyllabusOf(ms[k], false)[0].lockedLabel
    ensures ModuleAccordion.Row(ms[k].lessons[0], 0, done, current, false, k == 0).icon == ModuleAccordion.LockIcon
  {
  }
}

=== FILE: module_accordion.dfy ===
/** One module's panel in the lesson menu of the course page: a progress badge,
    an open/closed state, and one row per lesson that either selects the lesson
    or is locked. The course page stacks one panel per module and marks only the
    panel at index 0 as the first module. */
module ModuleAccordion {

  import opened Types
  import CourseContext

  /** `(completed / total) * 100` as an exact ratio, 0 for a module without lessons. */
  function ModuleProgress(m: Module, done: seq<string>): (r: real)
    ensures 0.0 <= r <= 100.0
    ensures |m.lessons| == 0 ==> r == 0.0
    ensures |m.lessons| > 0 ==> r * (|m.lessons| as real) == 100.0 * (CountCompleted(m.lessons, done) as real)
    ensures |m.lessons| > 0 ==> (r == 100.0 <==> forall i :: 0 <= i < |m.lessons| ==> m.lessons[i].id in done)
  {
    var t := |m.lessons|;
    if t > 0 then
      var c := CountCompleted(m.lessons, done);
      PercentOfRatio(c as real, t as real);
      (c as real / t as real) * 100.0
    else 0.0
  }

  /** `(c / t) * 100` for `0 <= c <= t`: a percentage, exactly `100c/t`, and 100
      exactly when `c = t`. */
  lemma PercentOfRatio(c: real, t: real)
    requires 0.0 <= c <= t && t > 0.0
    ensures var r := (c / t) * 100.0;
            0.0 <= r <= 100.0 && r * t == 100.0 * c && (r == 100.0 <==> c == t)
  {
    RatioScales(c, t);
    RatioBounds(c, t);
    RatioFull(c, t);
  }

  lemma RatioScales(c: real, t: real)
    requires t > 0.0
    ensures ((c / t) * 100.0) * t == 100.0 * c
  {
    var q := c / t;
    assert q * t == c;
    assert (q * 100.0) * t == 100.0 * (q * t);
  }

  lemma RatioBounds(c: real, t: real)
    requires 0.0 <= c <= t && t > 0.0
    ensures 0.0 <= (c / t) * 100.0 <= 100.0
  {
    var q := c / t;
    assert q * t == c;
    assert 0.0 * t == 0.0 && 1.0 * t == t;
    Cancel(0.0, q, t);
    Cancel(q, 1.0, t);
  }

  lemma RatioFull(c: real, t: real)
    requires t > 0.0
    ensures (c / t) * 100.0 == 100.0 <==> c == t
  {
    var q := c / t;
    assert q * t == c;
    if q == 1.0 {
      assert q * t == t;
    }
  }

  /** `Math.round`: the nearest integer, halves rounded up. */
  function Round(x: real): (r: int)
    ensures (r as real) - 0.5 <= x < (r as real) + 0.5
  {
    (x + 0.5).Floor
  }

  datatype Badge = Check | Percent(shown: int)

  /** The check mark at exactly 100, otherwise the rounded percentage. */
  function ProgressBadge(m: Module, done: seq<string>): (b: Badge)
    ensures b == Check <==> |m.lessons| > 0 && forall i :: 0 <= i < |m.lessons| ==> m.lessons[i].id in done
    ensures b.Percent? ==> 0 <= b.shown <= 100
    ensures b.Percent? ==> (b.shown as real) - 0.5 <= ModuleProgress(m, done) < (b.shown as real) + 0.5
  {
    var p := ModuleProgress(m, done);
    if p == 100.0 then Check else Percent(Round(p))
  }

  /** The badge's percentage is the one the course percentage uses: for a module
      with lessons it is the course rounding of its own counts. */
  lemma BadgeIsCourseRounding(m: Module, done: seq<string>)
    requires |m.lessons| > 0
    ensures var c, t := CountCompleted(m.lessons, done), |m.lessons|;
            ProgressBadge(m, done) == if c == t then Check else Percent(CourseContext.RoundPercent(c, t))
  {
    var c, t := CountCompleted(m.lessons, done), |m.lessons|;
    if c != t {
      RoundOfRatio(ModuleProgress(m, done), c, t);
    }
  }

  /** `Math.round` of the exact percentage `100c/t` is the course rounding. */
  lemma RoundOfRatio(p: real, c: nat, t: nat)
    requires 0 < t && c <= t
    requires p * (t as real) == 100.0 * (c as real)
    ensures Round(p) == CourseContext.RoundPercent(c, t)
  {
    var n := CourseContext.RoundPercent(c, t);
    assert n == (200 * c + t) / (2 * t);
    CourseContext.RoundPercentIsNearest(c, t);
    RealBetween(p, n, c, t);
    RoundIsUnique(p, n);
  }

  /** The integer within half of `x`, halves up, is the one `Round` picks. */
  lemma RoundIsUnique(x: real, n: int)
    requires (n as real) - 0.5 <= x < (n as real) + 0.5
    ensures Round(x) == n
  {
  }

  /** From `2t·n <= 200c + t < 2t·(n+1)` and `p·t = 100c`, `n - 1/2 <= p < n + 1/2`. */
  lemma RealBetween(p: real, n: int, c: nat, t: nat)
    requires t > 0
    requires p * (t as real) == 100.0 * (c as real)
    requires 2 * t * n <= 200 * c + t < 2 * t * (n + 1)
    ensures (n as real) - 0.5 <= p < (n as real) + 0.5
  {
    var T, C := t as real, c as real;
    HalfSteps(n, c, t);
    CastMul(2 * n - 1, t);
    CastMul(2 * n + 1, t);
    var lo, hi := (2 * n - 1) as real, (2 * n + 1) as real;
    assert lo * T <= 200.0 * C;
    assert 200.0 * C < hi * T;
    CancelBelow(lo, p, T, C);
    CancelAbove(hi, p, T, C);
  }

  lemma CancelBelow(a: real, p: real, t: real, c: real)
    requires t > 0.0 && p * t == 100.0 * c && a * t <= 200.0 * c
    ensures a <= 2.0 * p
  {
    assert (2.0 * p) * t == 200.0 * c;
    Cancel(a, 2.0 * p, t);
  }

  lemma CancelAbove(a: real, p: real, t: real, c: real)
    requires t > 0.0 && p * t == 100.0 * c && 200.0 * c < a * t
    ensures 2.0 * p < a
  {
    assert (2.0 * p) * t == 200.0 * c;
    Cancel(2.0 * p, a, t);
  }

  lemma HalfSteps(n: int, c: nat, t: nat)
    requires 2 * t * n <= 200 * c + t < 2 * t * (n + 1)
    ensures (2 * n - 1) * t <= 200 * c < (2 * n + 1) * t
  {
  }

  lemma CastMul(a: int, b: int)
    ensures (a * b) as real == (a as real) * (b as real)
  {
  }

  lemma Cancel(x: real, y: real, t: real)
    requires t > 0.0
    ensures x * t <= y * t ==> x <= y
    ensures x * t < y * t ==> x < y
  {
  }

  /** A module with 200 or more lessons and all but one completed shows `100%`
      in its badge, and no check mark. */
  lemma BadgeShowsFullBeforeCheck(m: Module, done: seq<string>)
    requires |m.lessons| >= 200 && CountCompleted(m.lessons, done) == |m.lessons| - 1
    ensures ProgressBadge(m, done) == Percent(100)
  {
    var c, t := CountCompleted(m.lessons, done), |m.lessons|;
    BadgeIsCourseRounding(m, done);
    CourseContext.RoundPercentExtremes(c, t);
  }

  // ---------------------------------------------------------------------------
  // Lesson rows.

  /** Lesson 0 of the first module is the free preview lesson. */
  predicate IsPreviewLesson(isFirstModule: bool, index: nat)
  {
    isFirstModule && index == 0
  }

  /** A row opens with access, and without it only as the first lesson of the
      first module. */
  predicate CanAccess(hasAccess: bool, isFirstModule: bool, index: nat)
    ensures hasAccess ==> CanAccess(hasAccess, isFirstModule, index)
    ensures !hasAccess ==> (CanAccess(hasAccess, isFirstModule, index) <==> isFirstModule && index == 0)
  {
    hasAccess || IsPreviewLesson(isFirstModule, index)
  }

  datatype Icon = LockIcon | CheckIcon | PlayIcon

  /** What one lesson row shows and does: its icon, whether it is highlighted as
      the selected lesson, whether the button is enabled, and the "Gratis" badge. */
  datatype LessonRow = LessonRow(lessonId: string, icon: Icon, active: bool, enabled: bool, free: bool)

  function Row(l: Lesson, index: nat, done: seq<string>, current: Option<string>,
               hasAccess: bool, isFirstModule: bool): (r: LessonRow)
    ensures r.lessonId == l.id
    ensures r.enabled <==> hasAccess || (isFirstModule && index == 0)
    ensures r.icon == LockIcon <==> !r.enabled
    ensures r.icon == CheckIcon <==> r.enabled && l.id in done
    ensures r.active <==> current == Some(l.id)
    ensures r.free <==> isFirstModule && index == 0 && !hasAccess
    ensures r.free ==> r.enabled
  {
    var canAccess := CanAccess(hasAccess, isFirstModule, index);
    var icon := if !canAccess then LockIcon else if l.id in done then CheckIcon else PlayIcon;
    LessonRow(l.id, icon, current == Some(l.id), canAccess, IsPreviewLesson(isFirstModule, index) && !hasAccess)
  }

  /** Clicking a row: a disabled row never reaches the selection callback. */
  function Click(row: LessonRow): (r: Option<string>)
    ensures r.Some? <==> row.enabled
    ensures r.Some? ==> r.value == row.lessonId
  {
    if row.enabled then Some(row.lessonId) else None
  }

  /** The rows a panel shows: none while closed. */
  function ModuleRows(m: Module, done: seq<string>, current: Option<string>,
                      hasAccess: bool, isFirstModule: bool, open: bool): (r: seq<LessonRow>)
    ensures |r| == if open then |m.lessons| else 0
    ensures open ==> forall i :: 0 <= i < |r| ==> r[i] == Row(m.lessons[i], i, done, current, hasAccess, isFirstModule)
  {
    if open then
      seq(|m.lessons|, i requires 0 <= i < |m.lessons| => Row(m.lessons[i], i, done, current, hasAccess, isFirstModule))
    else []
  }

  /** Every row of every panel from module `from` on, all panels open, the panel at
      index 0 being the first module's. */
  function MenuRows(ms: seq<Module>, done: seq<string>, current: Option<string>, hasAccess: bool, from: nat): seq<LessonRow>
    requires from <= |ms|
    decreases |ms| - from
  {
    if from == |ms| then []
    else ModuleRows(ms[from], done, current, hasAccess, from == 0, true) + MenuRows(ms, done, current, hasAccess, from + 1)
  }

  /** The lesson ids a click can deliver, in menu order. */
  function EnabledIds(rows: seq<LessonRow>): (r: seq<string>)
    ensures |r| <= |rows|
  {
    if |rows| == 0 then [] else (if rows[0].enabled then [rows[0].lessonId] else []) + EnabledIds(rows[1..])
  }

  function Ids(ls: seq<Lesson>): (r: seq<string>)
    ensures |r| == |ls| && forall i :: 0 <= i < |ls| ==> r[i] == ls[i].id
  {
    seq(|ls|, i requires 0 <= i < |ls| => ls[i].id)
  }

  lemma IdsAppend(a: seq<Lesson>, b: seq<Lesson>)
    ensures Ids(a + b) == Ids(a) + Ids(b)
  {
  }

  /** The preview lesson's id, when the first module has a first lesson. */
  function PreviewIds(ms: seq<Module>): seq<string>
  {
    if |ms| > 0 && |ms[0].lessons| > 0 then [ms[0].lessons[0].id] else []
  }

  lemma {:induction false} EnabledIdsAppend(a: seq<LessonRow>, b: seq<LessonRow>)
    ensures EnabledIds(a + b) == EnabledIds(a) + EnabledIds(b)
  {
    if |a| > 0 {
      assert (a + b)[0] == a[0] && (a + b)[1..] == a[1..] + b;
      EnabledIdsAppend(a[1..], b);
    } else {
      assert a + b == b;
    }
  }

  lemma {:induction false} EnabledIdsNone(rows: seq<LessonRow>)
    requires forall i :: 0 <= i < |rows| ==> !rows[i].enabled
    ensures EnabledIds(rows) == []
  {
    if |rows| > 0 {
      EnabledIdsNone(rows[1..]);
    }
  }

  lemma {:induction false} EnabledIdsAll(rows: seq<LessonRow>)
    requires forall i :: 0 <= i < |rows| ==> rows[i].enabled
    ensures EnabledIds(rows) == seq(|rows|, i requires 0 <= i < |rows| => rows[i].lessonId)
  {
    if |rows| > 0 {
      EnabledIdsAll(rows[1..]);
    }
  }

  /** Without access, only the preview lesson can ever be selected in the whole
      course menu; every other row is disabled. */
  lemma WithoutAccessOnlyPreview(ms: seq<Module>, done: seq<string>, current: Option<string>, from: nat)
    requires from <= |ms|
    ensures EnabledIds(MenuRows(ms, done, current, false, from)) == if from == 0 then PreviewIds(ms) else []
  {
    if from > 0 {
      LaterPanelsOfferNothing(ms, done, current, from);
    } else if |ms| > 0 {
      var rows := ModuleRows(ms[0], done, current, false, true, true);
      var rest := MenuRows(ms, done, current, false, 1);
      assert MenuRows(ms, done, current, false, 0) == rows + rest;
      LaterPanelsOfferNothing(ms, done, current, 1);
      EnabledIdsAppend(rows, rest);
      PanelWithoutAccess(ms[0], done, current, true);
      assert EnabledIds(rows) + [] == EnabledIds(rows);
    }
  }

  /** Without access, no panel after the first one offers any lesson. */
  lemma {:induction false} LaterPanelsOfferNothing(ms: seq<Module>, done: seq<string>, current: Option<string>, from: nat)
    requires 0 < from <= |ms|
    ensures EnabledIds(MenuRows(ms, done, current, false, from)) == []
    decreases |ms| - from
  {
    if from < |ms| {
      var rows := ModuleRows(ms[from], done, current, false, false, true);
      var rest := MenuRows(ms, done, current, false, from + 1);
      assert MenuRows(ms, done, current, false, from) == rows + rest;
      LaterPanelsOfferNothing(ms, done, current, from + 1);
      EnabledIdsAppend(rows, rest);
      PanelWithoutAccess(ms[from], done, current, false);
    }
  }

  /** Without access a panel offers only its first lesson, and only when it is
      the first module's. */
  lemma PanelWithoutAccess(m: Module, done: seq<string>, current: Option<string>, isFirstModule: bool)
    ensures EnabledIds(ModuleRows(m, done, current, false, isFirstModule, true))
              == if isFirstModule && |m.lessons| > 0 then [m.lessons[0].id] else []
  {
    var rows := ModuleRows(m, done, current, false, isFirstModule, true);
    if isFirstModule && |rows| > 0 {
      EnabledIdsNone(rows[1..]);
    } else {
      EnabledIdsNone(rows);
    }
  }

  /** With access, every lesson of the course can be selected, in course order. */
  lemma {:induction false} WithAccessAllSelectable(ms: seq<Module>, done: seq<string>, current: Option<string>, from: nat)
    requires from <= |ms|
    ensures EnabledIds(MenuRows(ms, done, current, true, from)) == Ids(AllLessons(ms[from..]))
    decreases |ms| - from
  {
    if from < |ms| {
      var rows := ModuleRows(ms[from], done, current, true, from == 0, true);
      WithAccessAllSelectable(ms, done, current, from + 1);
      EnabledIdsAppend(rows, MenuRows(ms, done, current, true, from + 1));
      EnabledIdsAll(rows);
      assert EnabledIds(rows) == Ids(ms[from].lessons);
      assert ms[from..][0] == ms[from] && ms[from..][1..] == ms[from + 1..];
      assert AllLessons(ms[from..]) == ms[from].lessons + AllLessons(ms[from + 1..]);
      IdsAppend(ms[from].lessons, AllLessons(ms[from + 1..]));
    } else {
      assert ms[from..] == [];
    }
  }
}

=== FILE: ordering.dfy ===
/** Sibling ordering in the content tree: the `order` allocation rule
    `Math.max(...orders, -1) + 1` and the stable ascending sort
    `list.sort((a, b) => a.order - b.order)`, generic over the item type. */
module Ordering {

  import Seqs

  ghost predicate SortedBy<T>(xs: seq<T>, key: T -> int)
  {
    forall i, j :: 0 <= i < j < |xs| ==> key(xs[i]) <= key(xs[j])
  }

  /** No two siblings share an order value. */
  ghost predicate DistinctKeys<T>(xs: seq<T>, key: T -> int)
  {
    forall i, j :: 0 <= i < j < |xs| ==> key(xs[i]) != key(xs[j])
  }

  function Max(a: int, b: int): int
  {
    if a < b then b else a
  }

  /** `Math.max(...xs.map(key), -1)`. */
  function MaxOrder<T>(xs: seq<T>, key: T -> int): (r: int)
    ensures -1 <= r
    ensures forall i :: 0 <= i < |xs| ==> key(xs[i]) <= r
    ensures r == -1 || exists i :: 0 <= i < |xs| && key(xs[i]) == r
  {
    if |xs| == 0 then -1
    else
      var rest := MaxOrder(xs[1..], key);
      assert forall i :: 1 <= i < |xs| ==> key(xs[i]) == key(xs[1..][i - 1]);
      Max(key(xs[0]), rest)
  }

  /** The order given to a new sibling: 0 in an empty list, otherwise one more than
      the largest existing order (and never below 0). It exceeds every sibling's order
      and is the least value that does so among 0 and the successors of existing orders. */
  function NextOrder<T>(xs: seq<T>, key: T -> int): (r: int)
    ensures 0 <= r
    ensures |xs| == 0 ==> r == 0
    ensures forall i :: 0 <= i < |xs| ==> key(xs[i]) < r
    ensures r == 0 || exists i :: 0 <= i < |xs| && key(xs[i]) == r - 1
  {
    MaxOrder(xs, key) + 1
  }

  /** Inserts `x` after every element whose key is not greater than its own. */
  function InsertByKey<T>(s: seq<T>, x: T, key: T -> int): (r: seq<T>)
    ensures |r| == |s| + 1
    ensures multiset(r) == multiset(s) + multiset{x}
  {
    if |s| == 0 then [x]
    else if key(s[0]) <= key(x) then
      assert s == [s[0]] + s[1..];
      [s[0]] + InsertByKey(s[1..], x, key)
    else
      [x] + s
  }

  /** Every element of `r` comes from `s` or is `x`, read off the multisets. */
  lemma MemberOfInsert<T>(s: seq<T>, x: T, r: seq<T>, i: int)
    requires multiset(r) == multiset(s) + multiset{x}
    requires 0 <= i < |r|
    ensures r[i] == x || exists j :: 0 <= j < |s| && s[j] == r[i]
  {
    assert r[i] in multiset(r);
    if r[i] != x {
      assert r[i] in multiset(s);
      assert r[i] in s;
    }
  }

  lemma TailSorted<T>(s: seq<T>, key: T -> int)
    requires |s| > 0 && SortedBy(s, key)
    ensures SortedBy(s[1..], key)
  {
    var tail := s[1..];
    forall i, j | 0 <= i < j < |tail| ensures key(tail[i]) <= key(tail[j]) {
      assert tail[i] == s[i + 1] && tail[j] == s[j + 1];
    }
  }

  /** A head no larger than any element of a sorted list keeps it sorted. */
  lemma ConsSorted<T>(a: T, rest: seq<T>, key: T -> int)
    requires SortedBy(rest, key)
    requires forall i :: 0 <= i < |rest| ==> key(a) <= key(rest[i])
    ensures SortedBy([a] + rest, key)
  {
    var r := [a] + rest;
    forall i, j | 0 <= i < j < |r| ensures key(r[i]) <= key(r[j]) {
      assert r[j] == rest[j - 1];
      if i > 0 {
        assert r[i] == rest[i - 1];
      }
    }
  }

  /** Inserting into a sorted list keeps it sorted. */
  lemma {:induction false} InsertKeepsSorted<T>(s: seq<T>, x: T, key: T -> int)
    requires SortedBy(s, key)
    ensures SortedBy(InsertByKey(s, x, key), key)
  {
    if |s| > 0 && key(s[0]) <= key(x) {
      var tail := s[1..];
      var rest := InsertByKey(tail, x, key);
      TailSorted(s, key);
      InsertKeepsSorted(tail, x, key);
      forall i | 0 <= i < |rest| ensures key(s[0]) <= key(rest[i]) {
        MemberOfInsert(tail, x, rest, i);
        if rest[i] != x {
          var j :| 0 <= j < |tail| && tail[j] == rest[i];
          assert tail[j] == s[j + 1];
        }
      }
      ConsSorted(s[0], rest, key);
      assert [s[0]] + rest == InsertByKey(s, x, key);
    } else if |s| > 0 {
      forall i | 0 <= i < |s| ensures key(x) <= key(s[i]) {
        assert i == 0 || key(s[0]) <= key(s[i]);
      }
      ConsSorted(x, s, key);
      assert [x] + s == InsertByKey(s, x, key);
    }
  }

  /** Inserting an element whose key is new into a list with distinct keys keeps
      the keys distinct. */
  lemma {:induction false} InsertKeepsDistinct<T>(s: seq<T>, x: T, key: T -> int)
    requires DistinctKeys(s, key)
    requires forall i :: 0 <= i < |s| ==> key(s[i]) != key(x)
    ensures DistinctKeys(InsertByKey(s, x, key), key)
  {
    if |s| > 0 && key(s[0]) <= key(x) {
      var tail := s[1..];
      var rest := InsertByKey(tail, x, key);
      assert DistinctKeys(tail, key) by {
        forall i, j | 0 <= i < j < |tail| ensures key(tail[i]) != key(tail[j]) {
          assert tail[i] == s[i + 1] && tail[j] == s[j + 1];
        }
      }
      assert forall i :: 0 <= i < |tail| ==> tail[i] == s[i + 1];
      InsertKeepsDistinct(tail, x, key);
      forall i | 0 <= i < |rest| ensures key(s[0]) != key(rest[i]) {
        MemberOfInsert(tail, x, rest, i);
        if rest[i] != x {
          var j :| 0 <= j < |tail| && tail[j] == rest[i];
          assert tail[j] == s[j + 1];
        }
      }
      var r := [s[0]] + rest;
      assert r == InsertByKey(s, x, key);
      forall i, j | 0 <= i < j < |r| ensures key(r[i]) != key(r[j]) {
        assert r[j] == rest[j - 1];
        if i > 0 {
          assert r[i] == rest[i - 1];
        }
      }
    } else if |s| > 0 {
      var r := [x] + s;
      assert r == InsertByKey(s, x, key);
      forall i, j | 0 <= i < j < |r| ensures key(r[i]) != key(r[j]) {
        assert r[j] == s[j - 1];
        if i > 0 {
          assert r[i] == s[i - 1];
        }
      }
    }
  }

  /** The ascending sort by key (an insertion sort). It is stable, as JavaScript's
      sort is since ES2019; `SortIsStable` proves it. */
  function SortByKey<T>(xs: seq<T>, key: T -> int): (r: seq<T>)
    ensures |r| == |xs|
    ensures multiset(r) == multiset(xs)
    ensures SortedBy(r, key)
    ensures DistinctKeys(xs, key) ==> DistinctKeys(r, key)
  {
    if |xs| == 0 then []
    else
      var init := xs[..|xs| - 1];
      var last := xs[|xs| - 1];
      Seqs.InitLast(xs);
      var sorted := SortByKey(init, key);
      InsertKeepsSorted(sorted, last, key);
      SortStepKeepsDistinct(xs, sorted, key);
      InsertByKey(sorted, last, key)
  }

  /** The items of `xs` whose key is `k`, in their order in `xs`. */
  function WithKey<T>(xs: seq<T>, key: T -> int, k: int): seq<T>
  {
    if |xs| == 0 then []
    else if key(xs[0]) == k then [xs[0]] + WithKey(xs[1..], key, k)
    else WithKey(xs[1..], key, k)
  }

  /** Appending an item appends it to its own key's items only. */
  lemma {:induction false} WithKeySnoc<T>(xs: seq<T>, x: T, key: T -> int, k: int)
    ensures WithKey(xs + [x], key, k) == WithKey(xs, key, k) + (if key(x) == k then [x] else [])
  {
    if |xs| > 0 {
      assert (xs + [x])[0] == xs[0] && (xs + [x])[1..] == xs[1..] + [x];
      WithKeySnoc(xs[1..], x, key, k);
    } else {
      assert xs + [x] == [x];
      assert [x][1..] == [];
    }
  }

  lemma {:induction false} WithKeyNone<T>(s: seq<T>, key: T -> int, k: int)
    requires forall i :: 0 <= i < |s| ==> key(s[i]) != k
    ensures WithKey(s, key, k) == []
  {
    if |s| > 0 {
      WithKeyNone(s[1..], key, k);
    }
  }

  lemma InsertStep<T>(s: seq<T>, x: T, key: T -> int)
    requires |s| > 0 && key(s[0]) <= key(x)
    ensures InsertByKey(s, x, key) == [s[0]] + InsertByKey(s[1..], x, key)
  {
  }

  lemma SortStep<T>(xs: seq<T>, key: T -> int)
    requires |xs| > 0
    ensures SortByKey(xs, key) == InsertByKey(SortByKey(xs[..|xs| - 1], key), xs[|xs| - 1], key)
  {
  }

  /** The items with key `k` of a list with a head: the head first if it has
      that key, then the tail's. */
  lemma WithKeyCons<T>(h: T, t: seq<T>, key: T -> int, k: int)
    ensures WithKey([h] + t, key, k) == (if key(h) == k then [h] + WithKey(t, key, k) else WithKey(t, key, k))
  {
    assert ([h] + t)[0] == h && ([h] + t)[1..] == t;
  }

  /** Inserting an item whose key is below the first one of a sorted list puts
      it in front, and no item of the list shares its key. */
  lemma WithKeyInsertFront<T>(s: seq<T>, x: T, key: T -> int, k: int)
    requires |s| > 0 && SortedBy(s, key) && key(x) < key(s[0])
    ensures WithKey(InsertByKey(s, x, key), key, k) == WithKey(s, key, k) + (if key(x) == k then [x] else [])
  {
    assert InsertByKey(s, x, key) == [x] + s;
    WithKeyCons(x, s, key, k);
    if key(x) == k {
      forall i | 0 <= i < |s| ensures key(s[i]) != k {
        if i > 0 {
          assert key(s[0]) <= key(s[i]);
        }
      }
      WithKeyNone(s, key, k);
      assert [x] + [] == [] + [x];
    }
  }

  /** The step past a head whose key is not above the inserted one. */
  lemma WithKeyInsertPast<T>(s: seq<T>, x: T, key: T -> int, k: int, rest: seq<T>)
    requires |s| > 0 && key(s[0]) <= key(x)
    requires rest == WithKey(s[1..], key, k) + (if key(x) == k then [x] else [])
    requires WithKey(InsertByKey(s[1..], x, key), key, k) == rest
    ensures WithKey(InsertByKey(s, x, key), key, k) == WithKey(s, key, k) + (if key(x) == k then [x] else [])
  {
    InsertStep(s, x, key);
    WithKeyCons(s[0], InsertByKey(s[1..], x, key), key, k);
    if key(s[0]) == k {
      var tail := if key(x) == k then [x] else [];
      assert [s[0]] + (WithKey(s[1..], key, k) + tail) == ([s[0]] + WithKey(s[1..], key, k)) + tail;
    }
  }

  /** Inserting into a sorted list puts the new item after every item with the
      same key, so each key's items keep their order with the new one last. */
  lemma {:induction false} WithKeyInsert<T>(s: seq<T>, x: T, key: T -> int, k: int)
    requires SortedBy(s, key)
    ensures WithKey(InsertByKey(s, x, key), key, k) == WithKey(s, key, k) + (if key(x) == k then [x] else [])
  {
    if |s| == 0 {
      assert InsertByKey(s, x, key) == [x];
      assert [x][1..] == [];
    } else if key(s[0]) <= key(x) {
      TailSorted(s, key);
      WithKeyInsert(s[1..], x, key, k);
      WithKeyInsertPast(s, x, key, k, WithKey(s[1..], key, k) + (if key(x) == k then [x] else []));
    } else {
      WithKeyInsertFront(s, x, key, k);
    }
  }

  /** `SortByKey` is stable: for every key, the items carrying it appear in the
      result in the same order as in `xs`. */
  lemma {:induction false} SortIsStable<T>(xs: seq<T>, key: T -> int, k: int)
    ensures WithKey(SortByKey(xs, key), key, k) == WithKey(xs, key, k)
  {
    if |xs| > 0 {
      var init := xs[..|xs| - 1];
      var last := xs[|xs| - 1];
      SortStep(xs, key);
      SortIsStable(init, key, k);
      WithKeyInsert(SortByKey(init, key), last, key, k);
      WithKeySnoc(init, last, key, k);
      Seqs.InitLast(xs);
    }
  }

  /** The inductive step of `SortByKey` for distinct keys: the prefix of a list
      with distinct keys has distinct keys, and the last key is new to it. */
  lemma SortStepKeepsDistinct<T>(xs: seq<T>, sorted: seq<T>, key: T -> int)
    requires |xs| > 0
    requires multiset(sorted) == multiset(xs[..|xs| - 1])
    requires DistinctKeys(xs[..|xs| - 1], key) ==> DistinctKeys(sorted, key)
    ensures DistinctKeys(xs, key) ==> DistinctKeys(InsertByKey(sorted, xs[|xs| - 1], key), key)
  {
    if DistinctKeys(xs, key) {
      var init := xs[..|xs| - 1];
      var last := xs[|xs| - 1];
      assert DistinctKeys(init, key) by {
        forall i, j | 0 <= i < j < |init| ensures key(init[i]) != key(init[j]) {
          assert init[i] == xs[i] && init[j] == xs[j];
        }
      }
      forall i | 0 <= i < |sorted| ensures key(sorted[i]) != key(last) {
        assert sorted[i] in multiset(sorted);
        assert sorted[i] in init;
        var j :| 0 <= j < |init| && init[j] == sorted[i];
        assert xs[j] == sorted[i];
      }
      InsertKeepsDistinct(sorted, last, key);
    }
  }

  /** Inserting an element whose key is at least every existing key appends it. */
  lemma {:induction false} InsertAfterAll<T>(s: seq<T>, x: T, key: T -> int)
    requires forall i :: 0 <= i < |s| ==> key(s[i]) <= key(x)
    ensures InsertByKey(s, x, key) == s + [x]
  {
    if |s| > 0 {
      InsertAfterAll(s[1..], x, key);
      assert s == [s[0]] + s[1..];
    }
  }

  /** Sorting a list that is already sorted leaves it exactly as it was, so an
      edit that keeps the order value keeps the item at its index. */
  lemma {:induction false} SortSortedIsIdentity<T>(xs: seq<T>, key: T -> int)
    requires SortedBy(xs, key)
    ensures SortByKey(xs, key) == xs
  {
    if |xs| > 0 {
      var init := xs[..|xs| - 1];
      var last := xs[|xs| - 1];
      assert SortedBy(init, key) by {
        forall i, j | 0 <= i < j < |init| ensures key(init[i]) <= key(init[j]) {
          assert init[i] == xs[i] && init[j] == xs[j];
        }
      }
      SortSortedIsIdentity(init, key);
      assert forall i :: 0 <= i < |init| ==> key(init[i]) <= key(last) by {
        forall i | 0 <= i < |init| ensures key(init[i]) <= key(last) {
          assert init[i] == xs[i];
        }
      }
      InsertAfterAll(init, last, key);
      Seqs.InitLast(xs);
    }
  }

  /** Replacing an element by one with the same key keeps the keys sorted. */
  lemma SameKeyUpdateKeepsSorted<T>(xs: seq<T>, k: int, x: T, key: T -> int)
    requires 0 <= k < |xs| && key(x) == key(xs[k])
    requires SortedBy(xs, key)
    ensures SortedBy(xs[k := x], key)
  {
  }

  /** Replacing an element by one with the same key keeps the keys distinct. */
  lemma SameKeyUpdateKeepsDistinct<T>(xs: seq<T>, k: int, x: T, key: T -> int)
    requires 0 <= k < |xs| && key(x) == key(xs[k])
    requires DistinctKeys(xs, key)
    ensures DistinctKeys(xs[k := x], key)
  {
  }

  /** Appending an element whose key exceeds every existing key keeps the keys distinct. */
  lemma FreshKeyAppendKeepsDistinct<T>(xs: seq<T>, x: T, key: T -> int)
    requires forall i :: 0 <= i < |xs| ==> key(xs[i]) < key(x)
    requires DistinctKeys(xs, key)
    ensures DistinctKeys(xs + [x], key)
  {
  }

  /** Filtering keeps a sorted list sorted. */
  lemma {:induction false} FilterKeepsSorted<T>(xs: seq<T>, p: T -> bool, key: T -> int)
    requires SortedBy(xs, key)
    ensures SortedBy(Seqs.Filter(xs, p), key)
  {
    if |xs| > 0 {
      var tail := xs[1..];
      assert SortedBy(tail, key) by {
        forall i, j | 0 <= i < j < |tail| ensures key(tail[i]) <= key(tail[j]) {
          assert tail[i] == xs[i + 1] && tail[j] == xs[j + 1];
        }
      }
      FilterKeepsSorted(tail, p, key);
      var rest := Seqs.Filter(tail, p);
      if p(xs[0]) {
        forall i | 0 <= i < |rest| ensures key(xs[0]) <= key(rest[i]) {
          var j :| 0 <= j < |tail| && tail[j] == rest[i];
          assert xs[j + 1] == rest[i];
        }
        var r := [xs[0]] + rest;
        forall i, j | 0 <= i < j < |r| ensures key(r[i]) <= key(r[j]) {
          assert r[j] == rest[j - 1];
          if i > 0 {
            assert r[i] == rest[i - 1];
          }
        }
      }
    }
  }

  /** Filtering keeps the keys of a list distinct. */
  lemma {:induction false} FilterKeepsDistinct<T>(xs: seq<T>, p: T -> bool, key: T -> int)
    requires DistinctKeys(xs, key)
    ensures DistinctKeys(Seqs.Filter(xs, p), key)
  {
    if |xs| > 0 {
      var tail := xs[1..];
      assert DistinctKeys(tail, key) by {
        forall i, j | 0 <= i < j < |tail| ensures key(tail[i]) != key(tail[j]) {
          assert tail[i] == xs[i + 1] && tail[j] == xs[j + 1];
        }
      }
      FilterKeepsDistinct(tail, p, key);
      var rest := Seqs.Filter(tail, p);
      if p(xs[0]) {
        forall i | 0 <= i < |rest| ensures key(xs[0]) != key(rest[i]) {
          var j :| 0 <= j < |tail| && tail[j] == rest[i];
          assert xs[j + 1] == rest[i];
        }
        var r := [xs[0]] + rest;
        forall i, j | 0 <= i < j < |r| ensures key(r[i]) != key(r[j]) {
          assert r[j] == rest[j - 1];
          if i > 0 {
            assert r[i] == rest[i - 1];
          }
        }
      }
    }
  }
}

=== FILE: private_route.dfy ===
/** The guard in front of protected screens: a spinner while the session loads,
    then the sign-in, administrator and access checks in that order. */
module PrivateRoute {

  import opened Types

  /** The screens a guard can send a visitor to. */
  datatype Target = LoginScreen | HomeScreen | PaymentInstructionsScreen

  /** Which checks a guard adds to signing in; both default to off. */
  datatype Guard = Guard(requireAdmin: bool, requireAccess: bool)

  datatype Outcome = Spinner | Redirect(to: Target) | RenderChild

  /** The guard's decision for the session state: whether it is still loading,
      whether someone is signed in, and that user's profile (absent while it has
      not been read). */
  function Decide(g: Guard, loading: bool, signedIn: bool, profile: Option<User>): (r: Outcome)
    ensures loading ==> r == Spinner
    ensures !loading && !signedIn ==> r == Redirect(LoginScreen)
    ensures r == Redirect(HomeScreen) <==> !loading && signedIn && g.requireAdmin && !IsAdmin(profile)
    ensures r == Redirect(PaymentInstructionsScreen) <==>
              !loading && signedIn && (g.requireAdmin ==> IsAdmin(profile)) && g.requireAccess && !HasAccess(profile)
    ensures r == RenderChild <==>
              !loading && signedIn && (g.requireAdmin ==> IsAdmin(profile)) && (g.requireAccess ==> HasAccess(profile))
  {
    if loading then Spinner
    else if !signedIn then Redirect(LoginScreen)
    else if g.requireAdmin && !IsAdmin(profile) then Redirect(HomeScreen)
    else if g.requireAccess && !HasAccess(profile) then Redirect(PaymentInstructionsScreen)
    else RenderChild
  }

  /** A guard that requires neither role lets every signed-in user through, even
      one whose profile is missing. */
  lemma PlainGuardAdmitsEverySignedInUser(profile: Option<User>)
    ensures Decide(Guard(false, false), false, true, profile) == RenderChild
  {
  }

  /** A guard asking for more admits fewer sessions. */
  lemma StricterGuardAdmitsLess(g: Guard, h: Guard, loading: bool, signedIn: bool, profile: Option<User>)
    requires (g.requireAdmin ==> h.requireAdmin) && (g.requireAccess ==> h.requireAccess)
    ensures Decide(h, loading, signedIn, profile) == RenderChild ==> Decide(g, loading, signedIn, profile) == RenderChild
  {
  }
}

=== FILE: profile_page.dfy ===
/** The learner's profile: name and access status, how many courses are
    completed, how many certificates were obtained, and an overall bar. */
module ProfilePage {

  import opened Types
  import Seqs
  import CourseContext

  /** As written: with a progress record, a course counts as completed when the
      length of the whole completed list, for every course together, equals that
      course's lesson count. */
  predicate CompletedAsWritten(progress: Option<Progress>, course: Course)
  {
    progress.Some? && |progress.value.completedLessons| == TotalLessons(course.modules)
  }

  /** Corrected: the course has lessons and every one of them is in the record. */
  predicate CompletedFixed(progress: Option<Progress>, course: Course)
  {
    progress.Some? && TotalLessons(course.modules) > 0
    && CompletedInCourse(course.modules, progress.value.completedLessons) == TotalLessons(course.modules)
  }

  /** The corrected rule means every lesson of the course is done. */
  lemma CompletedFixedMeansAllDone(progress: Option<Progress>, course: Course)
    ensures CompletedFixed(progress, course) <==>
              progress.Some? && |AllLessons(course.modules)| > 0 && AllCompleted(course.modules, progress.value.completedLessons)
  {
    TotalLessonsCountsAll(course.modules);
    if progress.Some? {
      CompletedInCourseBounds(course.modules, progress.value.completedLessons);
    }
  }

  /** The corrected rule agrees with the course page, which calls a course
      completed when its percentage is 100. */
  lemma CompletedFixedAgreesWithCoursePage(progress: Option<Progress>, courses: seq<Course>, course: Course)
    requires course.id != "" && CourseContext.FindCourse(courses, course.id) == Some(course)
    ensures CompletedFixed(progress, course) <==> CourseContext.CourseProgress(progress, courses, course.id) == 100
  {
    if progress.Some? && TotalLessons(course.modules) > 0 {
      assert CourseContext.Tracked(progress, courses, course.id);
      CourseContext.CourseProgressFullIffCompleted(progress, courses, course.id);
      CompletedInCourseBounds(course.modules, progress.value.completedLessons);
    } else {
      CourseContext.UntrackedIsZero(progress, courses, course.id);
    }
  }

  const SampleLesson: Lesson := Lesson("a", "Intro", "", "", 0, 5.0, None)
  const SampleCourse: Course := Course("c", "Curso", "", None, None, [Module("m", "M", "", 0, [SampleLesson])], 0, 0, None, None, None)

  /** A learner who completed one lesson of another course is counted as having
      completed a one-lesson course they never opened. */
  lemma ForeignLessonCompletesCourse()
    ensures CompletedAsWritten(Some(Progress("u", ["b"], 0, false)), SampleCourse)
    ensures !CompletedFixed(Some(Progress("u", ["b"], 0, false)), SampleCourse)
  {
    assert TotalLessons(SampleCourse.modules) == 1;
    assert SampleCourse.modules[1..] == [];
    assert SampleCourse.modules[0].lessons[0].id !in ["b"];
    assert CountCompleted(SampleCourse.modules[0].lessons, ["b"]) == 0;
    assert CompletedInCourse(SampleCourse.modules, ["b"]) == 0;
  }

  /** A course without lessons counts as completed as written while the record is
      empty; the corrected rule never counts it. */
  lemma EmptyCourseCompletedAsWritten(course: Course, uid: string)
    requires TotalLessons(course.modules) == 0
    ensures CompletedAsWritten(Some(Progress(uid, [], 0, false)), course)
    ensures !CompletedFixed(Some(Progress(uid, [], 0, false)), course)
  {
  }

  /** A record naming only lessons of the course, each once, is counted the
      same by both rules, provided the course has lessons: for a learner who
      follows a single course the length comparison is exact. */
  lemma AsWrittenAgreesOnCleanRecords(progress: Progress, course: Course)
    requires TotalLessons(course.modules) > 0
    requires DistinctLessonIds(AllLessons(course.modules))
    requires NoRepeats(progress.completedLessons) && OnlyIdsOf(progress.completedLessons, AllLessons(course.modules))
    ensures CompletedAsWritten(Some(progress), course) <==> CompletedFixed(Some(progress), course)
  {
    CompletedInCourseIsFlatCount(course.modules, progress.completedLessons);
    CountCompletedOfOwnIds(AllLessons(course.modules), progress.completedLessons);
  }

  datatype AccessLabel = FullAccess | AccessPending

  datatype ProfileScreen =
    | Spinner
    | ToLogin
    | ProfileView(name: string, access: AccessLabel, completedCourses: nat, certificates: nat, overall: Option<real>)

  const DefaultName: string := "Usuario"

  /** The completed courses as the page counts them, by the length comparison. */
  function CompletedCourses(courses: seq<Course>, progress: Option<Progress>): (r: seq<Course>)
    ensures |r| <= |courses|
    ensures forall i :: 0 <= i < |r| ==> r[i] in courses && CompletedAsWritten(progress, r[i])
    ensures forall i :: 0 <= i < |courses| && CompletedAsWritten(progress, courses[i]) ==> courses[i] in r
    ensures progress.None? ==> r == []
    ensures Seqs.SubsequenceOf(r, courses)
    ensures forall c :: multiset(r)[c] == if CompletedAsWritten(progress, c) then multiset(courses)[c] else 0
  {
    var done := (c: Course) => CompletedAsWritten(progress, c);
    Seqs.FilterIsSubsequence(courses, done);
    forall c ensures multiset(Seqs.Filter(courses, done))[c] == if CompletedAsWritten(progress, c) then multiset(courses)[c] else 0 {
      Seqs.FilterCount(courses, done, c);
    }
    var r := Seqs.Filter(courses, done);
    assert |r| > 0 ==> CompletedAsWritten(progress, r[0]);
    r
  }

  /** The completed courses by the corrected rule. */
  function CompletedCoursesFixed(courses: seq<Course>, progress: Option<Progress>): (r: seq<Course>)
    ensures |r| <= |courses|
    ensures forall i :: 0 <= i < |r| ==> r[i] in courses && CompletedFixed(progress, r[i])
    ensures forall i :: 0 <= i < |courses| && CompletedFixed(progress, courses[i]) ==> courses[i] in r
    ensures progress.None? ==> r == []
    ensures Seqs.SubsequenceOf(r, courses)
    ensures forall c :: multiset(r)[c] == if CompletedFixed(progress, c) then multiset(courses)[c] else 0
  {
    var done := (c: Course) => CompletedFixed(progress, c);
    Seqs.FilterIsSubsequence(courses, done);
    forall c ensures multiset(Seqs.Filter(courses, done))[c] == if CompletedFixed(progress, c) then multiset(courses)[c] else 0 {
      Seqs.FilterCount(courses, done, c);
    }
    var r := Seqs.Filter(courses, done);
    assert |r| > 0 ==> CompletedFixed(progress, r[0]);
    r
  }

  /** As written, which courses count as completed depends on the record only
      through the length of its completed list. */
  lemma CompletedCoursesSeeOnlyLength(courses: seq<Course>, p1: Progress, p2: Progress)
    requires |p1.completedLessons| == |p2.completedLessons|
    ensures CompletedCourses(courses, Some(p1)) == CompletedCourses(courses, Some(p2))
  {
    Seqs.FilterSameTest(courses, (c: Course) => CompletedAsWritten(Some(p1), c),
                        (c: Course) => CompletedAsWritten(Some(p2), c));
  }

  /** The screen for a count of completed courses out of `total`. */
  function Screen(loading: bool, signedIn: bool, profile: Option<User>, progress: Option<Progress>,
                  done: nat, total: nat): (s: ProfileScreen)
    requires done <= total
    ensures loading ==> s == Spinner
    ensures !loading && !signedIn ==> s == ToLogin
    ensures s.ProfileView? ==> s.name == if profile.Some? && profile.value.displayName != "" then profile.value.displayName else DefaultName
    ensures s.ProfileView? ==> (s.access == FullAccess <==> HasAccess(profile))
    ensures s.ProfileView? ==> s.completedCourses == done
    ensures s.ProfileView? ==> s.certificates == if progress.Some? && progress.value.certificateGenerated then 1 else 0
    ensures s.ProfileView? ==> (s.overall.Some? <==> total > 0)
    ensures s.ProfileView? && s.overall.Some? ==> 0.0 <= s.overall.value <= 100.0
    ensures s.ProfileView? && s.overall.Some? ==> (s.overall.value == 100.0 <==> done == total)
  {
    if loading then Spinner
    else if !signedIn then ToLogin
    else
      ProfileView(
        if profile.Some? && profile.value.displayName != "" then profile.value.displayName else DefaultName,
        if HasAccess(profile) then FullAccess else AccessPending,
        done,
        if progress.Some? && progress.value.certificateGenerated then 1 else 0,
        if total > 0 then Some(Ratio(done, total)) else None)
  }

  /** The profile page as written, counting courses by the length comparison. */
  function Render(loading: bool, signedIn: bool, profile: Option<User>, courses: seq<Course>, progress: Option<Progress>): (s: ProfileScreen)
    ensures loading ==> s == Spinner
    ensures !loading && !signedIn ==> s == ToLogin
    ensures !loading && signedIn ==> s.ProfileView?
    ensures s.ProfileView? ==> s.completedCourses == |CompletedCourses(courses, progress)| <= |courses|
    ensures s.ProfileView? && progress.None? ==> s.completedCourses == 0
    ensures s.ProfileView? ==> (s.overall.Some? <==> |courses| > 0)
  {
    Screen(loading, signedIn, profile, progress, |CompletedCourses(courses, progress)|, |courses|)
  }

  /** The profile page with the corrected rule. */
  function RenderFixed(loading: bool, signedIn: bool, profile: Option<User>, courses: seq<Course>, progress: Option<Progress>): (s: ProfileScreen)
    ensures loading ==> s == Spinner
    ensures !loading && !signedIn ==> s == ToLogin
    ensures !loading && signedIn ==> s.ProfileView?
    ensures s.ProfileView? ==> s.completedCourses == |CompletedCoursesFixed(courses, progress)| <= |courses|
    ensures s.ProfileView? && progress.None? ==> s.completedCourses == 0
  {
    Screen(loading, signedIn, profile, progress, |CompletedCoursesFixed(courses, progress)|, |courses|)
  }

  /** As written, the page counts a one-lesson course as completed for a learner
      whose only completed lesson belongs to another course. */
  lemma ProfileCountsForeignLesson(profile: Option<User>)
    ensures Render(false, true, profile, [SampleCourse], Some(Progress("u", ["b"], 0, false))).completedCourses == 1
    ensures RenderFixed(false, true, profile, [SampleCourse], Some(Progress("u", ["b"], 0, false))).completedCourses == 0
  {
    var pr := Some(Progress("u", ["b"], 0, false));
    ForeignLessonCompletesCourse();
    var asWritten := CompletedCourses([SampleCourse], pr);
    assert SampleCourse in asWritten;
    var fixed := CompletedCoursesFixed([SampleCourse], pr);
    if |fixed| > 0 {
      assert false;
    }
  }

  /** `(done / total) * 100` for `done <= total`. */
  function Ratio(done: nat, total: nat): (r: real)
    requires 0 < total && done <= total
    ensures 0.0 <= r <= 100.0
    ensures r == 100.0 <==> done == total
  {
    var r := (done as real / total as real) * 100.0;
    assert r * (total as real) == 100.0 * (done as real);
    r
  }
}

=== FILE: register_form.dfy ===
/** The sign-up form: four validated fields and an optional administrator code.
    Submitting a valid form registers the account, then moves on to the
    administration page or to the payment instructions. */
module RegisterForm {

  import opened Types
  import Seqs

  /** The code that makes a new account an administrator. */
  const AdminSecretCode: string := "ADMIN123"

  datatype RegisterInput = RegisterInput(
    displayName: string,
    email: string,
    password: string,
    confirmPassword: string,
    adminCode: Option<string>)

  /** The messages of the field rules, in the order each field checks them:
      "El nombre es requerido", "El nombre debe tener al menos 2 caracteres",
      "El correo electrónico es requerido", "Dirección de correo inválida",
      "La contraseña es requerida", "La contraseña debe tener al menos 6 caracteres",
      "Confirma tu contraseña", "Las contraseñas no coinciden". */
  datatype FieldError =
    | NameRequired | NameTooShort
    | EmailRequired | EmailInvalid
    | PasswordRequired | PasswordTooShort
    | ConfirmRequired | PasswordsDiffer

  // ---------------------------------------------------------------------------
  // The e-mail pattern `^[A-Z0-9._%+-]+@[A-Z0-9.-]+\.[A-Z]{2,}$`, case-insensitive.

  predicate IsAsciiLetter(c: char)
  {
    ('a' <= c <= 'z') || ('A' <= c <= 'Z')
  }

  predicate IsAsciiDigit(c: char)
  {
    '0' <= c <= '9'
  }

  predicate IsLocalChar(c: char)
  {
    IsAsciiLetter(c) || IsAsciiDigit(c) || c == '.' || c == '_' || c == '%' || c == '+' || c == '-'
  }

  predicate IsDomainChar(c: char)
  {
    IsAsciiLetter(c) || IsAsciiDigit(c) || c == '.' || c == '-'
  }

  /** The pattern matches with the `@` at index `at` and the `\.` before the
      top-level domain at index `dot`. */
  predicate SplitsAt(s: string, at: int, dot: int)
  {
    0 < at && at + 1 < dot && dot + 3 <= |s|
    && s[at] == '@' && s[dot] == '.'
    && (forall k :: 0 <= k < at ==> IsLocalChar(s[k]))
    && (forall k :: at < k < dot ==> IsDomainChar(s[k]))
    && (forall k :: dot < k < |s| ==> IsAsciiLetter(s[k]))
  }

  /** The pattern, checked by locating the first `@` and the last `.`. */
  function MatchesEmail(s: string): (r: bool)
    ensures r <==> exists at, dot :: SplitsAt(s, at, dot)
  {
    var at := Seqs.FirstIndex(s, (c: char) => c == '@');
    var dot := Seqs.LastIndex(s, (c: char) => c == '.');
    forall at', dot' | SplitsAt(s, at', dot') ensures at' == at && dot' == dot {
      SplitIsUnique(s, at', dot', at, dot);
    }
    SplitsAt(s, at, dot)
  }

  /** The only possible split: no local or domain character is an `@`, and no
      letter is a `.`. */
  lemma SplitIsUnique(s: string, at': int, dot': int, at: int, dot: int)
    requires SplitsAt(s, at', dot')
    requires at == Seqs.FirstIndex(s, (c: char) => c == '@')
    requires dot == Seqs.LastIndex(s, (c: char) => c == '.')
    ensures at' == at && dot' == dot
  {
    var isAt := (c: char) => c == '@';
    var isDot := (c: char) => c == '.';
    assert isAt(s[at']);
    assert forall k :: 0 <= k < at' ==> !isAt(s[k]);
    assert isDot(s[dot']);
    assert forall k :: dot' < k < |s| ==> !isDot(s[k]);
  }

  // ---------------------------------------------------------------------------

  /** Required, then at least two characters. */
  function NameError(s: string): (r: Option<FieldError>)
    ensures r.None? <==> |s| >= 2
  {
    if s == "" then Some(NameRequired) else if |s| < 2 then Some(NameTooShort) else None
  }

  function EmailError(s: string): (r: Option<FieldError>)
    ensures r.None? <==> exists at, dot :: SplitsAt(s, at, dot)
  {
    if s == "" then Some(EmailRequired) else if !MatchesEmail(s) then Some(EmailInvalid) else None
  }

  /** Required, then at least six characters. */
  function PasswordError(s: string): (r: Option<FieldError>)
    ensures r.None? <==> |s| >= 6
  {
    if s == "" then Some(PasswordRequired) else if |s| < 6 then Some(PasswordTooShort) else None
  }

  /** Required, then equal to the password. */
  function ConfirmError(confirm: string, password: string): (r: Option<FieldError>)
    ensures r.None? <==> confirm != "" && confirm == password
  {
    if confirm == "" then Some(ConfirmRequired) else if confirm != password then Some(PasswordsDiffer) else None
  }

  /** The form is submitted only when every field passes. */
  predicate IsValid(form: RegisterInput)
  {
    NameError(form.displayName).None? && EmailError(form.email).None?
    && PasswordError(form.password).None? && ConfirmError(form.confirmPassword, form.password).None?
  }

  /** A valid form has a name of two characters or more, an e-mail matching the
      pattern, a password of six or more, and the same password twice. */
  lemma ValidMeans(form: RegisterInput)
    ensures IsValid(form) <==>
              |form.displayName| >= 2 && (exists at, dot :: SplitsAt(form.email, at, dot))
              && |form.password| >= 6 && form.confirmPassword == form.password
  {
  }

  // ---------------------------------------------------------------------------

  datatype RegisterReply = Registered | RegisterFailed(message: string)

  datatype Destination = AdminScreen | PaymentInstructionsScreen

  /** The registration call the form makes. */
  datatype RegisterCall = RegisterCall(email: string, password: string, displayName: string, isAdmin: bool)

  datatype Submission =
    | NotSubmitted
    | Submitted(call: RegisterCall, navigateTo: Option<Destination>, error: Option<string>, loading: bool)

  const DefaultError: string := "Error al registrarse"

  /** Submitting the form, with the reply of the authentication service. */
  function Submit(form: RegisterInput, reply: RegisterReply): (r: Submission)
    ensures r.NotSubmitted? <==> !IsValid(form)
    ensures r.Submitted? ==> r.call == RegisterCall(form.email, form.password, form.displayName, form.adminCode == Some(AdminSecretCode))
    ensures r.Submitted? ==> !r.loading
    ensures r.Submitted? ==> (r.navigateTo.Some? <==> reply == Registered) && (r.error.Some? <==> reply != Registered)
    ensures r.Submitted? && reply == Registered ==> r.navigateTo.value == if r.call.isAdmin then AdminScreen else PaymentInstructionsScreen
    ensures r.Submitted? && reply.RegisterFailed? ==> r.error.value == if reply.message != "" then reply.message else DefaultError
  {
    if !IsValid(form) then NotSubmitted
    else
      var isAdmin := form.adminCode == Some(AdminSecretCode);
      var call := RegisterCall(form.email, form.password, form.displayName, isAdmin);
      match reply
      case Registered => Submitted(call, Some(if isAdmin then AdminScreen else PaymentInstructionsScreen), None, false)
      case RegisterFailed(message) => Submitted(call, None, Some(if message != "" then message else DefaultError), false)
  }

  /** Only the exact code makes an administrator: a field never filled in, a
      different case or an extra space does not. */
  lemma AdminOnlyWithExactCode(form: RegisterInput, reply: RegisterReply)
    requires IsValid(form)
    ensures Submit(form, reply).call.isAdmin <==> form.adminCode.Some? && form.adminCode.value == AdminSecretCode
    ensures form.adminCode == Some("admin123") ==> !Submit(form, reply).call.isAdmin
    ensures form.adminCode == Some(AdminSecretCode + " ") ==> !Submit(form, reply).call.isAdmin
  {
    assert "admin123"[0] != AdminSecretCode[0];
    assert |AdminSecretCode + " "| != |AdminSecretCode|;
  }
}

=== FILE: seqs.dfy ===
/** Sequence helpers matching the JavaScript array methods the application uses:
    `findIndex`, `filter`, and the "replace the first match" idiom of the editors. */
module Seqs {

  /** `xs.findIndex(p)`: the first index whose element satisfies `p`, or -1. */
  function FirstIndex<T>(xs: seq<T>, p: T -> bool): (r: int)
    ensures -1 <= r < |xs|
    ensures 0 <= r ==> p(xs[r])
    ensures forall i :: 0 <= i < |xs| && (r < 0 || i < r) ==> !p(xs[i])
  {
    if |xs| == 0 then -1
    else if p(xs[0]) then 0
    else
      var k := FirstIndex(xs[1..], p);
      if k < 0 then -1 else k + 1
  }

  /** The index of the last element satisfying `p`, or -1. */
  function LastIndex<T>(xs: seq<T>, p: T -> bool): (r: int)
    ensures -1 <= r < |xs|
    ensures 0 <= r ==> p(xs[r])
    ensures forall i :: 0 <= i < |xs| && r < i ==> !p(xs[i])
  {
    if |xs| == 0 then -1
    else if p(xs[|xs| - 1]) then |xs| - 1
    else LastIndex(xs[..|xs| - 1], p)
  }

  /** A non-empty sequence is its prefix followed by its last element. */
  lemma InitLast<T>(xs: seq<T>)
    requires |xs| > 0
    ensures xs[..|xs| - 1] + [xs[|xs| - 1]] == xs
  {
  }

  /** `r` is `xs` with some elements left out and the others in their order. */
  ghost predicate SubsequenceOf<T>(r: seq<T>, xs: seq<T>)
    decreases |xs|
  {
    if |r| == 0 then true
    else if |xs| == 0 then false
    else if r[0] == xs[0] then SubsequenceOf(r[1..], xs[1..])
    else SubsequenceOf(r, xs[1..])
  }

  /** `xs.filter(p)`: the elements satisfying `p`, in their original order. */
  function Filter<T>(xs: seq<T>, p: T -> bool): (r: seq<T>)
    ensures |r| <= |xs|
    ensures forall i :: 0 <= i < |r| ==> r[i] in xs && p(r[i])
    ensures forall i :: 0 <= i < |xs| && p(xs[i]) ==> xs[i] in r
  {
    if |xs| == 0 then []
    else if p(xs[0]) then [xs[0]] + Filter(xs[1..], p)
    else Filter(xs[1..], p)
  }

  /** Filtering keeps the surviving elements in their original order. */
  lemma {:induction false} FilterIsSubsequence<T>(xs: seq<T>, p: T -> bool)
    ensures SubsequenceOf(Filter(xs, p), xs)
  {
    if |xs| > 0 {
      FilterIsSubsequence(xs[1..], p);
      var rest := Filter(xs[1..], p);
      if !p(xs[0]) && |rest| > 0 {
        assert p(rest[0]);
      }
    }
  }

  /** Filtering keeps each accepted value as often as `xs` holds it, and no
      rejected value at all. */
  lemma {:induction false} FilterCount<T>(xs: seq<T>, p: T -> bool, x: T)
    ensures multiset(Filter(xs, p))[x] == if p(x) then multiset(xs)[x] else 0
  {
    if |xs| > 0 {
      FilterCount(xs[1..], p, x);
      assert xs == [xs[0]] + xs[1..];
      assert multiset(xs) == multiset{xs[0]} + multiset(xs[1..]);
      if p(xs[0]) {
        assert Filter(xs, p) == [xs[0]] + Filter(xs[1..], p);
        assert multiset(Filter(xs, p)) == multiset{xs[0]} + multiset(Filter(xs[1..], p));
      }
    }
  }

  /** Two tests that agree on every element filter alike. */
  lemma {:induction false} FilterSameTest<T>(xs: seq<T>, p: T -> bool, q: T -> bool)
    requires forall i :: 0 <= i < |xs| ==> p(xs[i]) == q(xs[i])
    ensures Filter(xs, p) == Filter(xs, q)
  {
    if |xs| > 0 {
      FilterSameTest(xs[1..], p, q);
    }
  }

  /** Filtering keeps every element whose predicate holds, so it only shortens
      the list by the elements it rejects. */
  lemma {:induction false} FilterAllKept<T>(xs: seq<T>, p: T -> bool)
    requires forall i :: 0 <= i < |xs| ==> p(xs[i])
    ensures Filter(xs, p) == xs
  {
    if |xs| > 0 {
      FilterAllKept(xs[1..], p);
    }
  }

  /** Filtering a list with one element appended filters the list, then keeps or
      drops that element. */
  lemma {:induction false} FilterSnoc<T>(xs: seq<T>, x: T, p: T -> bool)
    ensures Filter(xs + [x], p) == Filter(xs, p) + (if p(x) then [x] else [])
  {
    if |xs| > 0 {
      assert (xs + [x])[0] == xs[0] && (xs + [x])[1..] == xs[1..] + [x];
      FilterSnoc(xs[1..], x, p);
    } else {
      assert xs + [x] == [x];
    }
  }

  /** Appending an element the test rejects to a list it keeps entirely, then
      filtering, gives the list back. */
  lemma FilterDropsOnlyLast<T>(xs: seq<T>, x: T, p: T -> bool)
    requires forall i :: 0 <= i < |xs| ==> p(xs[i])
    requires !p(x)
    ensures Filter(xs + [x], p) == xs
  {
    FilterSnoc(xs, x, p);
    FilterAllKept(xs, p);
    assert xs + [] == xs;
  }

  /** `xs[FirstIndex(xs, p)] = x` when some element matches, otherwise `xs` unchanged. */
  function ReplaceFirst<T>(xs: seq<T>, p: T -> bool, x: T): (r: seq<T>)
    ensures |r| == |xs|
    ensures FirstIndex(xs, p) < 0 ==> r == xs
    ensures 0 <= FirstIndex(xs, p) ==> r == xs[FirstIndex(xs, p) := x]
  {
    var k := FirstIndex(xs, p);
    if k < 0 then xs else xs[k := x]
  }
}

=== FILE: text.dfy ===
/** The JavaScript string operations the application relies on: `trim`, the `\s`
    character class, `toLowerCase`, `replace(/\s+/g, …)`, `includes`, and the
    decimal rendering of an integer inside a template literal. */
module Text {

  /** The characters `String.prototype.trim` removes and `\s` matches:
      the ECMAScript WhiteSpace and LineTerminator sets. */
  predicate IsWhitespace(c: char)
  {
    || c == '\t' || c == '\n' || c == '\U{000B}' || c == '\U{000C}' || c == '\r'
    || c == ' ' || c == '\U{00A0}' || c == '\U{1680}'
    || ('\U{2000}' <= c <= '\U{200A}')
    || c == '\U{2028}' || c == '\U{2029}' || c == '\U{202F}' || c == '\U{205F}'
    || c == '\U{3000}' || c == '\U{FEFF}'
  }

  ghost predicate AllWhitespace(s: string)
  {
    forall i :: 0 <= i < |s| ==> IsWhitespace(s[i])
  }

  /** `s.trimStart()`: drops the leading whitespace run. */
  function TrimStart(s: string): (r: string)
    ensures |r| <= |s| && r == s[|s| - |r|..]
    ensures AllWhitespace(s[..|s| - |r|])
    ensures |r| == 0 || !IsWhitespace(r[0])
  {
    if |s| > 0 && IsWhitespace(s[0]) then TrimStart(s[1..]) else s
  }

  /** `s.trimEnd()`: drops the trailing whitespace run. */
  function TrimEnd(s: string): (r: string)
    ensures |r| <= |s| && r == s[..|r|]
    ensures AllWhitespace(s[|r|..])
    ensures |r| == 0 || !IsWhitespace(r[|r| - 1])
  {
    if |s| > 0 && IsWhitespace(s[|s| - 1]) then TrimEnd(s[..|s| - 1]) else s
  }

  /** `s.trim()`: `trimStart`, then `trimEnd`; neither end of the result is
      whitespace. */
  function Trim(s: string): (r: string)
    ensures |r| <= |s|
    ensures |r| == 0 || (!IsWhitespace(r[0]) && !IsWhitespace(r[|r| - 1]))
  {
    var t := TrimStart(s);
    KeptEnds(t, TrimEnd(t));
    TrimEnd(t)
  }

  /** Trimming the end of a string whose start is not whitespace leaves both
      ends free of whitespace. */
  lemma KeptEnds(t: string, r: string)
    requires |t| == 0 || !IsWhitespace(t[0])
    requires |r| <= |t| && r == t[..|r|]
    requires |r| == 0 || !IsWhitespace(r[|r| - 1])
    ensures |r| == 0 || (!IsWhitespace(r[0]) && !IsWhitespace(r[|r| - 1]))
  {
    assert |r| > 0 ==> r[0] == t[0];
  }

  /** `trim` keeps a middle slice of `s`: only whitespace is cut off either side. */
  lemma TrimIsMiddle(s: string)
    ensures var r := Trim(s);
            exists k :: 0 <= k <= |s| - |r| && r == s[k..k + |r|] && AllWhitespace(s[..k]) && AllWhitespace(s[k + |r|..])
  {
    var t := TrimStart(s);
    MiddleSlice(s, t, TrimEnd(t));
  }

  /** Cutting a whitespace prefix, then a whitespace suffix, leaves a slice of
      `s` with whitespace on both sides. */
  lemma MiddleSlice(s: string, t: string, r: string)
    requires |t| <= |s| && t == s[|s| - |t|..] && AllWhitespace(s[..|s| - |t|])
    requires |r| <= |t| && r == t[..|r|] && AllWhitespace(t[|r|..])
    ensures exists k :: 0 <= k <= |s| - |r| && r == s[k..k + |r|] && AllWhitespace(s[..k]) && AllWhitespace(s[k + |r|..])
  {
    var k := |s| - |t|;
    assert s[k + |r|..] == t[|r|..];
    assert r == s[k..k + |r|] && AllWhitespace(s[..k]) && AllWhitespace(s[k + |r|..]);
  }

  /** `!s.trim()`: the string trims to the empty string. */
  predicate IsBlank(s: string)
  {
    Trim(s) == ""
  }

  /** A string trims to empty exactly when every character of it is whitespace. */
  lemma BlankIffAllWhitespace(s: string)
    ensures IsBlank(s) <==> AllWhitespace(s)
  {
    var t := TrimStart(s);
    if |t| > 0 {
      // the first kept character is not whitespace, in `t` and in `s` alike
      assert t[0] == s[|s| - |t|];
      assert t[0..] == t;
    } else {
      assert s[..|s|] == s;
    }
  }

  // ---------------------------------------------------------------------------

  /** The Basic Latin and Latin-1 capitals (A–Z, À–Þ except ×). */
  predicate IsUpper(c: char)
  {
    'A' <= c <= 'Z' || ('\U{00C0}' <= c <= '\U{00DE}' && c != '\U{00D7}')
  }

  /** `toLowerCase` on those capitals. */
  function LowerChar(c: char): char
  {
    if IsUpper(c) then (c as int + 32) as char else c
  }

  /** `s.toLowerCase()` on the capitals above: no capital is left, every other
      character is kept, each capital becomes the letter 32 code points above it,
      and whitespace stays exactly where it was. */
  function ToLower(s: string): (r: string)
    ensures |r| == |s|
    ensures forall i :: 0 <= i < |r| ==> !IsUpper(r[i])
    ensures forall i :: 0 <= i < |s| && !IsUpper(s[i]) ==> r[i] == s[i]
    ensures forall i :: 0 <= i < |s| && IsUpper(s[i]) ==> r[i] as int == s[i] as int + 32
    ensures forall i :: 0 <= i < |s| ==> (IsWhitespace(r[i]) <==> IsWhitespace(s[i]))
  {
    seq(|s|, i requires 0 <= i < |s| => LowerChar(s[i]))
  }

  /** `s.replace(/\s+/g, rep)`: every maximal whitespace run becomes `rep`. */
  function ReplaceWhitespaceRuns(s: string, rep: string): (r: string)
    ensures forall i :: 0 <= i < |r| ==> r[i] in s || r[i] in rep
    ensures |s| > 0 && |rep| > 0 ==> |r| > 0
    decreases |s|
  {
    if |s| == 0 then ""
    else if IsWhitespace(s[0]) then rep + ReplaceWhitespaceRuns(TrimStart(s), rep)
    else [s[0]] + ReplaceWhitespaceRuns(s[1..], rep)
  }

  /** With a whitespace-free replacement no whitespace survives. */
  lemma {:induction false} ReplaceRunsRemovesWhitespace(s: string, rep: string)
    requires forall i :: 0 <= i < |rep| ==> !IsWhitespace(rep[i])
    ensures forall i :: 0 <= i < |ReplaceWhitespaceRuns(s, rep)| ==> !IsWhitespace(ReplaceWhitespaceRuns(s, rep)[i])
    decreases |s|
  {
    if |s| > 0 {
      if IsWhitespace(s[0]) {
        ReplaceRunsRemovesWhitespace(TrimStart(s), rep);
      } else {
        ReplaceRunsRemovesWhitespace(s[1..], rep);
      }
    }
  }

  /** A string without whitespace is left as it is. */
  lemma {:induction false} ReplaceRunsIdentity(s: string, rep: string)
    requires forall i :: 0 <= i < |s| ==> !IsWhitespace(s[i])
    ensures ReplaceWhitespaceRuns(s, rep) == s
    decreases |s|
  {
    if |s| > 0 {
      ReplaceRunsIdentity(s[1..], rep);
    }
  }

  // ---------------------------------------------------------------------------

  predicate IsDigit(c: char)
  {
    '0' <= c <= '9'
  }

  function DigitChar(d: nat): (c: char)
    requires d < 10
    ensures IsDigit(c)
  {
    (48 + d) as char
  }

  /** The decimal rendering of a natural number, most significant digit first. */
  function NatToString(n: nat): (r: string)
    ensures |r| > 0
    ensures forall i :: 0 <= i < |r| ==> IsDigit(r[i])
  {
    if n < 10 then [DigitChar(n)] else NatToString(n / 10) + [DigitChar(n % 10)]
  }

  /** `${i}` for an integer-valued number. */
  function IntToString(i: int): string
  {
    if i < 0 then "-" + NatToString(-i) else NatToString(i)
  }

  /** Reads a string of decimal digits back as a number. */
  function DigitsValue(s: string): nat
    requires forall i :: 0 <= i < |s| ==> IsDigit(s[i])
  {
    if |s| == 0 then 0
    else
      var c := s[|s| - 1];
      assert IsDigit(c);
      DigitsValue(s[..|s| - 1]) * 10 + (c as int - '0' as int)
  }

  /** The decimal rendering reads back as the number it renders. */
  lemma {:induction false} NatToStringRoundTrip(n: nat)
    ensures DigitsValue(NatToString(n)) == n
  {
    if n >= 10 {
      NatToStringRoundTrip(n / 10);
      var s := NatToString(n);
      assert s[..|s| - 1] == NatToString(n / 10);
    }
  }

  // ---------------------------------------------------------------------------

  /** `sub` occurs in `s` starting at index `i`. */
  predicate OccursAt(s: string, sub: string, i: int)
  {
    0 <= i && i + |sub| <= |s| && s[i..i + |sub|] == sub
  }

  function ContainsFrom(s: string, sub: string, i: nat): (r: bool)
    requires i <= |s|
    ensures r <==> exists k :: i <= k <= |s| && OccursAt(s, sub, k)
    decreases |s| - i
  {
    if OccursAt(s, sub, i) then true
    else if i == |s| then false
    else ContainsFrom(s, sub, i + 1)
  }

  /** `s.includes(sub)`. */
  function Contains(s: string, sub: string): (r: bool)
    ensures r <==> exists k :: 0 <= k <= |s| && OccursAt(s, sub, k)
  {
    ContainsFrom(s, sub, 0)
  }
}

=== FILE: types.dfy ===
/** The records of the course platform. A course holds an ordered list of modules,
    a module an ordered list of lessons, a lesson an optional list of resources.
    A learner has a profile (`User`) and one progress record holding a flat,
    cross-course list of completed lesson ids. Timestamps are milliseconds. */
module Types {

  datatype Option<+T> = None | Some(value: T)

  /** JavaScript truthiness of an optional string: present and not empty. */
  predicate Truthy(o: Option<string>)
  {
    o.Some? && o.value != ""
  }

  /** JavaScript truthiness of an optional list used as `xs && xs.length > 0`. */
  predicate NonEmptyList<T>(o: Option<seq<T>>)
  {
    o.Some? && |o.value| > 0
  }

  /** The reply of the document store to one write. */
  datatype StoreReply = Ack | Failed

  datatype ResourceKind = Link | File

  datatype Resource = Resource(id: string, title: string, url: string, kind: ResourceKind, size: Option<string>)

  datatype Lesson = Lesson(
    id: string,
    title: string,
    description: string,
    videoUrl: string,
    order: int,
    duration: real,
    resources: Option<seq<Resource>>)

  datatype Module = Module(id: string, title: string, description: string, order: int, lessons: seq<Lesson>)

  datatype Course = Course(
    id: string,
    title: string,
    description: string,
    previewImageUrl: Option<string>,
    telegramUrl: Option<string>,
    modules: seq<Module>,
    createdAt: int,
    updatedAt: int,
    highlights: Option<seq<string>>,
    requirements: Option<seq<string>>,
    targetAudience: Option<seq<string>>)

  /** A learner's or administrator's profile document. */
  datatype User = User(id: string, email: string, displayName: string, isAdmin: bool, hasAccess: bool, createdAt: int)

  /** The progress record as the application builds it: no course id, one flat
      list of completed lesson ids for every course. */
  datatype Progress = Progress(userId: string, completedLessons: seq<string>, lastAccessedAt: int, certificateGenerated: bool)

  /** `userData?.hasAccess || false`: a missing profile has no access. */
  function HasAccess(profile: Option<User>): (r: bool)
    ensures r ==> profile.Some?
    ensures profile.Some? ==> r == profile.value.hasAccess
  {
    profile.Some? && profile.value.hasAccess
  }

  /** `userData?.isAdmin`: a missing profile is not an administrator. */
  function IsAdmin(profile: Option<User>): (r: bool)
    ensures r ==> profile.Some?
    ensures profile.Some? ==> r == profile.value.isAdmin
  {
    profile.Some? && profile.value.isAdmin
  }

  // ---------------------------------------------------------------------------
  // The lesson tree of a course, flattened and totalled.

  /** Every lesson of the course, module by module, in display order. */
  function AllLessons(ms: seq<Module>): (r: seq<Lesson>)
    ensures forall l :: l in r <==> exists m :: m in ms && l in m.lessons
  {
    if |ms| == 0 then [] else ms[0].lessons + AllLessons(ms[1..])
  }

  /** `modules.reduce((t, m) => t + m.lessons.length, 0)`. */
  function TotalLessons(ms: seq<Module>): nat
  {
    if |ms| == 0 then 0 else |ms[0].lessons| + TotalLessons(ms[1..])
  }

  /** The per-module lesson counts add up to the number of lessons in the flattened tree. */
  lemma {:induction false} TotalLessonsCountsAll(ms: seq<Module>)
    ensures TotalLessons(ms) == |AllLessons(ms)|
  {
    if |ms| > 0 {
      TotalLessonsCountsAll(ms[1..]);
    }
  }

  /** `lessons.reduce((t, l) => t + l.duration, 0)`. */
  function SumDurations(ls: seq<Lesson>): real
  {
    if |ls| == 0 then 0.0 else ls[0].duration + SumDurations(ls[1..])
  }

  /** The nested reduce over modules, then lessons. */
  function TotalDuration(ms: seq<Module>): real
  {
    if |ms| == 0 then 0.0 else SumDurations(ms[0].lessons) + TotalDuration(ms[1..])
  }

  lemma {:induction false} SumDurationsAppend(a: seq<Lesson>, b: seq<Lesson>)
    ensures SumDurations(a + b) == SumDurations(a) + SumDurations(b)
  {
    if |a| > 0 {
      assert (a + b)[0] == a[0] && (a + b)[1..] == a[1..] + b;
      SumDurationsAppend(a[1..], b);
    } else {
      assert a + b == b;
    }
  }

  /** The nested duration sum equals the sum over every lesson of the flattened tree. */
  lemma {:induction false} TotalDurationSumsAll(ms: seq<Module>)
    ensures TotalDuration(ms) == SumDurations(AllLessons(ms))
  {
    if |ms| > 0 {
      TotalDurationSumsAll(ms[1..]);
      SumDurationsAppend(ms[0].lessons, AllLessons(ms[1..]));
    }
  }

  // ---------------------------------------------------------------------------
  // Counting completed lessons against the flat list of completed ids.

  /** `lessons.filter(l => done.includes(l.id)).length`. */
  function CountCompleted(ls: seq<Lesson>, done: seq<string>): (r: nat)
    ensures r <= |ls|
    ensures r == |ls| <==> forall i :: 0 <= i < |ls| ==> ls[i].id in done
  {
    if |ls| == 0 then 0
    else (if ls[0].id in done then 1 else 0) + CountCompleted(ls[1..], done)
  }

  /** The course-wide completed count: the per-module counts summed. */
  function CompletedInCourse(ms: seq<Module>, done: seq<string>): nat
  {
    if |ms| == 0 then 0 else CountCompleted(ms[0].lessons, done) + CompletedInCourse(ms[1..], done)
  }

  lemma {:induction false} CountCompletedAppend(a: seq<Lesson>, b: seq<Lesson>, done: seq<string>)
    ensures CountCompleted(a + b, done) == CountCompleted(a, done) + CountCompleted(b, done)
  {
    if |a| > 0 {
      assert (a + b)[0] == a[0] && (a + b)[1..] == a[1..] + b;
      CountCompletedAppend(a[1..], b, done);
    } else {
      assert a + b == b;
    }
  }

  /** The module-by-module count equals counting over the flattened tree. */
  lemma {:induction false} CompletedInCourseIsFlatCount(ms: seq<Module>, done: seq<string>)
    ensures CompletedInCourse(ms, done) == CountCompleted(AllLessons(ms), done)
  {
    if |ms| > 0 {
      CompletedInCourseIsFlatCount(ms[1..], done);
      CountCompletedAppend(ms[0].lessons, AllLessons(ms[1..]), done);
    }
  }

  /** Every lesson of the course has its id in the completed list. */
  ghost predicate AllCompleted(ms: seq<Module>, done: seq<string>)
  {
    forall l :: l in AllLessons(ms) ==> l.id in done
  }

  /** The completed count never exceeds the total, and reaches it exactly when
      every lesson of the course is completed. */
  lemma CompletedInCourseBounds(ms: seq<Module>, done: seq<string>)
    ensures CompletedInCourse(ms, done) <= TotalLessons(ms)
    ensures CompletedInCourse(ms, done) == TotalLessons(ms) <==> AllCompleted(ms, done)
  {
    CompletedInCourseIsFlatCount(ms, done);
    TotalLessonsCountsAll(ms);
    var flat := AllLessons(ms);
    if CountCompleted(flat, done) == |flat| {
      forall l | l in flat ensures l.id in done {
        var i :| 0 <= i < |flat| && flat[i] == l;
      }
    }
  }

  /** Counting only looks at which ids are present: a list containing at least
      the ids of another never yields a smaller count. */
  lemma {:induction false} CountCompletedMonotone(ls: seq<Lesson>, d1: seq<string>, d2: seq<string>)
    requires forall x :: x in d1 ==> x in d2
    ensures CountCompleted(ls, d1) <= CountCompleted(ls, d2)
  {
    if |ls| > 0 {
      CountCompletedMonotone(ls[1..], d1, d2);
    }
  }

  lemma {:induction false} CompletedInCourseMonotone(ms: seq<Module>, d1: seq<string>, d2: seq<string>)
    requires forall x :: x in d1 ==> x in d2
    ensures CompletedInCourse(ms, d1) <= CompletedInCourse(ms, d2)
  {
    if |ms| > 0 {
      CountCompletedMonotone(ms[0].lessons, d1, d2);
      CompletedInCourseMonotone(ms[1..], d1, d2);
    }
  }

  /** Ids that name no lesson of the course (other courses' lessons, deleted
      lessons) do not change the count. */
  lemma {:induction false} CountCompletedIgnoresForeign(ls: seq<Lesson>, d1: seq<string>, d2: seq<string>)
    requires forall i :: 0 <= i < |ls| ==> (ls[i].id in d1 <==> ls[i].id in d2)
    ensures CountCompleted(ls, d1) == CountCompleted(ls, d2)
  {
    if |ls| > 0 {
      CountCompletedIgnoresForeign(ls[1..], d1, d2);
    }
  }

  lemma {:induction false} CompletedInCourseIgnoresForeign(ms: seq<Module>, d1: seq<string>, d2: seq<string>)
    requires forall l :: l in AllLessons(ms) ==> (l.id in d1 <==> l.id in d2)
    ensures CompletedInCourse(ms, d1) == CompletedInCourse(ms, d2)
  {
    if |ms| > 0 {
      assert forall i :: 0 <= i < |ms[0].lessons| ==> ms[0].lessons[i] in AllLessons(ms);
      CountCompletedIgnoresForeign(ms[0].lessons, d1, d2);
      CompletedInCourseIgnoresForeign(ms[1..], d1, d2);
    }
  }

  // ---------------------------------------------------------------------------
  // Records holding only a course's own lessons, each once.

  ghost predicate DistinctLessonIds(ls: seq<Lesson>)
  {
    forall i, j :: 0 <= i < j < |ls| ==> ls[i].id != ls[j].id
  }

  ghost predicate NoRepeats(done: seq<string>)
  {
    forall i, j :: 0 <= i < j < |done| ==> done[i] != done[j]
  }

  /** The ids the lessons carry. */
  function IdsOf(ls: seq<Lesson>): set<string>
  {
    set i | 0 <= i < |ls| :: ls[i].id
  }

  /** Every id of the list names one of the lessons. */
  ghost predicate OnlyIdsOf(done: seq<string>, ls: seq<Lesson>)
  {
    forall k :: 0 <= k < |done| ==> done[k] in IdsOf(ls)
  }

  /** Without its entry at `j` a list without repeats holds exactly its other values. */
  lemma RemoveAtMembers(done: seq<string>, j: nat, x: string)
    requires j < |done| && NoRepeats(done)
    ensures var rest := done[..j] + done[j + 1..];
            |rest| == |done| - 1 && NoRepeats(rest)
            && (x in rest <==> x in done && x != done[j])
  {
    var rest := done[..j] + done[j + 1..];
    assert forall k :: 0 <= k < |rest| ==> rest[k] == done[if k < j then k else k + 1];
    if x in done && x != done[j] {
      var k :| 0 <= k < |done| && done[k] == x;
      assert rest[if k < j then k else k - 1] == x;
    }
  }

  /** No lesson, no id to name. */
  lemma EmptyHasNoIds(done: seq<string>, ls: seq<Lesson>)
    requires OnlyIdsOf(done, ls)
    ensures |ls| == 0 ==> |done| == 0
  {
    assert |done| > 0 ==> done[0] in IdsOf(ls);
  }

  /** A list without repeats naming only lessons of a list with distinct ids
      counts each of its entries once: the count is its length. */
  lemma {:induction false} CountCompletedOfOwnIds(ls: seq<Lesson>, done: seq<string>)
    requires DistinctLessonIds(ls) && NoRepeats(done) && OnlyIdsOf(done, ls)
    ensures CountCompleted(ls, done) == |done|
    decreases |ls|
  {
    EmptyHasNoIds(done, ls);
    if |ls| > 0 {
      var tail := ls[1..];
      assert forall i :: 0 <= i < |tail| ==> tail[i] == ls[i + 1];
      assert DistinctLessonIds(tail);
      if ls[0].id in done {
        var j :| 0 <= j < |done| && done[j] == ls[0].id;
        var rest := done[..j] + done[j + 1..];
        RemoveAtMembers(done, j, ls[0].id);
        forall k | 0 <= k < |rest| ensures rest[k] in IdsOf(tail) {
          RemoveAtMembers(done, j, rest[k]);
          var k' :| 0 <= k' < |done| && done[k'] == rest[k];
          var i :| 0 <= i < |ls| && ls[i].id == done[k'];
          assert i != 0;
          assert tail[i - 1].id == rest[k];
        }
        assert OnlyIdsOf(rest, tail);
        CountCompletedOfOwnIds(tail, rest);
        forall i | 0 <= i < |tail| ensures tail[i].id in done <==> tail[i].id in rest {
          RemoveAtMembers(done, j, tail[i].id);
          assert ls[0].id != ls[i + 1].id;
        }
        CountCompletedIgnoresForeign(tail, done, rest);
      } else {
        forall k | 0 <= k < |done| ensures done[k] in IdsOf(tail) {
          var i :| 0 <= i < |ls| && ls[i].id == done[k];
          assert i != 0;
          assert tail[i - 1].id == done[k];
        }
        assert OnlyIdsOf(done, tail);
        CountCompletedOfOwnIds(tail, done);
      }
    }
  }
}

=== FILE: user_list.dfy ===
/** The administrator's list of learners, with a button per learner that grants
    or revokes access. */
module UserList {

  import opened Types
  import Seqs

  /** The profiles read from the store, without the administrators. */
  function ListedUsers(profiles: seq<User>): (r: seq<User>)
    ensures |r| <= |profiles|
    ensures forall i :: 0 <= i < |r| ==> !r[i].isAdmin && r[i] in profiles
    ensures forall i :: 0 <= i < |profiles| && !profiles[i].isAdmin ==> profiles[i] in r
    ensures Seqs.SubsequenceOf(r, profiles)
    ensures forall u :: multiset(r)[u] == if !u.isAdmin then multiset(profiles)[u] else 0
  {
    var notAdmin := (u: User) => !u.isAdmin;
    Seqs.FilterIsSubsequence(profiles, notAdmin);
    forall u ensures multiset(Seqs.Filter(profiles, notAdmin))[u] == if !u.isAdmin then multiset(profiles)[u] else 0 {
      Seqs.FilterCount(profiles, notAdmin, u);
    }
    Seqs.Filter(profiles, notAdmin)
  }

  /** The outcome of one toggle: the store write it issues, the list afterwards,
      and the `updating` marker while the write runs and once it has settled. */
  datatype Toggle = Toggle(write: (string, bool), users: seq<User>, updatingWhileWriting: Option<string>, updatingAfter: Option<string>)

  /** Sets `hasAccess` to the negation of `currentAccess` on every listed user
      with the id, once the store accepts the write. */
  function ToggleAccess(users: seq<User>, userId: string, currentAccess: bool, reply: StoreReply): (r: Toggle)
    ensures r.write == (userId, !currentAccess)
    ensures |r.users| == |users|
    ensures reply == Failed ==> r.users == users
    ensures reply == Ack ==> forall i :: 0 <= i < |users| ==>
              r.users[i] == if users[i].id == userId then users[i].(hasAccess := !currentAccess) else users[i]
    ensures r.updatingWhileWriting == Some(userId) && r.updatingAfter.None?
  {
    var updated := if reply == Ack then
      seq(|users|, i requires 0 <= i < |users| =>
        if users[i].id == userId then users[i].(hasAccess := !currentAccess) else users[i])
    else users;
    Toggle((userId, !currentAccess), updated, Some(userId), None)
  }

  ghost predicate UniqueIds(users: seq<User>)
  {
    forall i, j :: 0 <= i < j < |users| ==> users[i].id != users[j].id
  }

  /** The button of the learner at index `k`: toggles with that learner's id and
      current access. */
  function ClickToggle(users: seq<User>, k: nat, reply: StoreReply): (r: Toggle)
    requires k < |users|
    ensures UniqueIds(users) && reply == Ack ==> r.users == users[k := users[k].(hasAccess := !users[k].hasAccess)]
    ensures reply == Failed ==> r.users == users
  {
    var r := ToggleAccess(users, users[k].id, users[k].hasAccess, reply);
    assert UniqueIds(users) ==> forall i :: 0 <= i < |users| && i != k ==> users[i].id != users[k].id;
    r
  }

  /** Clicking the same learner's button twice, both writes accepted, restores the
      list. */
  lemma ToggleTwiceRestores(users: seq<User>, k: nat)
    requires k < |users| && UniqueIds(users)
    ensures ClickToggle(ClickToggle(users, k, Ack).users, k, Ack).users == users
  {
    var once := ClickToggle(users, k, Ack).users;
    assert forall i :: 0 <= i < |once| ==> once[i].id == users[i].id;
    assert UniqueIds(once);
    var twice := ClickToggle(once, k, Ack).users;
    assert twice[k] == users[k];
  }

  /** A toggle changes no field other than `hasAccess`, so the list still holds
      no administrator. */
  lemma ToggleKeepsOutAdministrators(users: seq<User>, userId: string, currentAccess: bool, reply: StoreReply)
    requires forall i :: 0 <= i < |users| ==> !users[i].isAdmin
    ensures var r := ToggleAccess(users, userId, currentAccess, reply).users;
            forall i :: 0 <= i < |r| ==> !r[i].isAdmin && r[i].id == users[i].id && r[i].email == users[i].email
                                         && r[i].displayName == users[i].displayName && r[i].createdAt == users[i].createdAt
  {
  }

  datatype ButtonLabel = Updating | RevokeAccess | GrantAccess

  /** A learner's row: the access badge, the button label, and whether the button
      is disabled. */
  datatype UserRow = UserRow(granted: bool, buttonLabel: ButtonLabel, disabled: bool)

  function RenderRow(u: User, updating: Option<string>): (r: UserRow)
    ensures r.granted <==> u.hasAccess
    ensures r.disabled <==> updating == Some(u.id)
    ensures r.buttonLabel == Updating <==> r.disabled
    ensures !r.disabled ==> (r.buttonLabel == RevokeAccess <==> u.hasAccess)
  {
    var busy := updating == Some(u.id);
    UserRow(u.hasAccess, if busy then Updating else if u.hasAccess then RevokeAccess else GrantAccess, busy)
  }

  /** While a write is running the toggled learner's button is disabled, and once
      it settles, successfully or not, every button is enabled again. */
  lemma ButtonDisabledOnlyWhileWriting(users: seq<User>, userId: string, currentAccess: bool, reply: StoreReply, u: User)
    ensures var t := ToggleAccess(users, userId, currentAccess, reply);
            (RenderRow(u, t.updatingWhileWriting).disabled <==> u.id == userId)
            && !RenderRow(u, t.updatingAfter).disabled
  {
  }
}

=== FILE: video_helpers.dfy ===
/** YouTube video references. An id is found by the regular expression
    `(?:youtube\.com\/watch\?v=|youtu\.be\/|youtube\.com\/embed\/)([^&?/]+)`:
    the leftmost position where one of three markers is followed by at least one
    character other than `&`, `?` and `/`, and the id is the longest such run.
    The second pattern, `^[a-zA-Z0-9_-]{11}$`, has no capture group, so its match
    never yields an id. */
module VideoHelpers {

  import opened Types
  import Text

  const WatchMarker: string := "youtube.com/watch?v="
  const ShortMarker: string := "youtu.be/"
  const EmbedMarker: string := "youtube.com/embed/"

  /** The address every embed URL starts with. */
  const EmbedBase: string := "https://www.youtube.com/embed/"

  /** `[^&?/]`. */
  predicate IsIdChar(c: char)
  {
    c != '&' && c != '?' && c != '/'
  }

  /** `[a-zA-Z0-9_-]`, the alphabet of a bare 11-character id. */
  predicate IsBareIdChar(c: char)
  {
    ('a' <= c <= 'z') || ('A' <= c <= 'Z') || ('0' <= c <= '9') || c == '_' || c == '-'
  }

  /** The length of the marker alternative occurring at index `i`, tried in the
      pattern's order, or 0 when none occurs there. */
  function MarkerAt(s: string, i: nat): nat
  {
    if Text.OccursAt(s, WatchMarker, i) then |WatchMarker|
    else if Text.OccursAt(s, ShortMarker, i) then |ShortMarker|
    else if Text.OccursAt(s, EmbedMarker, i) then |EmbedMarker|
    else 0
  }

  /** At most one marker alternative can occur at any index, so the order in which
      the alternation tries them, and its backtracking between them, never matters. */
  lemma MarkersExclusive(s: string, i: nat)
    ensures !(Text.OccursAt(s, WatchMarker, i) && Text.OccursAt(s, ShortMarker, i))
    ensures !(Text.OccursAt(s, WatchMarker, i) && Text.OccursAt(s, EmbedMarker, i))
    ensures !(Text.OccursAt(s, ShortMarker, i) && Text.OccursAt(s, EmbedMarker, i))
  {
    assert WatchMarker[5] == 'b' && ShortMarker[5] == '.' && EmbedMarker[5] == 'b';
    assert WatchMarker[12] == 'w' && EmbedMarker[12] == 'e';
    OccursAtChar(s, WatchMarker, i, 5);
    OccursAtChar(s, ShortMarker, i, 5);
    OccursAtChar(s, EmbedMarker, i, 5);
    OccursAtChar(s, WatchMarker, i, 12);
    OccursAtChar(s, EmbedMarker, i, 12);
  }

  /** The whole first pattern matches with its marker starting at index `i`. */
  predicate MatchAt(s: string, i: nat)
  {
    var n := MarkerAt(s, i);
    n > 0 && i + n < |s| && IsIdChar(s[i + n])
  }

  /** `([^&?/]+)` taken greedily from index `j`: the longest run of id characters. */
  function IdRun(s: string, j: nat): (r: string)
    requires j <= |s|
    ensures j + |r| <= |s| && r == s[j..j + |r|]
    ensures forall k :: 0 <= k < |r| ==> IsIdChar(r[k])
    ensures j + |r| == |s| || !IsIdChar(s[j + |r|])
    decreases |s| - j
  {
    if j < |s| && IsIdChar(s[j]) then [s[j]] + IdRun(s, j + 1) else ""
  }

  /** The id captured by a match whose marker starts at `i`. */
  function Captured(s: string, i: nat): string
    requires MatchAt(s, i)
  {
    IdRun(s, i + MarkerAt(s, i))
  }

  /** The search of `String.prototype.match`, scanning start positions from `i`. */
  function ExtractFrom(s: string, i: nat): (r: Option<string>)
    requires i <= |s|
    ensures r.None? <==> forall k :: i <= k < |s| ==> !MatchAt(s, k)
    ensures r.Some? ==> exists k :: i <= k < |s| && MatchAt(s, k) && r.value == Captured(s, k)
                          && forall j :: i <= j < k ==> !MatchAt(s, j)
    decreases |s| - i
  {
    if i == |s| then None
    else if MatchAt(s, i) then Some(Captured(s, i))
    else ExtractFrom(s, i + 1)
  }

  /** `extractYouTubeVideoId`: the id after the leftmost marker that is followed by
      an id character, or None. */
  function ExtractYouTubeVideoId(url: string): (r: Option<string>)
    ensures r.None? <==> forall k :: 0 <= k < |url| ==> !MatchAt(url, k)
    ensures r.Some? ==> |r.value| > 0 && forall k :: 0 <= k < |r.value| ==> IsIdChar(r.value[k])
    ensures r.Some? ==> exists k :: 0 <= k < |url| && MatchAt(url, k) && r.value == Captured(url, k)
                          && forall j :: 0 <= j < k ==> !MatchAt(url, j)
  {
    var r := ExtractFrom(url, 0);
    if r.Some? then
      var k :| 0 <= k < |url| && MatchAt(url, k) && r.value == Captured(url, k);
      assert Captured(url, k)[0] == url[k + MarkerAt(url, k)];
      r
    else r
  }

  /** The leftmost match decides the id: once a match at `k` has no match before
      it, the extracted id is the one captured at `k`. */
  lemma ExtractAtLeftmost(url: string, k: nat)
    requires k < |url| && MatchAt(url, k)
    requires forall j :: 0 <= j < k ==> !MatchAt(url, j)
    ensures ExtractYouTubeVideoId(url) == Some(Captured(url, k))
  {
    var r := ExtractYouTubeVideoId(url);
    var k' :| 0 <= k' < |url| && MatchAt(url, k') && r.value == Captured(url, k')
              && forall j :: 0 <= j < k' ==> !MatchAt(url, j);
    assert k' == k;
  }

  /** `validateYouTubeUrl`: some marker in the URL is followed by an id character. */
  function ValidateYouTubeUrl(url: string): (r: bool)
    ensures r <==> exists k :: 0 <= k < |url| && MatchAt(url, k)
    ensures r <==> ExtractYouTubeVideoId(url).Some?
  {
    ExtractYouTubeVideoId(url).Some?
  }

  /** `getYouTubeEmbedUrl`: the embed address of the extracted id, or "" when
      there is none. */
  function GetYouTubeEmbedUrl(url: string): (r: string)
    ensures r == "" <==> !ValidateYouTubeUrl(url)
    ensures r != "" ==> |r| > |EmbedBase| && r[..|EmbedBase|] == EmbedBase
  {
    match ExtractYouTubeVideoId(url)
    case Some(id) => EmbedBase + id
    case None => ""
  }

  // ---------------------------------------------------------------------------

  /** Where `m` occurs at `i`, its `d`-th character stands at `i + d`. */
  lemma OccursAtChar(s: string, m: string, i: nat, d: nat)
    requires d < |m|
    ensures Text.OccursAt(s, m, i) ==> i + d < |s| && s[i + d] == m[d]
  {
    if Text.OccursAt(s, m, i) {
      assert s[i..i + |m|][d] == s[i + d];
    }
  }

  /** Every marker begins with `y`. */
  lemma NoMarkerWithoutY(s: string, i: nat)
    requires i < |s| && s[i] != 'y'
    ensures MarkerAt(s, i) == 0
  {
    OccursAtChar(s, WatchMarker, i, 0);
    OccursAtChar(s, ShortMarker, i, 0);
    OccursAtChar(s, EmbedMarker, i, 0);
  }

  /** Every marker contains a `.`, so no marker occurs in a text without one. */
  lemma NoDotNoMarker(s: string, i: nat)
    requires forall k :: 0 <= k < |s| ==> s[k] != '.'
    ensures MarkerAt(s, i) == 0
  {
    assert WatchMarker[7] == '.' && ShortMarker[5] == '.' && EmbedMarker[7] == '.';
    OccursAtChar(s, WatchMarker, i, 7);
    OccursAtChar(s, ShortMarker, i, 5);
    OccursAtChar(s, EmbedMarker, i, 7);
  }

  /** A URL without any `.` yields no id. */
  lemma NoDotNoId(url: string)
    requires forall k :: 0 <= k < |url| ==> url[k] != '.'
    ensures ExtractYouTubeVideoId(url) == None
  {
    forall k | 0 <= k < |url| ensures !MatchAt(url, k) {
      NoDotNoMarker(url, k);
    }
  }

  /** A bare 11-character id such as `dQw4w9WgXcQ` is never accepted: the pattern
      meant for it has no capture group, and the first pattern needs a marker. */
  lemma BareIdIsRejected(url: string)
    requires |url| == 11
    requires forall k :: 0 <= k < |url| ==> IsBareIdChar(url[k])
    ensures ExtractYouTubeVideoId(url) == None
    ensures !ValidateYouTubeUrl(url)
  {
    NoDotNoId(url);
  }

  /** Extracting from an embed address gives back the id it was built from. */
  lemma ExtractFromEmbedAddress(id: string)
    requires |id| > 0 && forall k :: 0 <= k < |id| ==> IsIdChar(id[k])
    ensures ExtractYouTubeVideoId(EmbedBase + id) == Some(id)
  {
    var s := EmbedBase + id;
    assert 'y' !in EmbedBase[..12];
    forall j | 0 <= j < 12 ensures !MatchAt(s, j) {
      assert s[j] == EmbedBase[..12][j];
      NoMarkerWithoutY(s, j);
    }
    assert s[24] == 'e' && s[17] == 'b';
    OccursAtChar(s, WatchMarker, 12, 12);
    OccursAtChar(s, ShortMarker, 12, 5);
    assert s[12..30] == EmbedMarker;
    assert MarkerAt(s, 12) == 18;
    assert s[30] == id[0];
    assert MatchAt(s, 12);
    var run := IdRun(s, 30);
    forall k | 30 <= k < |s| ensures IsIdChar(s[k]) {
      assert s[k] == id[k - 30];
    }
    assert |run| == |id|;
    assert run == s[30..] == id;
    ExtractAtLeftmost(s, 12);
  }

  /** Round trip: the embed address of a valid URL carries the same id, so building
      the embed address twice changes nothing. */
  lemma EmbedRoundTrip(url: string)
    requires ValidateYouTubeUrl(url)
    ensures ExtractYouTubeVideoId(GetYouTubeEmbedUrl(url)) == ExtractYouTubeVideoId(url)
    ensures GetYouTubeEmbedUrl(GetYouTubeEmbedUrl(url)) == GetYouTubeEmbedUrl(url)
  {
    ExtractFromEmbedAddress(ExtractYouTubeVideoId(url).value);
  }

  /** No match starts inside a leading "https://www.". */
  lemma NoMatchInPrefix(s: string, www: string)
    requires www == "https://www." && |s| >= 12 && s[..12] == www
    ensures forall j :: 0 <= j < 12 ==> !MatchAt(s, j)
  {
    assert 'y' !in www;
    forall j | 0 <= j < 12 ensures !MatchAt(s, j) {
      assert s[j] == www[j];
      NoMarkerWithoutY(s, j);
    }
  }

  /** A watch address yields the id between `v=` and the next `&`, `?` or `/`
      (or the end), whatever query parameters follow. */
  lemma ExtractFromWatchAddress(id: string, rest: string)
    requires |id| > 0 && forall k :: 0 <= k < |id| ==> IsIdChar(id[k])
    requires |rest| == 0 || !IsIdChar(rest[0])
    ensures ExtractYouTubeVideoId("https://www." + WatchMarker + id + rest) == Some(id)
  {
    var www := "https://www.";
    var s := www + WatchMarker + id + rest;
    assert s[..12] == www && s[12..32] == WatchMarker && s[32..32 + |id|] == id;
    assert 32 + |id| == |s| || s[32 + |id|] == rest[0];
    WatchTextYieldsId(s, id);
  }

  /** The same, read off the positions of a text laid out as a watch address. */
  lemma WatchTextYieldsId(s: string, id: string)
    requires |id| > 0 && forall k :: 0 <= k < |id| ==> IsIdChar(id[k])
    requires 32 + |id| <= |s| && s[..12] == "https://www." && s[12..32] == WatchMarker && s[32..32 + |id|] == id
    requires 32 + |id| == |s| || !IsIdChar(s[32 + |id|])
    ensures ExtractYouTubeVideoId(s) == Some(id)
  {
    NoMatchInPrefix(s, "https://www.");
    assert Text.OccursAt(s, WatchMarker, 12);
    assert MarkerAt(s, 12) == 20;
    assert s[32] == id[0];
    assert MatchAt(s, 12);
    RunOfId(s, 32, id);
    assert Captured(s, 12) == id;
    ExtractAtLeftmost(s, 12);
  }

  /** The greedy run at `j` is exactly a run of id characters that sits there and
      ends at the end of the text or before another character. */
  lemma {:induction false} RunOfId(s: string, j: nat, id: string)
    requires j + |id| <= |s| && s[j..j + |id|] == id
    requires forall k :: 0 <= k < |id| ==> IsIdChar(id[k])
    requires j + |id| == |s| || !IsIdChar(s[j + |id|])
    ensures IdRun(s, j) == id
    decreases |id|
  {
    if |id| > 0 {
      assert s[j] == id[0];
      assert s[j + 1..j + 1 + |id[1..]|] == id[1..];
      RunOfId(s, j + 1, id[1..]);
    }
  }
}

=== FILE: video_player.dfy ===
/** The lesson player: a locked panel for content the learner may not see,
    otherwise the embedded video with a completion button, the lesson's resources
    and, without access, a notice that this is a sample lesson. The player keeps
    one piece of state, whether it has already reported the lesson completed. */
module VideoPlayer {

  import opened Types
  import Text
  import VideoHelpers

  const PreviewWord: string := "preview"

  /** The locked panel replaces the player when the learner lacks access and the
      video address does not contain the word `preview`. */
  function ShowsLockedView(lesson: Lesson, hasAccess: bool): (r: bool)
    ensures r <==> !hasAccess && forall k :: 0 <= k <= |lesson.videoUrl| ==> !Text.OccursAt(lesson.videoUrl, PreviewWord, k)
  {
    !hasAccess && !Text.Contains(lesson.videoUrl, PreviewWord)
  }

  datatype ButtonLabel = MarkAsCompleted | CompletedLabel

  datatype View =
    | LockedView
    | PlayerView(button: Option<ButtonLabel>, showsResources: bool, showsSampleNotice: bool)

  /** What the player renders for a lesson. */
  function Render(lesson: Lesson, hasAccess: bool, completed: bool): (v: View)
    ensures v == LockedView <==> ShowsLockedView(lesson, hasAccess)
    ensures v.PlayerView? ==> (v.button.Some? <==> hasAccess)
    ensures v.PlayerView? && hasAccess ==> (v.button == Some(CompletedLabel) <==> completed)
    ensures v.PlayerView? ==> (v.showsResources <==> NonEmptyList(lesson.resources))
    ensures v.PlayerView? ==> (v.showsSampleNotice <==> !hasAccess)
  {
    if ShowsLockedView(lesson, hasAccess) then LockedView
    else
      var button := if hasAccess then Some(if completed then CompletedLabel else MarkAsCompleted) else None;
      PlayerView(button, NonEmptyList(lesson.resources), !hasAccess)
  }

  /** A learner without access sees the player, not the lock, only for a video
      whose address mentions `preview`; a learner with access always sees it. */
  lemma LockDependsOnlyOnAddress(lesson: Lesson)
    ensures Render(lesson, true, false).PlayerView?
    ensures Render(lesson, false, false).PlayerView? <==> Text.Contains(lesson.videoUrl, PreviewWord)
  {
  }

  /** An address without the letter `r` cannot contain `preview`, so without
      access it is always locked: every standard watch, short or embed address
      whose id has no `r` falls under this. */
  lemma NoRMeansLocked(lesson: Lesson)
    requires forall k :: 0 <= k < |lesson.videoUrl| ==> lesson.videoUrl[k] != 'r'
    ensures Render(lesson, false, false) == LockedView
  {
    forall k | 0 <= k <= |lesson.videoUrl| ensures !Text.OccursAt(lesson.videoUrl, PreviewWord, k) {
      VideoHelpers.OccursAtChar(lesson.videoUrl, PreviewWord, k, 1);
    }
  }

  // ---------------------------------------------------------------------------
  // Reporting completion.

  datatype Event = VideoEnded | ButtonClicked

  /** The player's completed flag and how often each path called the completion
      callback. */
  datatype PlayerState = PlayerState(completed: bool, endReports: nat, clickReports: nat)

  /** One event. The end of the video reports completion when the learner has
      access, a callback exists and nothing was reported yet, and then sets the
      flag. The button exists only with access; a click reports while the flag is
      unset and leaves the flag as it is. */
  function Handle(s: PlayerState, e: Event, hasAccess: bool, hasCallback: bool): (r: PlayerState)
    ensures r.completed <==> s.completed || (e == VideoEnded && hasAccess && hasCallback)
    ensures r.endReports == s.endReports + (if e == VideoEnded && hasAccess && hasCallback && !s.completed then 1 else 0)
    ensures r.clickReports == s.clickReports + (if e == ButtonClicked && hasAccess && hasCallback && !s.completed then 1 else 0)
  {
    match e
    case VideoEnded =>
      if hasAccess && hasCallback && !s.completed then s.(completed := true, endReports := s.endReports + 1) else s
    case ButtonClicked =>
      if hasAccess && !s.completed && hasCallback then s.(clickReports := s.clickReports + 1) else s
  }

  /** A sequence of events on one mounted player. */
  function Run(s: PlayerState, events: seq<Event>, hasAccess: bool, hasCallback: bool): (r: PlayerState)
    ensures s.completed ==> r.completed
    ensures s.endReports <= r.endReports && s.clickReports <= r.clickReports
    ensures r.clickReports <= s.clickReports + |events|
    decreases |events|
  {
    if |events| == 0 then s else Run(Handle(s, events[0], hasAccess, hasCallback), events[1..], hasAccess, hasCallback)
  }

  /** The player starts with the flag unset. */
  const Fresh: PlayerState := PlayerState(false, 0, 0)

  /** The end of the video reports completion at most once per mounted player. */
  lemma {:induction false} EndReportsAtMostOnce(s: PlayerState, events: seq<Event>, hasAccess: bool, hasCallback: bool)
    ensures Run(s, events, hasAccess, hasCallback).endReports <= s.endReports + (if s.completed then 0 else 1)
    ensures s.completed ==> Run(s, events, hasAccess, hasCallback).endReports == s.endReports
    decreases |events|
  {
    if |events| > 0 {
      EndReportsAtMostOnce(Handle(s, events[0], hasAccess, hasCallback), events[1..], hasAccess, hasCallback);
    }
  }

  /** Without access nothing is ever reported and the flag never changes. */
  lemma {:induction false} NothingWithoutAccess(s: PlayerState, events: seq<Event>, hasCallback: bool)
    ensures Run(s, events, false, hasCallback) == s
    decreases |events|
  {
    if |events| > 0 {
      NothingWithoutAccess(s, events[1..], hasCallback);
    }
  }

  /** The flag ends up set exactly when it was set, or the video ended while the
      learner had access and a callback was given. */
  lemma {:induction false} CompletedAfterRun(s: PlayerState, events: seq<Event>, hasAccess: bool, hasCallback: bool)
    ensures Run(s, events, hasAccess, hasCallback).completed <==> s.completed || (hasAccess && hasCallback && VideoEnded in events)
    decreases |events|
  {
    if |events| > 0 {
      CompletedAfterRun(Handle(s, events[0], hasAccess, hasCallback), events[1..], hasAccess, hasCallback);
      assert VideoEnded in events <==> events[0] == VideoEnded || VideoEnded in events[1..];
    }
  }

  /** Since a click never sets the flag, every click reports completion again
      until the video ends: the button is not idempotent by itself. */
  lemma {:induction false} EveryClickReports(s: PlayerState, events: seq<Event>)
    requires !s.completed && VideoEnded !in events
    ensures Run(s, events, true, true).clickReports == s.clickReports + |events|
    decreases |events|
  {
    if |events| > 0 {
      assert events[0] == ButtonClicked;
      assert VideoEnded !in events[1..];
      EveryClickReports(Handle(s, events[0], true, true), events[1..]);
    }
  }
}
